=== FILE: README.md ===
# papaya and pmatrix array utilities, modelled in Dafny

This project models the discrete, array-based core of two Java libraries vendored in the
EOG-in-Processing project:

- **papaya**, a statistics library. The model covers:
  - `Find`: first and last index, index lists with the `{-1}` sentinel, and threshold counters.
  - `Sorting`: the index-producing 3-way quicksort and the two-array sort.
  - `Rank`: ranks under the four tie strategies.
  - `Descriptive`: run-length `frequencies`, `mod`, `max`/`min` of an `int[]`, `checkRangeFromTo`, and the argument checks of `Mean.trimmed`/`Mean.winsorized`.
  - `Mat`: the integer overloads of `linspace`, `concat`, `reverse`, `transpose`, `populate`, `subMatrix`, `sum`, `swap`, `constant` and `compare`, plus `copyThenSort`.
  - `Frequency`: the `int[]` histogram.
  - `Unique`: distinct values, their counts and their positions.
  - `NaNs`: filtering, replacing and locating missing values.
  - `Check`: the argument validators.
  - `Polynomial`: Horner evaluation.
- **pmatrix**, a small matrix helper that ships in two copies. Each operation writes its result into a `public static` array field. The field is allocated on the first call only, and every later call overwrites and returns the same array object. The two copies (`matrix/source/matrix/pmatrix.java` and `matrix/source/matrix/pmatrix/src/matrix/pmatrix.java`) implement their shared operations the same way, so one `PMatrix` module models both. Only the second copy has `transposeMatrix`; only the first has the determinant overload of `columnMultiplyMatrix`. The table below cites the first copy for every shared operation.

Modelling conventions:

- Element values that the Java code only compares are `int`.
- Floating-point results are `real`, computed exactly.
- A missing value is the constructor `NaN` of a small `Float` datatype, not an IEEE bit pattern.
- A Java exception is an `Errors.Error` value inside `Result`/`Outcome`. Its kind is kept: `IllegalArgument`, `IndexOutOfBounds`, `ArrayIndexOutOfBounds`, `NegativeArraySize`, `Arithmetic`, `NullPointer`.
- Java arrays are sequences. Methods that mutate in place return the new contents.
- The static result fields of pmatrix are threaded explicitly. A `Field` is `Null` or a `Buffer`. Each operation takes the current field and returns the field after the call.
- Aliasing is modelled with an `Operand`. An operand is either a separate array or `Aliased`, meaning the caller passed the result field itself. An aliased operand reads the zeros that the operation has just written into its own buffer. While the field is still `null`, an aliased operand is the Java `null`: the operation allocates and zeroes the field, then throws NullPointerException at its first read of that operand.

Modules, one per Java class:

| module | models |
|---|---|
| `Errors` | the exception kinds |
| `Seqs` | counting, sums and index selection on sequences |
| `Check` | `Check.java` |
| `Find` | `Find.java` |
| `Sorting` | `Sorting.java` |
| `Rank` | `Rank.java` |
| `Descriptive` | the named parts of `Descriptive.java` |
| `Mat` | the named parts of `Mat.java` |
| `Frequency` | `Frequency.java` |
| `Unique` | `Unique.java` |
| `NaNs` | `NaNs.java` |
| `Polynomial` | `Polynomial.java` |
| `PMatrix` | both `pmatrix.java` files |

## Model

| member | source | states |
|---|---|---|
| Check.EqualLengths | EOG-in-Processing/libraries/papaya/src/papaya/Check.java:44-49 | passes exactly when the size equals the array length, otherwise IllegalArgumentException |
| Check.EqualSizes | EOG-in-Processing/libraries/papaya/src/papaya/Check.java:50-52 | passes exactly when row counts agree and first rows have equal length; differing row counts give IllegalArgumentException, two empty matrices fail on `A[0]` with ArrayIndexOutOfBoundsException |
| Check.DimensionsForMultiplication | EOG-in-Processing/libraries/papaya/src/papaya/Check.java:53-55 | passes exactly when the column count of A equals the row count of B |
| Check.Size0 | EOG-in-Processing/libraries/papaya/src/papaya/Check.java:56-58 | fails (IllegalArgumentException) exactly for a negative size |
| Check.Size0AcceptsEveryArray | EOG-in-Processing/libraries/papaya/src/papaya/Check.java:56-58 | no array length is rejected, so the "empty input" check lets an empty array through |
| Check.Size3 | EOG-in-Processing/libraries/papaya/src/papaya/Check.java:59-61 | fails exactly when the size is below 3 |
| Check.Size20 | EOG-in-Processing/libraries/papaya/src/papaya/Check.java:62-64 | fails exactly when the size is below 20 |
| Check.Square | EOG-in-Processing/libraries/papaya/src/papaya/Check.java:65-67 | passes exactly for a non-empty matrix with as many rows as its first row has entries; an empty one fails with ArrayIndexOutOfBoundsException |
| Find.IndexOfFrom | EOG-in-Processing/libraries/papaya/src/papaya/Find.java:454-467 | -1 exactly when no match lies at or after max(start, 0); otherwise the smallest such matching index |
| Find.IndexOf | EOG-in-Processing/libraries/papaya/src/papaya/Find.java:436-438 | -1 exactly when the value is absent; otherwise the first position holding it |
| Find.LastIndexOfFrom | EOG-in-Processing/libraries/papaya/src/papaya/Find.java:497-512 | -1 for a negative start; a start past the end is clamped to the last index; otherwise the largest matching index not after start, or -1 |
| Find.LastIndexOf | EOG-in-Processing/libraries/papaya/src/papaya/Find.java:479-481 | starting from Integer.MAX_VALUE searches the whole array: -1 exactly when the value is absent, else its last position |
| Find.Contains | EOG-in-Processing/libraries/papaya/src/papaya/Find.java:523-525 | true exactly when the value occurs in the array |
| Find.CheckIndices | EOG-in-Processing/libraries/papaya/src/papaya/Find.java:1935-1943 | an empty index list becomes the sentinel {-1}; a non-empty one is returned as is |
| Find.IndicesWithFrom | EOG-in-Processing/libraries/papaya/src/papaya/Find.java:552-566 | the sentinel {-1} exactly when nothing matches from max(start, 0); otherwise exactly the matching indices from there, ascending |
| Find.IndicesWith | EOG-in-Processing/libraries/papaya/src/papaya/Find.java:537-539 | {-1} exactly when the value is absent; otherwise every position holding it, ascending |
| Find.IndicesWithin | EOG-in-Processing/libraries/papaya/src/papaya/Find.java:572-583 | each element is promoted to `float` before the comparison; {-1} when no promoted element lies in [min, max], otherwise exactly those positions, ascending |
| Find.RoundToFloat | EOG-in-Processing/libraries/papaya/src/papaya/Find.java:578 | the `int`-to-`float` promotion of a natural lands on a multiple of the float spacing at that magnitude, within half a spacing of the element |
| Find.FloatOfInt | EOG-in-Processing/libraries/papaya/src/papaya/Find.java:578 | `(float)n` keeps the sign of n, is a multiple of the float spacing at the magnitude of n and lies within half a spacing of n |
| Find.SmallIntsAreExact | EOG-in-Processing/libraries/papaya/src/papaya/Find.java:578 | elements of magnitude at most 2^24 are promoted unchanged |
| Find.FirstInexactInt | EOG-in-Processing/libraries/papaya/src/papaya/Find.java:578 | 2^24 + 1 is promoted to 2^24 (a tie, rounded to even) |
| Find.IndicesWithinSmallValues | EOG-in-Processing/libraries/papaya/src/papaya/Find.java:572-583 | when every element is within 2^24 in magnitude, the result is exactly the positions whose integer value lies in [min, max] |
| Find.IndicesWithinRoundsElements | EOG-in-Processing/libraries/papaya/src/papaya/Find.java:572-583 | the array (2^24 + 1) with bounds [2^24, 2^24] gives (0): the element is found although its exact value lies above the bounds |
| Find.IndicesLessThanOrEqualTo | EOG-in-Processing/libraries/papaya/src/papaya/Find.java:585-591 | exactly the positions holding a value <= m, ascending, and empty (no sentinel) when there are none |
| Find.IndicesLessThan | EOG-in-Processing/libraries/papaya/src/papaya/Find.java:593-599 | exactly the positions holding a value < m, ascending, possibly empty |
| Find.IndicesGreaterThanOrEqualTo | EOG-in-Processing/libraries/papaya/src/papaya/Find.java:601-607 | exactly the positions holding a value >= m, ascending, possibly empty |
| Find.IndicesGreaterThan | EOG-in-Processing/libraries/papaya/src/papaya/Find.java:609-615 | exactly the positions holding a value > m, ascending, possibly empty |
| Find.CountMatching | EOG-in-Processing/libraries/papaya/src/papaya/Find.java:625-633 | the counting loop shared by the counters returns the number of elements meeting the predicate |
| Find.NumRepeats | EOG-in-Processing/libraries/papaya/src/papaya/Find.java:625-633 | the number of positions holding the value, zero exactly when it is absent |
| Find.NumRepeatsOfAbsentValue | EOG-in-Processing/libraries/papaya/src/papaya/Find.java:617-633 | an absent value yields 0, not the documented `INDEX_NOT_FOUND` |
| Find.NumRepeatsOrNotFound | EOG-in-Processing/libraries/papaya/src/papaya/Find.java:617-633 | the documented result: `INDEX_NOT_FOUND` exactly when the value is absent, otherwise the positive count of positions holding it |
| Find.NumLessThanOrEqualTo | EOG-in-Processing/libraries/papaya/src/papaya/Find.java:642-650 | the number of elements <= m |
| Find.NumLessThan | EOG-in-Processing/libraries/papaya/src/papaya/Find.java:659-667 | the number of elements < m |
| Find.NumGreaterThanOrEqualTo | EOG-in-Processing/libraries/papaya/src/papaya/Find.java:676-684 | the number of elements >= m |
| Find.NumGreaterThan | EOG-in-Processing/libraries/papaya/src/papaya/Find.java:693-701 | the number of elements > m |
| Find.CountersPartition | EOG-in-Processing/libraries/papaya/src/papaya/Find.java:642-701 | numLessThan + numGreaterThanOrEqualTo and numLessThanOrEqualTo + numGreaterThan both equal the array length |
| Find.IndicesMatchCounters | EOG-in-Processing/libraries/papaya/src/papaya/Find.java:585-615 | each indices* list is exactly as long as the matching num* count |
| Find.IndicesWithMatchesRepeats | EOG-in-Processing/libraries/papaya/src/papaya/Find.java:537-566 | for a present value, indicesWith lists numRepeats positions |
| Find.FirstNotAfterLast | EOG-in-Processing/libraries/papaya/src/papaya/Find.java:436-512 | indexOf and lastIndexOf are -1 together, the first hit is never after the last, and a value occurring once has equal first and last index |
| Sorting.Compare | EOG-in-Processing/libraries/papaya/src/papaya/Sorting.java:771-774 | negative, zero or positive exactly as value1 comes before, ties with or comes after value2 in the requested direction |
| Sorting.Swap | EOG-in-Processing/libraries/papaya/src/papaya/Sorting.java:784-788 | exchanges the two cells, changes nothing else and keeps the multiset |
| Sorting.VecSwap | EOG-in-Processing/libraries/papaya/src/papaya/Sorting.java:799-803 | a permutation that changes nothing outside the two blocks; for disjoint blocks the blocks change places |
| Sorting.Med3 | EOG-in-Processing/libraries/papaya/src/papaya/Sorting.java:226-235 | returns one of a, b, c, and the value there is the median of the three values |
| Sorting.InsertionSort | EOG-in-Processing/libraries/papaya/src/papaya/Sorting.java:411-422 | the short-range insertion sort leaves the range sorted, permutes it, and touches nothing outside it |
| Sorting.Partition | EOG-in-Processing/libraries/papaya/src/papaya/Sorting.java:443-465 | after the partition loop the range reads (tied)(before)(after)(tied) relative to the partition value, as a permutation confined to the range |
| Sorting.QuickSort | EOG-in-Processing/libraries/papaya/src/papaya/Sorting.java:409-492 | cells off..off+len-1 end sorted by their first component, as a permutation of whole cells, with every other cell unchanged |
| Sorting.RangeCheck | EOG-in-Processing/libraries/papaya/src/papaya/Sorting.java:808-816 | passes exactly when 0 <= from <= to <= length; from > to gives IllegalArgumentException, otherwise a failure is ArrayIndexOutOfBoundsException |
| Sorting.Indices | EOG-in-Processing/libraries/papaya/src/papaya/Sorting.java:150-158 | a rejected range gives rangeCheck's error; otherwise a permutation of 0..n-1 that is the identity outside [from, to) and lists positions of `a` in the requested order inside it |
| Sorting.IndicesOf | EOG-in-Processing/libraries/papaya/src/papaya/Sorting.java:106-108 | a permutation of 0..n-1 along which `a` is ordered; ascending, reading `a` through it gives the sorted copy of `a` |
| Sorting.GatheredIsSorted | EOG-in-Processing/libraries/papaya/src/papaya/Sorting.java:106-108 | reading `a` through any sorting permutation of its positions yields the sorted copy of `a` |
| Sorting.TwoArrays | EOG-in-Processing/libraries/papaya/src/papaya/Sorting.java:197-201 | x[from..to) ends ordered, the (x, y) pairs in the range are a permutation of the original pairs, and both arrays are unchanged outside the range |
| Rank.CheckTiesStrategy | EOG-in-Processing/libraries/papaya/src/papaya/Rank.java:355-358 | passes exactly for strategies 0..3, otherwise IllegalArgumentException |
| Rank.DocumentedExample | EOG-in-Processing/libraries/papaya/src/papaya/Rank.java:54-61 | the documented rank reference gives (1,2.5,4,2.5), (1,2,4,2), (1,3,4,3) and (1,2,4,3) for (1,3,4,3) |
| Rank.NoTies | EOG-in-Processing/libraries/papaya/src/papaya/Rank.java:322-348 | without ties every strategy ranks each value as 1 + the number of smaller values, and distinct positions get distinct ranks in 1..n |
| Rank.SortPairsSpec | EOG-in-Processing/libraries/papaya/src/papaya/Rank.java:540-568 | sorting the labelled pairs yields a permutation ordered by value, ties by position |
| Rank.Fill | EOG-in-Processing/libraries/papaya/src/papaya/Rank.java:493-498 | every listed position gets the value and every other position is unchanged |
| Rank.FillSequential | EOG-in-Processing/libraries/papaya/src/papaya/Rank.java:474-482 | the j-th listed position gets f + j; unlisted positions are unchanged |
| Rank.ResolveTie | EOG-in-Processing/libraries/papaya/src/papaya/Rank.java:455-484 | positions outside the tie group are unchanged; the j-th member of a group starting at rank c with length len gets (2c+len-1)/2, c, c+len-1 or round(c)+j by strategy |
| Rank.RankIt | EOG-in-Processing/libraries/papaya/src/papaya/Rank.java:322-348 | no pairs gives ArrayIndexOutOfBoundsException; otherwise the k-th sorted pair's position receives the resolved rank of its tie group |
| Rank.Rank | EOG-in-Processing/libraries/papaya/src/papaya/Rank.java:270-283 | a bad strategy gives IllegalArgumentException and empty data ArrayIndexOutOfBoundsException; otherwise each position gets the documented rank, computed from the counts of smaller, not larger and earlier equal values |
| Rank.SortedRankIsSpec | EOG-in-Processing/libraries/papaya/src/papaya/Rank.java:322-348 | the rank the walk over sorted pairs assigns equals the documented rank of that pair's original position |
| Rank.PrecedingLabels | EOG-in-Processing/libraries/papaya/src/papaya/Rank.java:540-568 | the pairs sorting before (v, p) are the smaller values plus the equal values at earlier positions |
| Descriptive.RunLengthSpec | EOG-in-Processing/libraries/papaya/src/papaya/Descriptive.java:119-137 | run-length encoding has no empty or adjacent equal runs, and expanding it gives the input back |
| Descriptive.RunLengthOfExpand | EOG-in-Processing/libraries/papaya/src/papaya/Descriptive.java:119-137 | encoding an expanded canonical run list gives that list back |
| Descriptive.RunLengthCounts | EOG-in-Processing/libraries/papaya/src/papaya/Descriptive.java:95-100 | on ascending data the run values are strictly increasing, are exactly the data's values, each run length is that value's count, and lengths sum to the data length |
| Descriptive.Frequencies | EOG-in-Processing/libraries/papaya/src/papaya/Descriptive.java:119-137 | distinct values are one per run; a null frequency list stays null, otherwise it holds the run lengths, as many as values, summing to the data length |
| Descriptive.Mod | EOG-in-Processing/libraries/papaya/src/papaya/Descriptive.java:739-756 | empty data fails on `frequencies.get(0)` (IndexOutOfBoundsException); otherwise the run values whose run length is the largest, in run order |
| Descriptive.ModOfUnsortedData | EOG-in-Processing/libraries/papaya/src/papaya/Descriptive.java:739-756 | on (1,2,1) `mod` returns (1,2,1), although 2 occurs less often than 1 |
| Descriptive.ModSorted | EOG-in-Processing/libraries/papaya/src/papaya/Descriptive.java:732-738 | with the data sorted first, the result is ascending and holds exactly the values of greatest count |
| Descriptive.LargestCount | EOG-in-Processing/libraries/papaya/src/papaya/Descriptive.java:743-748 | the first loop of `mod` finds an element of the counts that bounds all of them |
| Descriptive.Max | EOG-in-Processing/libraries/papaya/src/papaya/Descriptive.java:459-467 | empty data gives ArrayIndexOutOfBoundsException; otherwise an element that is >= every element |
| Descriptive.Min | EOG-in-Processing/libraries/papaya/src/papaya/Descriptive.java:710-718 | empty data gives ArrayIndexOutOfBoundsException; otherwise an element that is <= every element |
| Descriptive.CheckRangeFromTo | EOG-in-Processing/libraries/papaya/src/papaya/Descriptive.java:81-85 | passes exactly for the empty range to == from-1 or for 0 <= from <= to < size; failure is IndexOutOfBoundsException |
| Descriptive.CheckedRangeIsSafe | EOG-in-Processing/libraries/papaya/src/papaya/Descriptive.java:81-85 | an accepted range has non-negative length and, when non-empty, lies inside the array |
| Descriptive.TrimmedArguments | EOG-in-Processing/libraries/papaya/src/papaya/Descriptive.java:590-598 | left + right >= size gives IllegalArgumentException; a side larger than the data then fails on the array read |
| Descriptive.WinsorizedArguments | EOG-in-Processing/libraries/papaya/src/papaya/Descriptive.java:609-618 | left + right >= size gives IllegalArgumentException; a negative side then fails on `sortedData[left]` or `sortedData[size-1-right]` |
| Descriptive.WinsorizedStricterThanTrimmed | EOG-in-Processing/libraries/papaya/src/papaya/Descriptive.java:590-618 | every argument pair winsorized accepts is accepted by trimmed, and a negative left side separates the two |
| Mat.Compare | EOG-in-Processing/libraries/papaya/src/papaya/Mat.java:174-176 | -1, 0 or 1 exactly as a <, == or > b |
| Mat.Concat | EOG-in-Processing/libraries/papaya/src/papaya/Mat.java:194-199 | length |a|+|b| with a as prefix and b as suffix |
| Mat.Constant | EOG-in-Processing/libraries/papaya/src/papaya/Mat.java:216-220 | a negative size gives NegativeArraySizeException; otherwise size copies of the value |
| Mat.CopyThenSort | EOG-in-Processing/libraries/papaya/src/papaya/Mat.java:235-240 | an ascending permutation of the input |
| Mat.AscendingPermutationUnique | EOG-in-Processing/libraries/papaya/src/papaya/Mat.java:235-240 | two ascending permutations of each other are equal, so the sorted copy is determined by the input |
| Mat.Linspace | EOG-in-Processing/libraries/papaya/src/papaya/Mat.java:450-454 | a negative length end-start+1 gives NegativeArraySizeException; otherwise element i is start+i |
| Mat.Populate | EOG-in-Processing/libraries/papaya/src/papaya/Mat.java:760-766 | an out-of-range index gives ArrayIndexOutOfBoundsException; otherwise out[i] = full[idx[i]] |
| Mat.GatherCompose | EOG-in-Processing/libraries/papaya/src/papaya/Mat.java:760-766 | populating twice equals populating once through the composed index array |
| Mat.GatherByRange | EOG-in-Processing/libraries/papaya/src/papaya/Mat.java:760-766 | populating with linspace(0, n-1) gives the array back |
| Mat.Reverse | EOG-in-Processing/libraries/papaya/src/papaya/Mat.java:1057-1066 | a new array r with r[size-1-i] = data[i] |
| Mat.ReverseInvolution | EOG-in-Processing/libraries/papaya/src/papaya/Mat.java:1057-1066 | reversing twice gives the input back |
| Mat.ReverseConcat | EOG-in-Processing/libraries/papaya/src/papaya/Mat.java:1057-1066 | reversing a concatenation concatenates the reversed parts in swapped order |
| Mat.Transpose | EOG-in-Processing/libraries/papaya/src/papaya/Mat.java:1473-1483 | an empty matrix or a row shorter than the first gives ArrayIndexOutOfBoundsException; otherwise t[c][r] = d[r][c] with swapped dimensions |
| Mat.TransposeTwice | EOG-in-Processing/libraries/papaya/src/papaya/Mat.java:1473-1483 | transposing a rectangular matrix twice gives it back |
| Mat.SubMatrix | EOG-in-Processing/libraries/papaya/src/papaya/Mat.java:1275-1289 | too many requested rows or columns give IllegalArgumentException, an absent cell ArrayIndexOutOfBoundsException; otherwise out[i][j] = in[rows[i]][cols[j]] |
| Mat.SubMatrixRejectsRepeatedRow | EOG-in-Processing/libraries/papaya/src/papaya/Mat.java:1277-1280 | three in-range row indices into a two-row matrix are rejected because they outnumber the rows |
| Mat.SubMatrixInBounds | EOG-in-Processing/libraries/papaya/src/papaya/Mat.java:1275-1289 | fails exactly when some requested index lies outside the matrix; otherwise out[i][j] = in[rows[i]][cols[j]] |
| Mat.SubMatrixInBoundsExtends | EOG-in-Processing/libraries/papaya/src/papaya/Mat.java:1275-1289 | wherever the original succeeds the corrected version gives the same matrix |
| Mat.SumOfArray | EOG-in-Processing/libraries/papaya/src/papaya/Mat.java:1353-1357 | an empty array fails on `data[0]`; otherwise the sum of the elements |
| Mat.SumOfArrays | EOG-in-Processing/libraries/papaya/src/papaya/Mat.java:1363-1369 | unequal lengths give IllegalArgumentException; otherwise the elementwise sum |
| Mat.SumOfPlus | EOG-in-Processing/libraries/papaya/src/papaya/Mat.java:1363-1369 | the sum of an elementwise sum is the sum of the two sums |
| Mat.SumWithNumber | EOG-in-Processing/libraries/papaya/src/papaya/Mat.java:1377-1381 | every element shifted by the number |
| Mat.SumOfShifted | EOG-in-Processing/libraries/papaya/src/papaya/Mat.java:1377-1381 | shifting by a number adds length times that number to the sum |
| Mat.Swap | EOG-in-Processing/libraries/papaya/src/papaya/Mat.java:1414-1418 | with both indices in range the two cells are exchanged; otherwise ArrayIndexOutOfBoundsException with the array unchanged |
| Mat.SwapSpec | EOG-in-Processing/libraries/papaya/src/papaya/Mat.java:1414-1418 | the swap exchanges the two cells, keeps every other cell and the multiset, and undoes itself |
| Frequency.JavaDiv | EOG-in-Processing/libraries/papaya/src/papaya/Frequency.java:116-119 | Java's integer division truncates toward zero for either sign of divisor: the remainder a − r·b is zero or has the sign of a, and is smaller in magnitude than b; for a positive divisor r is the Euclidean quotient of the magnitudes, with a's sign |
| Frequency.NewFrequency | EOG-in-Processing/libraries/papaya/src/papaya/Frequency.java:115-122 | zero width gives ArithmeticException, a negative bin count NegativeArraySizeException, a value outside the bins ArrayIndexOutOfBoundsException; otherwise bin b counts the values in it, and the counts sum to ln = data length |
| Frequency.BelowMinCountsInFirstBin | EOG-in-Processing/libraries/papaya/src/papaya/Frequency.java:118-120 | a value less than one bin width below min is counted in bin 0, because the division truncates |
| Frequency.CountIntoBins | EOG-in-Processing/libraries/papaya/src/papaya/Frequency.java:117-120 | succeeds exactly when every value lands in a bin, and then each count is the number of values in that bin |
| Frequency.CompCumFrequency | EOG-in-Processing/libraries/papaya/src/papaya/Frequency.java:145-152 | no bins gives ArrayIndexOutOfBoundsException; otherwise entry i is the sum of bins 0..i, ascending for non-negative counts, and the last entry is the total |
| Frequency.GetNumBins | EOG-in-Processing/libraries/papaya/src/papaya/Frequency.java:185-187 | for a constructed histogram, the number of bins equals the length of the frequency array |
| Frequency.CumulativeTotalIsLength | EOG-in-Processing/libraries/papaya/src/papaya/Frequency.java:115-152 | constructing a histogram and then calling compCumFrequency gives a last running total equal to the number of values; for data in [min, max] with a positive width both calls succeed |
| Unique.NewUnique | EOG-in-Processing/libraries/papaya/src/papaya/Unique.java:79-102 | values are the distinct data values, strictly ascending; frequencies are their counts, summing to the length; idx is present exactly when requested and then lists each value's positions, ascending |
| Unique.PositionsOf | EOG-in-Processing/libraries/papaya/src/papaya/Unique.java:90-98 | a value seen once gets the one index indexOf finds, any other the list indicesWith finds; both are exactly its positions |
| Unique.DocumentedExample | EOG-in-Processing/libraries/papaya/src/papaya/Unique.java:70-72 | for (8,5,6,7,8,5,5) the promise forces values (5,6,7,8), frequencies (3,1,1,2) and positions {1,5,6}, {2}, {3}, {0,4} |
| Unique.PositionsPartitionData | EOG-in-Processing/libraries/papaya/src/papaya/Unique.java:87-100 | every data position appears in some value's list, and only under the value stored there |
| NaNs.NonNaNSpec | EOG-in-Processing/libraries/papaya/src/papaya/NaNs.java:140-151 | the non-NaN subsequence has length n minus the NaN count, holds no NaN, and is a sub-multiset of the data |
| NaNs.Eliminate | EOG-in-Processing/libraries/papaya/src/papaya/NaNs.java:140-151 | the non-NaN elements in their original order, length n minus the NaN count, and the data itself when it has no NaN |
| NaNs.ReplaceNewWith | EOG-in-Processing/libraries/papaya/src/papaya/NaNs.java:160-172 | same length, NaNs replaced by newNaN, other elements unchanged; a non-NaN replacement leaves no NaN |
| NaNs.ReplaceOriginalWith | EOG-in-Processing/libraries/papaya/src/papaya/NaNs.java:180-185 | the same replacement in place |
| NaNs.ContainsNaNs | EOG-in-Processing/libraries/papaya/src/papaya/NaNs.java:193-200 | true exactly when some element is NaN |
| NaNs.GetNaNPositions | EOG-in-Processing/libraries/papaya/src/papaya/NaNs.java:207-215 | exactly the NaN positions, ascending, as many as NaNs, and together with the eliminated array as many as the data |
| Polynomial.HornerIsPowerSum | EOG-in-Processing/libraries/papaya/src/papaya/Polynomial.java:45-56 | Horner's rule equals coeff[0]·x^(n-1) + … + coeff[n-1] |
| Polynomial.PolyVal | EOG-in-Processing/libraries/papaya/src/papaya/Polynomial.java:100-105 | empty coefficients fail on `coeff[0]`; otherwise the value of the polynomial in descending powers |
| Polynomial.PolyValArray | EOG-in-Processing/libraries/papaya/src/papaya/Polynomial.java:120-127 | one value per argument, each the polynomial at that argument; fails only when there is an argument and no coefficient |
| Polynomial.PowerSumAtZero | EOG-in-Processing/libraries/papaya/src/papaya/Polynomial.java:45-56 | at x = 0 the polynomial is its constant term coeff[n-1] |
| PMatrix.Allocate | EOG-in-Processing/libraries/matrix/source/matrix/pmatrix.java:55-58 | a null field is allocated with the requested shape, failing on a negative dimension; an allocated field is kept whatever its shape |
| PMatrix.IdentityMatrix | EOG-in-Processing/libraries/matrix/source/matrix/pmatrix.java:11-38 | a null field of negative size fails; a fresh field gives the identity; it succeeds exactly when the field covers n×n, then holds 1 on the diagonal and 0 off it, leaves cells beyond n×n alone, and the field is that array |
| PMatrix.MultiplySquareMatrix | EOG-in-Processing/libraries/matrix/source/matrix/pmatrix.java:48-85 | succeeds exactly when the field covers rows×cols and A, B cover the cells read; then r[c][d] = Σ_{i<cols} A[c][i]·B[i][d], and later calls reuse the same array; it fails with NegativeArraySizeException exactly when the field is null and a dimension is negative, and with ArrayIndexOutOfBoundsException otherwise |
| PMatrix.IdentityTimesMatrix | EOG-in-Processing/libraries/matrix/source/matrix/pmatrix.java:70-79 | the product's sum with the identity on the left reproduces B's cell |
| PMatrix.MatrixTimesIdentity | EOG-in-Processing/libraries/matrix/source/matrix/pmatrix.java:70-79 | the product's sum with the identity on the right reproduces A's cell |
| PMatrix.AddSquareMatrix | EOG-in-Processing/libraries/matrix/source/matrix/pmatrix.java:96-133 | succeeds exactly when the field covers rows×cols, both operands can be read there and neither is the still-null field; then r[c][d] = A[c][d] + B[c][d], where an operand that is the field itself reads the zeros just written; it fails with NegativeArraySizeException exactly when the field is null and a dimension is negative; with NullPointerException exactly when the field is null, the corner is non-empty and A is the field, or B is the field and A has cell (0,0); then the field is left allocated and zeroed; otherwise with ArrayIndexOutOfBoundsException |
| PMatrix.SubtractSquareMatrix | EOG-in-Processing/libraries/matrix/source/matrix/pmatrix.java:144-178 | as add, with r[c][d] = A[c][d] − B[c][d], including the NullPointerException when the still-null field is passed back as an operand |
| PMatrix.ScaleSquareMatrix | EOG-in-Processing/libraries/matrix/source/matrix/pmatrix.java:191-225 | as add, with r[c][d] = A[c][d]·k; it fails with NegativeArraySizeException exactly when the field is null and a dimension is negative, with NullPointerException exactly when the field is null, the corner is non-empty and A is the field (the field is then left allocated and zeroed), and with ArrayIndexOutOfBoundsException otherwise |
| PMatrix.TransposeMatrix | EOG-in-Processing/libraries/matrix/source/matrix/pmatrix/src/matrix/pmatrix.java:48-81 | succeeds exactly when the field covers rows×cols and A covers cols×rows; then r[c][d] = A[d][c]; it fails with NegativeArraySizeException exactly when the field is null and a dimension is negative, and with ArrayIndexOutOfBoundsException otherwise |
| PMatrix.ColumnMultiplyMatrix | EOG-in-Processing/libraries/matrix/source/matrix/pmatrix.java:236-269 | a fresh buffer has length cols, so with 0 < cols < rows the call fails; NegativeArraySizeException exactly when the field is null and cols < 0; when it succeeds, the field keeps its length (cols for a fresh one), r[c] = Σ_{d<cols} v[d]·M[c][d] for every row c < rows when cols > 0, and every other entry is left as it was |
| PMatrix.ColumnMultiplyByRows | EOG-in-Processing/libraries/matrix/source/matrix/pmatrix.java:258-264 | with a buffer of one entry per row, a fresh call succeeds exactly when v and M cover the cells read, and gives r[c] = Σ_{d<cols} v[d]·M[c][d] |
| PMatrix.ColumnIsProduct | EOG-in-Processing/libraries/matrix/source/matrix/pmatrix.java:258-264 | the row-times-vector sum equals the matrix product of M with v as a one-column matrix |
| PMatrix.ColumnMultiplyDeterminant | EOG-in-Processing/libraries/matrix/source/matrix/pmatrix.java:282-363 | a negative size fails when the index tables are allocated; otherwise the result is always 0 |
| PMatrix.AddToNullField | EOG-in-Processing/libraries/matrix/source/matrix/pmatrix.java:96-133 | passing the still-null `add` field back as A, for rows = cols = 1, throws NullPointerException and leaves the field allocated as ((0)) |
| PMatrix.ChainedAdd | EOG-in-Processing/libraries/matrix/source/matrix/pmatrix.java:103-127 | on a fresh field, add(add(A, B), C) succeeds and returns C, not A + B + C |
| PMatrix.ChainedSum | EOG-in-Processing/libraries/matrix/source/matrix/pmatrix.java:118-127 | with a fresh buffer per step, the chained addition succeeds exactly when the shapes are covered and yields A + B + C cell by cell |

## Left out

- Null arrays: a `null` array passed by the caller has no counterpart among sequences, so those NullPointerException paths are absent. The one null the model does represent is a pmatrix field handed back to add, subtract or scale while it is still `null`; that path throws NullPointerException as in Java.
- Java `int` overflow. Sums, `end-start+1` in `linspace` and `value1 - value2` in `Sorting.compare` are computed on unbounded integers, so the model assumes inputs that do not overflow.
- IEEE floating point. pmatrix, `Polynomial` and the rank output are exact `real`, with no rounding, no infinities and no NaN arithmetic. The one `int`-to-`float` promotion that is modelled is the comparison in `Find.indicesWithin`.
- Frequency.NewFrequency: bin counts are exact integers. Java keeps them in a `float[]`, where `frequency[bin]++` stops growing once a count reaches 2^24, and `compCumFrequency` rounds its running totals; `Frequency.CompCumFrequency` and `Frequency.CumulativeTotalIsLength` inherit the exact counts.
- Descriptive.Frequencies: modelled on `int` values, though the Java method takes `float[]`. The data is taken to hold no NaN and a single zero: Java's `==` would split NaNs into runs of one, and `Arrays.sort` orders -0.0 before 0.0 and NaN last.
- Descriptive.Mod: the same `float[]` data taken as NaN-free `int` values with a single zero.
- Unique.NewUnique: the same `float[]` data taken as NaN-free `int` values with a single zero; in Java a NaN value gets the position list {-1}, since `Find.indexOf` never matches NaN.
- Mat.CopyThenSort: sorts NaN-free `int` values with a single zero; `Arrays.sort(float[])` puts -0.0 before 0.0 and NaNs last.
- The `float[]`/`double[]`/`long[]`/`short[]`/`char[]`/`byte[]`/`boolean[]`/`Object[]` overloads of `Find`, `Sorting`, `NaNs` and `Polynomial`. They repeat the `int[]` logic on other element types; `NaNs` and `Polynomial` are modelled once on `Float`/`real`.
- `Rank`'s NaN strategies (`rank(data, ties, nanStrategy)`, `removeNaNs`, `recodeNaNs`, `restoreNaNs`) depend on IEEE NaN ordering.
- Rank.Rank: the `(float)` cast of the `int` data is taken as exact. Java ranks the rounded values, so values above 2^24 that round to the same float tie: 16777216 and 16777217 both become 16777216f and share a rank in Java, while the model gives them different ranks.
- `Arrays.sort` is the JDK's. In `Rank` it is modelled as a stable insertion sort of the (value, position) pairs, and in `Mat.copyThenSort` as an insertion sort. Only the order they produce matters.
- `Mat.linspace(start, end, stepSize)` and the other floating-point parts of `Mat` and `Descriptive` (means, moments, `Mean.trimmed`/`winsorized` arithmetic beyond the argument checks) are left out.
- Sorting.TwoArrays: requires `y` to be at least `toIndex` long. With a shorter `y`, Java throws ArrayIndexOutOfBoundsException at the first swap that reaches past the end of `y`, after that step's swap of `x` has happened; when no swap reaches that far (a range already in order, say) it returns normally. The model describes neither case. The model also takes `x` and `y` to be distinct arrays. When the same array is passed as both, every swap of `x` is undone by the same swap of `y`, so Java leaves the range as it was: `twoArrays(a, a, 0, 2, true)` with a = {2, 1} leaves {2, 1}.
- Mat.Swap: its contract speaks of an array's old contents (a `modifies` method); `Mat.SwapSpec` states the same exchange on sequences.
- NaNs.ReplaceOriginalWith: in-place on an array, stated with the array's old contents; `NaNs.ReplaceNewWith` is the sequence form.
- PMatrix.AddSquareMatrix: after an exception, the contents of the static field are not described. This applies to every pmatrix operation; only the error kind and the `Null` field after a failed allocation are stated.
- PMatrix.MultiplySquareMatrix: operands that alias the result field are not modelled for multiply, transpose and columnMultiply; those operands are plain arrays. Aliasing is modelled for add, subtract and scale.
- PMatrix.ColumnMultiplyDeterminant: the local tables `removalMatrix` and `sumMatrix` are allocated with `matrixSize` rows and filled, with `matrixSearch = matrixSize - 2` bounding the loop, but nothing reads them, so only their allocation failure is modelled. The accumulation line is commented out in the source, so `det` stays 0.
- The repository's Python scripts (`template_match.py`, `graph.py`, `plot.py`, `main (copy).py`, `live_graph.py`) are OpenCV and matplotlib I/O, and the Processing drawing classes have no decision logic to model.
- The remaining papaya classes (`Probability`, `Gamma`, `Correlation`, `LU`, `QR`, `MDS` and so on) are numerical algorithms outside this model.

## Findings

| source | as written | input that shows it | evidently intended | confidence | as-written member | corrected member |
|---|---|---|---|---|---|---|
| EOG-in-Processing/libraries/matrix/source/matrix/pmatrix.java:243-246 | the result vector is allocated with `matrixSizecolumn` entries but indexed by row `c < matrixSizerow` | fresh field, rows = 2, cols = 1, v = (1), M = ((1),(1)): writing entry 1 throws ArrayIndexOutOfBoundsException | one entry per row, r[c] = Σ_d v[d]·M[c][d] | not executed | PMatrix.ColumnMultiplyMatrix | PMatrix.ColumnMultiplyByRows |
| EOG-in-Processing/libraries/matrix/source/matrix/pmatrix.java:103-127 | the result field is zeroed before the operands are read, and every call returns that same array, so a previous result passed back in reads as zeros | add(add(((1)),((2))),((3))) returns ((3)) | ((6)), the sum of all three | not executed | PMatrix.ChainedAdd | PMatrix.ChainedSum |
| EOG-in-Processing/libraries/papaya/src/papaya/Descriptive.java:739-756 | `mod` takes runs of the unsorted input as if it were sorted | (1,2,1) returns (1,2,1): 1 twice, and 2 although it occurs once | (1), each most frequent value once | not executed | Descriptive.ModOfUnsortedData | Descriptive.ModSorted |
| EOG-in-Processing/libraries/papaya/src/papaya/Mat.java:1277-1280 | `subMatrix` compares the number of requested rows and columns with the matrix dimensions, not the index values | ((1,2),(3,4)) with rows (0,0,1) and cols (0) throws IllegalArgumentException | ((1),(1),(3)); reject only indices outside the matrix | not executed | Mat.SubMatrixRejectsRepeatedRow | Mat.SubMatrixInBounds |
| EOG-in-Processing/libraries/papaya/src/papaya/Find.java:617-633 | the documentation promises `INDEX_NOT_FOUND` (-1) for a value that is not present, but the loop returns the count, which is 0 | (1, 2) with value 3 returns 0 | -1 when the value is absent, the count otherwise; the documentation may instead be a copy from `indexOf`, so which side is wrong is uncertain | not executed, low | Find.NumRepeatsOfAbsentValue | Find.NumRepeatsOrNotFound |

=== FILE: check.dfy ===
/** The argument validators of papaya's `Check` class (Check.java).

    Each validator either passes or names the exception it throws. Java's
    short-circuit `||` decides which exception appears when a matrix has
    no rows: the validators that read `A[0]` throw an index error then. */
module Check {
  import opened Errors

  /** `equalLengths(size, array)` (both the int[] and the float[] overload). */
  function EqualLengths<T>(size: int, data: seq<T>): (r: Outcome)
    ensures r == Pass <==> size == |data|
    ensures r != Pass ==> r == Fail(IllegalArgument)
  {
    if size != |data| then Fail(IllegalArgument) else Pass
  }

  /** `equalSizes(A, B)`: same number of rows and same first-row length. */
  function EqualSizes<T>(a: seq<seq<T>>, b: seq<seq<T>>): (r: Outcome)
    ensures r == Pass <==> |a| == |b| && |a| > 0 && |a[0]| == |b[0]|
    ensures |a| != |b| ==> r == Fail(IllegalArgument)
    ensures |a| == |b| == 0 ==> r == Fail(ArrayIndexOutOfBounds)
    ensures |a| == |b| > 0 && |a[0]| != |b[0]| ==> r == Fail(IllegalArgument)
  {
    if |a| != |b| then Fail(IllegalArgument)
    else if |a| == 0 then Fail(ArrayIndexOutOfBounds)
    else if |a[0]| != |b[0]| then Fail(IllegalArgument)
    else Pass
  }

  /** `dimensionsForMultiplication(numColumnsA, numRowsB)`. */
  function DimensionsForMultiplication(numColumnsA: int, numRowsB: int): (r: Outcome)
    ensures r == Pass <==> numColumnsA == numRowsB
    ensures r != Pass ==> r == Fail(IllegalArgument)
  {
    if numColumnsA != numRowsB then Fail(IllegalArgument) else Pass
  }

  /** `size0(size)`: throws only for a negative size. */
  function Size0(size: int): (r: Outcome)
    ensures r == Pass <==> size >= 0
    ensures r != Pass ==> r == Fail(IllegalArgument)
  {
    if size < 0 then Fail(IllegalArgument) else Pass
  }

  /** `size3(size)`. */
  function Size3(size: int): (r: Outcome)
    ensures r == Pass <==> size >= 3
    ensures r != Pass ==> r == Fail(IllegalArgument)
  {
    if size < 3 then Fail(IllegalArgument) else Pass
  }

  /** `size20(size)`. */
  function Size20(size: int): (r: Outcome)
    ensures r == Pass <==> size >= 20
    ensures r != Pass ==> r == Fail(IllegalArgument)
  {
    if size < 20 then Fail(IllegalArgument) else Pass
  }

  /** `square(A)`: as many rows as the first row has columns. */
  function Square<T>(a: seq<seq<T>>): (r: Outcome)
    ensures r == Pass <==> |a| > 0 && |a| == |a[0]|
    ensures |a| == 0 ==> r == Fail(ArrayIndexOutOfBounds)
    ensures |a| > 0 && |a| != |a[0]| ==> r == Fail(IllegalArgument)
  {
    if |a| == 0 then Fail(ArrayIndexOutOfBounds)
    else if |a| != |a[0]| then Fail(IllegalArgument)
    else Pass
  }

  /** No array has a negative length, so `size0` accepts every array,
      the empty one included. */
  lemma Size0AcceptsEveryArray<T>(data: seq<T>)
    ensures Size0(|data|) == Pass
  {
  }
}

=== FILE: descriptive.dfy ===
/** The discrete parts of papaya's `Descriptive` class (Descriptive.java):
    run-length frequencies, the mode, max/min of an `int[]`, the
    from/to range check and the argument checks of `Mean.trimmed` and
    `Mean.winsorized`.

    `frequencies` and `mod` take `float[]` data but only compare elements
    with `==`; elements are modelled as integers, so NaN (which never
    equals itself) and the two zeros are not modelled. */
module Descriptive {
  import opened Errors
  import opened Seqs
  import Check
  import Mat

  // ------------------------------------------------------- run-length pairs

  /** The two lists `frequencies` fills: distinct values and run lengths. */
  datatype Runs = Runs(values: seq<int>, counts: seq<int>)

  /** A `java.util.ArrayList` argument that may be `null`. */
  datatype Option<T> = None | Some(value: T)

  /** Well-formed run-length pairs: one positive count per value, and no two
      neighbouring runs with the same value. */
  predicate Canonical(r: Runs)
  {
    && |r.values| == |r.counts|
    && (forall k :: 0 <= k < |r.counts| ==> r.counts[k] > 0)
    && (forall k :: 0 <= k < |r.values| - 1 ==> r.values[k] != r.values[k + 1])
  }

  /** n copies of x. */
  function Repeat(x: int, n: nat): (r: seq<int>)
    ensures |r| == n && forall k :: 0 <= k < n ==> r[k] == x
  {
    seq(n, _ => x)
  }

  /** The data the run-length pairs describe: each value repeated by its count. */
  function Expand(r: Runs): seq<int>
    requires |r.values| == |r.counts|
    requires forall k :: 0 <= k < |r.counts| ==> r.counts[k] >= 0
    decreases |r.values|
  {
    if |r.values| == 0 then []
    else
      var n := |r.values| - 1;
      Expand(Runs(r.values[..n], r.counts[..n])) + Repeat(r.values[n], r.counts[n])
  }

  /** Reference run-length encoding, one element at a time: an element equal
      to the last run's value lengthens that run, any other starts a new one. */
  function RunLength(s: seq<int>): (r: Runs)
    ensures |r.values| == |r.counts|
    ensures |s| > 0 ==> |r.values| > 0 && r.values[|r.values| - 1] == s[|s| - 1]
    ensures |s| == 0 ==> r == Runs([], [])
    decreases |s|
  {
    if |s| == 0 then Runs([], [])
    else AddElement(RunLength(s[..|s| - 1]), s[|s| - 1])
  }

  /** One step of the encoding: x lengthens the last run if it has x's
      value, and starts a new run otherwise. */
  function AddElement(prev: Runs, x: int): Runs
  {
    var n := |prev.values|;
    if n > 0 && n == |prev.counts| && prev.values[n - 1] == x then Runs(prev.values, prev.counts[n - 1 := prev.counts[n - 1] + 1])
    else Runs(prev.values + [x], prev.counts + [1])
  }

  lemma RunLengthSnoc(u: seq<int>, x: int)
    ensures RunLength(u + [x]) == AddElement(RunLength(u), x)
  {
    assert (u + [x])[..|u|] == u;
  }

  /** Expansion of pairs with one more run at the end. */
  lemma ExpandSnoc(vs: seq<int>, cs: seq<int>, x: int, c: nat)
    requires |vs| == |cs| && forall k :: 0 <= k < |cs| ==> cs[k] >= 0
    ensures Expand(Runs(vs + [x], cs + [c])) == Expand(Runs(vs, cs)) + Repeat(x, c)
  {
    assert (vs + [x])[..|vs|] == vs;
    assert (cs + [c])[..|cs|] == cs;
  }

  lemma CanonicalNewRun(r: Runs, x: int)
    requires Canonical(r)
    requires |r.values| == 0 || r.values[|r.values| - 1] != x
    ensures Canonical(Runs(r.values + [x], r.counts + [1]))
  {
  }

  lemma ExpandNewRun(r: Runs, x: int)
    requires Canonical(r)
    requires |r.values| == 0 || r.values[|r.values| - 1] != x
    ensures Canonical(Runs(r.values + [x], r.counts + [1]))
    ensures Expand(Runs(r.values + [x], r.counts + [1])) == Expand(r) + [x]
  {
    CanonicalNewRun(r, x);
    ExpandSnoc(r.values, r.counts, x, 1);
    assert Repeat(x, 1) == [x];
  }

  lemma ExpandLongerRun(r: Runs)
    requires Canonical(r) && |r.values| > 0
    ensures Canonical(Runs(r.values, r.counts[|r.counts| - 1 := r.counts[|r.counts| - 1] + 1]))
    ensures Expand(Runs(r.values, r.counts[|r.counts| - 1 := r.counts[|r.counts| - 1] + 1])) == Expand(r) + [r.values[|r.values| - 1]]
  {
    var n := |r.values| - 1;
    var c' := r.counts[n := r.counts[n] + 1];
    assert c'[..n] == r.counts[..n];
    assert Repeat(r.values[n], c'[n]) == Repeat(r.values[n], r.counts[n]) + [r.values[n]];
  }

  /** The reference encoding is well formed and expands back to its input. */
  lemma {:induction false} RunLengthSpec(s: seq<int>)
    ensures Canonical(RunLength(s))
    ensures Expand(RunLength(s)) == s
    decreases |s|
  {
    if |s| > 0 {
      var init := s[..|s| - 1];
      var x := s[|s| - 1];
      RunLengthSpec(init);
      var prev := RunLength(init);
      assert s == init + [x];
      assert RunLength(s) == AddElement(prev, x) by { RunLengthSnoc(init, x); }
      var n := |prev.values|;
      if n > 0 && prev.values[n - 1] == x {
        AddElementSame(prev, x);
        ExpandLongerRun(prev);
      } else {
        ExpandNewRun(prev, x);
      }
    }
  }

  /** Appending a whole run whose value differs from the last run adds one pair. */
  lemma {:induction false} RunLengthAppendRun(t: seq<int>, x: int, c: nat)
    requires c > 0
    requires |RunLength(t).values| == 0 || RunLength(t).values[|RunLength(t).values| - 1] != x
    ensures RunLength(t + Repeat(x, c)) == Runs(RunLength(t).values + [x], RunLength(t).counts + [c])
    decreases c
  {
    var prev := RunLength(t);
    if c == 1 {
      assert Repeat(x, 1) == [x];
      RunLengthSnoc(t, x);
    } else {
      RunLengthAppendRun(t, x, c - 1);
      RunLengthLongerRun(t, x, c - 1, prev.values, prev.counts);
    }
  }

  /** The step of the induction above: one more x lengthens the last run. */
  lemma RunLengthLongerRun(t: seq<int>, x: int, c: nat, vs: seq<int>, cs: seq<int>)
    requires RunLength(t + Repeat(x, c)) == Runs(vs + [x], cs + [c])
    requires |vs| == |cs|
    ensures RunLength(t + Repeat(x, c + 1)) == Runs(vs + [x], cs + [c + 1])
  {
    var u := t + Repeat(x, c);
    calc {
      RunLength(t + Repeat(x, c + 1));
      { RepeatSnoc(x, c); assert t + Repeat(x, c + 1) == u + [x]; }
      RunLength(u + [x]);
      { RunLengthSnoc(u, x); }
      AddElement(Runs(vs + [x], cs + [c]), x);
      { AddElementSame(Runs(vs + [x], cs + [c]), x); }
      Runs(vs + [x], (cs + [c])[|cs| := c + 1]);
      { assert (cs + [c])[|cs| := c + 1] == cs + [c + 1]; }
      Runs(vs + [x], cs + [c + 1]);
    }
  }

  lemma RepeatSnoc(x: int, n: nat)
    ensures Repeat(x, n + 1) == Repeat(x, n) + [x]
  {
  }

  lemma AddElementSame(r: Runs, x: int)
    requires |r.values| == |r.counts| > 0 && r.values[|r.values| - 1] == x
    ensures AddElement(r, x) == Runs(r.values, r.counts[|r.counts| - 1 := r.counts[|r.counts| - 1] + 1])
  {
  }

  /** Run-length encoding is the inverse of expansion on well-formed pairs. */
  lemma {:induction false} RunLengthOfExpand(r: Runs)
    requires Canonical(r)
    ensures RunLength(Expand(r)) == r
    decreases |r.values|
  {
    var n := |r.values|;
    if n > 0 {
      var prefix := Runs(r.values[..n - 1], r.counts[..n - 1]);
      var x, c := r.values[n - 1], r.counts[n - 1];
      CanonicalPrefix(r);
      calc {
        RunLength(Expand(r));
        { assert Expand(r) == Expand(prefix) + Repeat(x, c); }
        RunLength(Expand(prefix) + Repeat(x, c));
        { RunLengthOfExpand(prefix); RunLengthAppendRun(Expand(prefix), x, c); }
        Runs(prefix.values + [x], prefix.counts + [c]);
        { assert r.values == prefix.values + [x]; assert r.counts == prefix.counts + [c]; }
        r;
      }
    }
  }

  /** Dropping the last pair keeps the pairs well formed. */
  lemma CanonicalPrefix(r: Runs)
    requires Canonical(r) && |r.values| > 0
    ensures Canonical(Runs(r.values[..|r.values| - 1], r.counts[..|r.counts| - 1]))
  {
  }

  lemma {:induction false} ExpandLength(r: Runs)
    requires Canonical(r)
    ensures |Expand(r)| == Sum(r.counts)
    decreases |r.values|
  {
    var n := |r.values|;
    if n > 0 {
      ExpandLength(Runs(r.values[..n - 1], r.counts[..n - 1]));
    }
  }

  /** Every element of the expansion is one of the values. */
  lemma {:induction false} ExpandElements(r: Runs)
    requires Canonical(r)
    ensures forall i :: 0 <= i < |Expand(r)| ==> Expand(r)[i] in r.values
    decreases |r.values|
  {
    var n := |r.values|;
    if n > 0 {
      var prefix := Runs(r.values[..n - 1], r.counts[..n - 1]);
      ExpandElements(prefix);
      var e := Expand(r);
      forall i | 0 <= i < |e|
        ensures e[i] in r.values
      {
        if i < |Expand(prefix)| {
          assert e[i] in prefix.values;
        } else {
          assert e[i] == r.values[n - 1];
        }
      }
    }
  }

  lemma CountRepeat(x: int, n: nat, y: int)
    ensures Count(Repeat(x, n), EqualTo(y)) == if x == y then n else 0
  {
    if x == y {
      CountAll(Repeat(x, n), EqualTo(y));
    } else {
      CountNone(Repeat(x, n), EqualTo(y));
    }
  }

  /** With distinct values, the count of a value is the number of its occurrences. */
  lemma {:induction false} ExpandCount(r: Runs, k: int)
    requires Canonical(r) && Increasing(r.values) && 0 <= k < |r.values|
    ensures Count(Expand(r), EqualTo(r.values[k])) == r.counts[k]
    decreases |r.values|
  {
    var n := |r.values| - 1;
    var prefix := Runs(r.values[..n], r.counts[..n]);
    var x := r.values[k];
    CountAppend(Expand(prefix), Repeat(r.values[n], r.counts[n]), EqualTo(x));
    CountRepeat(r.values[n], r.counts[n], x);
    if k == n {
      ExpandElements(prefix);
      CountNone(Expand(prefix), EqualTo(x));
    } else {
      ExpandCount(prefix, k);
    }
  }

  /** On ascending data the values are strictly ascending, hence distinct. */
  lemma {:induction false} RunLengthOfAscending(s: seq<int>)
    requires Ascending(s)
    ensures Increasing(RunLength(s).values)
    decreases |s|
  {
    if |s| > 0 {
      var init := s[..|s| - 1];
      RunLengthOfAscending(init);
      var prev := RunLength(init);
      var n := |prev.values|;
      if !(n > 0 && prev.values[n - 1] == s[|s| - 1]) && n > 0 {
        assert prev.values[n - 1] == s[|s| - 2];
        var v := prev.values + [s[|s| - 1]];
        forall i, j | 0 <= i < j < |v|
          ensures v[i] < v[j]
        {
          if j == n {
            assert v[i] <= prev.values[n - 1];
          }
        }
      }
    }
  }

  /** On ascending data: the values are exactly the distinct elements, in
      ascending order, each with its number of occurrences. */
  lemma RunLengthCounts(s: seq<int>)
    requires Ascending(s)
    ensures Increasing(RunLength(s).values)
    ensures forall k :: 0 <= k < |RunLength(s).values| ==> RunLength(s).counts[k] == Count(s, EqualTo(RunLength(s).values[k]))
    ensures forall x :: x in s <==> x in RunLength(s).values
    ensures Sum(RunLength(s).counts) == |s|
  {
    var r := RunLength(s);
    RunLengthSpec(s);
    RunLengthOfAscending(s);
    ExpandLength(r);
    ExpandElements(r);
    forall k | 0 <= k < |r.values|
      ensures r.counts[k] == Count(s, EqualTo(r.values[k]))
      ensures r.values[k] in s
    {
      ExpandCount(r, k);
      CountNone(s, EqualTo(r.values[k]));
    }
  }

  // ------------------------------------------------------------ frequencies

  /** `frequencies(sortedData, distinctValues, frequencies)`: both lists are
      cleared and refilled one run at a time; a `null` frequencies list is
      left `null`. The scan does not need sorted data: it encodes runs. */
  method Frequencies(sortedData: seq<int>, frequencies: Option<seq<int>>) returns (distinctValues: seq<int>, freqs: Option<seq<int>>)
    ensures distinctValues == RunLength(sortedData).values
    ensures frequencies.None? <==> freqs.None?
    ensures freqs.Some? ==> freqs.value == RunLength(sortedData).counts
    ensures freqs.Some? ==> |freqs.value| == |distinctValues| && Sum(freqs.value) == |sortedData|
    ensures freqs.Some? ==> Canonical(Runs(distinctValues, freqs.value))
    ensures freqs.Some? ==> Expand(Runs(distinctValues, freqs.value)) == sortedData
    ensures Ascending(sortedData) ==> Increasing(distinctValues)
    ensures Ascending(sortedData) && freqs.Some? ==>
      forall k :: 0 <= k < |distinctValues| ==> freqs.value[k] == Count(sortedData, EqualTo(distinctValues[k]))
  {
    var values, counts := EncodeRuns(sortedData);
    RunLengthFacts(sortedData);
    distinctValues := values;
    freqs := if frequencies.Some? then Some(counts) else None;
  }

  /** The outer loop of `frequencies`: one pair per run, in order. */
  method EncodeRuns(sortedData: seq<int>) returns (values: seq<int>, counts: seq<int>)
    ensures Runs(values, counts) == RunLength(sortedData)
  {
    values, counts := [], [];
    var size := |sortedData|;
    var i := 0;
    while i < size
      invariant 0 <= i <= size
      invariant Runs(values, counts) == RunLength(sortedData[..i])
      invariant 0 < i < size ==> sortedData[i] != sortedData[i - 1]
      decreases size - i
    {
      var element := sortedData[i];
      var cursor := i;
      i := RunEnd(sortedData, i);
      AppendRunAt(sortedData, cursor, i, values, counts);
      var runLength := i - cursor;
      values := values + [element];
      counts := counts + [runLength];
    }
    assert sortedData[..size] == sortedData;
  }

  /** The inner loop of `frequencies`: the index just past the run that
      starts at i. */
  method RunEnd(s: seq<int>, i: int) returns (j: int)
    requires 0 <= i < |s|
    ensures i < j <= |s|
    ensures forall k :: i <= k < j ==> s[k] == s[i]
    ensures j < |s| ==> s[j] != s[i]
  {
    j := i + 1;
    while j < |s| && s[j] == s[i]
      invariant i < j <= |s|
      invariant forall k :: i <= k < j ==> s[k] == s[i]
      decreases |s| - j
    {
      j := j + 1;
    }
  }

  /** A whole run that starts where the previous one ended adds one pair. */
  lemma AppendRunAt(s: seq<int>, i: int, j: int, values: seq<int>, counts: seq<int>)
    requires 0 <= i < j <= |s|
    requires forall k :: i <= k < j ==> s[k] == s[i]
    requires i == 0 || s[i] != s[i - 1]
    requires RunLength(s[..i]) == Runs(values, counts)
    ensures RunLength(s[..j]) == Runs(values + [s[i]], counts + [j - i])
  {
    assert s[..j] == s[..i] + Repeat(s[i], j - i);
    if i > 0 {
      assert s[..i][i - 1] == s[i - 1];
    }
    RunLengthAppendRun(s[..i], s[i], j - i);
  }

  /** The facts about the reference encoding that `frequencies` promises. */
  lemma RunLengthFacts(s: seq<int>)
    ensures Canonical(RunLength(s))
    ensures Expand(RunLength(s)) == s
    ensures Sum(RunLength(s).counts) == |s|
    ensures Ascending(s) ==> Increasing(RunLength(s).values)
    ensures Ascending(s) ==>
      forall k :: 0 <= k < |RunLength(s).values| ==> RunLength(s).counts[k] == Count(s, EqualTo(RunLength(s).values[k]))
  {
    RunLengthSpec(s);
    ExpandLength(RunLength(s));
    if Ascending(s) {
      RunLengthCounts(s);
    }
  }

  // -------------------------------------------------------------------- mod

  /** The largest count (0 for none). */
  function MaxOf(s: seq<int>): (m: int)
    ensures forall k :: 0 <= k < |s| ==> s[k] <= m
    ensures |s| > 0 ==> m in s
  {
    if |s| == 0 then 0
    else if |s| == 1 then s[0]
    else
      var m := MaxOf(s[..|s| - 1]);
      assert m in s[..|s| - 1];
      if s[|s| - 1] > m then s[|s| - 1] else m
  }

  /** The values whose count equals m, in run order. */
  function WithCount(r: Runs, m: int): (picked: seq<int>)
    requires |r.values| == |r.counts|
    ensures forall x :: x in picked <==> exists k :: 0 <= k < |r.values| && r.values[k] == x && r.counts[k] == m
    decreases |r.values|
  {
    if |r.values| == 0 then []
    else
      var n := |r.values| - 1;
      var init := WithCount(Runs(r.values[..n], r.counts[..n]), m);
      assert forall k :: 0 <= k < n ==> r.values[..n][k] == r.values[k] && r.counts[..n][k] == r.counts[k];
      init + (if r.counts[n] == m then [r.values[n]] else [])
  }

  lemma WithCountSnoc(vs: seq<int>, cs: seq<int>, v: int, c: int, m: int)
    requires |vs| == |cs|
    ensures WithCount(Runs(vs + [v], cs + [c]), m) == WithCount(Runs(vs, cs), m) + (if c == m then [v] else [])
  {
    assert (vs + [v])[..|vs|] == vs;
    assert (cs + [c])[..|cs|] == cs;
  }

  /** What `mod` returns: every run value whose run is longest, in run order. */
  function ModeOfRuns(data: seq<int>): seq<int>
  {
    WithCount(RunLength(data), MaxOf(RunLength(data).counts))
  }

  /** `mod(data)`, as written: the data is NOT sorted first, and an empty
      array makes `frequencies.get(0)` throw. */
  method Mod(data: seq<int>) returns (r: Result<seq<int>>)
    ensures |data| == 0 <==> r.Err?
    ensures r.Err? ==> r.error == IndexOutOfBounds
    ensures r.Ok? ==> r.value == ModeOfRuns(data)
  {
    var distinctValues, frequencies := Frequencies(data, Some([]));
    var counts := frequencies.value;
    if |counts| == 0 {
      return Err(IndexOutOfBounds);
    }
    var maxRepeats := LargestCount(counts);
    var tempMod := PickWithCount(distinctValues, counts, maxRepeats);
    r := Ok(tempMod);
  }

  /** The first loop of `mod`: the largest run length. */
  method LargestCount(counts: seq<int>) returns (maxRepeats: int)
    requires |counts| > 0
    ensures maxRepeats == MaxOf(counts)
    ensures maxRepeats in counts && forall k :: 0 <= k < |counts| ==> counts[k] <= maxRepeats
  {
    maxRepeats := counts[0];
    assert counts[..1] == [counts[0]];
    for i := 1 to |counts|
      invariant maxRepeats == MaxOf(counts[..i])
    {
      assert counts[..i + 1][..i] == counts[..i];
      if counts[i] > maxRepeats {
        maxRepeats := counts[i];
      }
    }
    assert counts[..|counts|] == counts;
  }

  /** The second loop of `mod`: the values whose run length is `maxRepeats`. */
  method PickWithCount(values: seq<int>, counts: seq<int>, maxRepeats: int) returns (tempMod: seq<int>)
    requires |values| == |counts|
    ensures tempMod == WithCount(Runs(values, counts), maxRepeats)
  {
    tempMod := [];
    for i := 0 to |counts|
      invariant tempMod == WithCount(Runs(values[..i], counts[..i]), maxRepeats)
    {
      assert values[..i + 1][..i] == values[..i];
      assert counts[..i + 1][..i] == counts[..i];
      assert WithCount(Runs(values[..i + 1], counts[..i + 1]), maxRepeats)
        == WithCount(Runs(values[..i], counts[..i]), maxRepeats)
           + (if counts[i] == maxRepeats then [values[i]] else []);
      if counts[i] == maxRepeats {
        tempMod := tempMod + [values[i]];
      }
    }
    assert values[..|counts|] == values;
    assert counts[..|counts|] == counts;
  }

  /** On unsorted data `mod` reports one value per run: for (1, 2, 1) every
      run has length one, so it returns 1 twice and also 2, which occurs
      less often than 1. */
  lemma ModOfUnsortedData()
    ensures ModeOfRuns([1, 2, 1]) == [1, 2, 1]
    ensures Count([1, 2, 1], EqualTo(2)) < Count([1, 2, 1], EqualTo(1))
  {
    var r := Runs([1, 2, 1], [1, 1, 1]);
    calc {
      ModeOfRuns([1, 2, 1]);
      { RunsOf121(); }
      WithCount(r, MaxOf(r.counts));
      { assert MaxOf(r.counts) == 1 by { assert r.counts[..2] == [1, 1]; assert [1, 1][..1] == [1]; } }
      WithCount(r, 1);
      { WithCountAll(r, 1); }
      [1, 2, 1];
    }
    CountsOf121();
  }

  lemma RunsOf121()
    ensures RunLength([1, 2, 1]) == Runs([1, 2, 1], [1, 1, 1])
  {
    assert [1, 2, 1][..2] == [1, 2];
    assert [1, 2][..1] == [1];
    assert [1][..0] == [];
    assert RunLength([1]) == Runs([1], [1]);
    assert RunLength([1, 2]) == Runs([1, 2], [1, 1]);
  }

  /** When every run has length m, every value is picked. */
  lemma {:induction false} WithCountAll(r: Runs, m: int)
    requires |r.values| == |r.counts|
    requires forall k :: 0 <= k < |r.counts| ==> r.counts[k] == m
    ensures WithCount(r, m) == r.values
    decreases |r.values|
  {
    var n := |r.values|;
    if n > 0 {
      var vs, cs := r.values[..n - 1], r.counts[..n - 1];
      WithCountAll(Runs(vs, cs), m);
      assert r.values == vs + [r.values[n - 1]];
      assert r.counts == cs + [r.counts[n - 1]];
      WithCountSnoc(vs, cs, r.values[n - 1], r.counts[n - 1], m);
    }
  }

  lemma CountsOf121()
    ensures Count([1, 2, 1], EqualTo(2)) == 1
    ensures Count([1, 2, 1], EqualTo(1)) == 2
  {
    assert [1, 2, 1][..2] == [1, 2];
    assert [1, 2][..1] == [1];
    assert [1][..0] == [];
  }

  /** `mod` with the data sorted first, as `Unique` does: it returns each
      most frequent value once, in ascending order. */
  method ModSorted(data: seq<int>) returns (r: Result<seq<int>>)
    ensures |data| == 0 <==> r.Err?
    ensures r.Err? ==> r.error == IndexOutOfBounds
    ensures r.Ok? ==> Increasing(r.value)
    ensures r.Ok? ==> forall x :: x in r.value <==>
      x in data && forall y :: Count(data, EqualTo(y)) <= Count(data, EqualTo(x))
  {
    var sortedData := Mat.CopyThenSort(data);
    r := Mod(sortedData);
    if r.Ok? {
      ModeOfSortedSpec(sortedData);
      forall y
        ensures Count(sortedData, EqualTo(y)) == Count(data, EqualTo(y))
      {
        CountPermutation(sortedData, data, EqualTo(y));
      }
      assert forall x :: x in data <==> x in multiset(data);
    }
  }

  /** On ascending data the run maxima are the most frequent values. */
  lemma ModeOfSortedSpec(s: seq<int>)
    requires Ascending(s) && |s| > 0
    ensures Increasing(ModeOfRuns(s))
    ensures forall x :: x in ModeOfRuns(s) <==> x in s && forall y :: Count(s, EqualTo(y)) <= Count(s, EqualTo(x))
  {
    var r := RunLength(s);
    RunLengthCounts(s);
    WithCountIncreasing(r, MaxOf(r.counts));
    forall x
      ensures x in ModeOfRuns(s) <==> x in s && forall y :: Count(s, EqualTo(y)) <= Count(s, EqualTo(x))
    {
      if x in ModeOfRuns(s) {
        ModeIsMostFrequent(s, x);
      }
      if x in s && forall y :: Count(s, EqualTo(y)) <= Count(s, EqualTo(x)) {
        MostFrequentIsMode(s, x);
      }
    }
  }

  lemma ModeIsMostFrequent(s: seq<int>, x: int)
    requires Ascending(s) && x in ModeOfRuns(s)
    ensures x in s && forall y :: Count(s, EqualTo(y)) <= Count(s, EqualTo(x))
  {
    var r := RunLength(s);
    RunLengthCounts(s);
    var m := MaxOf(r.counts);
    var k :| 0 <= k < |r.values| && r.values[k] == x && r.counts[k] == m;
    forall y
      ensures Count(s, EqualTo(y)) <= Count(s, EqualTo(x))
    {
      if y in s {
        var j :| 0 <= j < |r.values| && r.values[j] == y;
      } else {
        CountNone(s, EqualTo(y));
      }
    }
  }

  lemma MostFrequentIsMode(s: seq<int>, x: int)
    requires Ascending(s) && |s| > 0 && x in s
    requires forall y :: Count(s, EqualTo(y)) <= Count(s, EqualTo(x))
    ensures x in ModeOfRuns(s)
  {
    var r := RunLength(s);
    RunLengthCounts(s);
    var m := MaxOf(r.counts);
    var k :| 0 <= k < |r.values| && r.values[k] == x;
    var j :| 0 <= j < |r.counts| && r.counts[j] == m;
    assert r.counts[j] == Count(s, EqualTo(r.values[j])) <= Count(s, EqualTo(x)) == r.counts[k] <= m;
    assert r.values[k] == x && r.counts[k] == m;
  }

  lemma {:induction false} WithCountIncreasing(r: Runs, m: int)
    requires |r.values| == |r.counts| && Increasing(r.values)
    ensures Increasing(WithCount(r, m))
    decreases |r.values|
  {
    var n := |r.values|;
    if n > 0 {
      var prefix := Runs(r.values[..n - 1], r.counts[..n - 1]);
      WithCountIncreasing(prefix, m);
      var init := WithCount(prefix, m);
      var w := WithCount(r, m);
      if r.counts[n - 1] == m {
        forall i, j | 0 <= i < j < |w|
          ensures w[i] < w[j]
        {
          if j == |init| {
            assert w[i] in init;
            var k :| 0 <= k < n - 1 && prefix.values[k] == w[i] && prefix.counts[k] == m;
          }
        }
      }
    }
  }

  // --------------------------------------------------------------- max/min

  /** `max(int[] data)`: `Check.size0` lets every array through, the empty
      one included, and reading `data[0]` then throws. */
  method Max(data: seq<int>) returns (r: Result<int>)
    ensures |data| == 0 <==> r.Err?
    ensures r.Err? ==> r.error == ArrayIndexOutOfBounds
    ensures r.Ok? ==> r.value in data && forall k :: 0 <= k < |data| ==> data[k] <= r.value
  {
    var size := |data|;
    Check.Size0AcceptsEveryArray(data);
    if size == 0 {
      return Err(ArrayIndexOutOfBounds);
    }
    var max := data[0];
    for i := 1 to size
      invariant max in data[..i]
      invariant forall k :: 0 <= k < i ==> data[k] <= max
    {
      max := if max >= data[i] then max else data[i];
    }
    assert data[..size] == data;
    r := Ok(max);
  }

  /** `min(int[] data)`: as `max`, with the smallest element. */
  method Min(data: seq<int>) returns (r: Result<int>)
    ensures |data| == 0 <==> r.Err?
    ensures r.Err? ==> r.error == ArrayIndexOutOfBounds
    ensures r.Ok? ==> r.value in data && forall k :: 0 <= k < |data| ==> r.value <= data[k]
  {
    var size := |data|;
    Check.Size0AcceptsEveryArray(data);
    if size == 0 {
      return Err(ArrayIndexOutOfBounds);
    }
    var min := data[0];
    for i := 1 to size
      invariant min in data[..i]
      invariant forall k :: 0 <= k < i ==> min <= data[k]
    {
      min := if min <= data[i] then min else data[i];
    }
    assert data[..size] == data;
    r := Ok(min);
  }

  // ------------------------------------------------------- argument checks

  /** `checkRangeFromTo(from, to, theSize)`: the empty range to == from-1 is
      accepted wherever it lies; any other range must lie within [0, size). */
  function CheckRangeFromTo(from: int, to: int, theSize: int): (r: Outcome)
    ensures r == Pass <==> to == from - 1 || (0 <= from <= to < theSize)
    ensures r.Fail? ==> r.error == IndexOutOfBounds
  {
    if to == from - 1 then Pass
    else if from < 0 || from > to || to >= theSize then Fail(IndexOutOfBounds)
    else Pass
  }

  /** A range `checkRangeFromTo` accepts is either empty or has every index
      from..to inside the array. */
  lemma CheckedRangeIsSafe(from: int, to: int, theSize: int)
    requires CheckRangeFromTo(from, to, theSize) == Pass
    ensures to - from + 1 >= 0
    ensures from <= to ==> 0 <= from && to < theSize
  {
  }

  /** The argument checks of `Mean.trimmed(sortedData, mean, left, right)`
      (its `Check.size0` call passes every array): too much trimming is rejected; a count larger than the array then
      runs its loop off the array. Negative counts pass and trim nothing. */
  function TrimmedArguments(size: nat, left: int, right: int): (r: Outcome)
    ensures r == Pass <==> left + right < size && left <= size && right <= size
    ensures left + right >= size ==> r == Fail(IllegalArgument)
    ensures left + right < size && (left > size || right > size) ==> r == Fail(ArrayIndexOutOfBounds)
  {
    if left + right >= size then Fail(IllegalArgument)
    else if left > size || right > size then Fail(ArrayIndexOutOfBounds)
    else Pass
  }

  /** The argument checks of `Mean.winsorized(sortedData, mean, left, right)`:
      too much trimming is rejected, and reading `sortedData[left]` and
      `sortedData[size-1-right]` rejects negative counts. */
  function WinsorizedArguments(size: nat, left: int, right: int): (r: Outcome)
    ensures r == Pass <==> 0 <= left && 0 <= right && left + right < size
    ensures left + right >= size ==> r == Fail(IllegalArgument)
    ensures left + right < size && (left < 0 || right < 0) ==> r == Fail(ArrayIndexOutOfBounds)
  {
    if left + right >= size then Fail(IllegalArgument)
    else if !(0 <= left < size) || !(0 <= size - 1 - right < size) then Fail(ArrayIndexOutOfBounds)
    else Pass
  }

  /** Every argument pair `winsorized` accepts, `trimmed` accepts too; the
      converse fails for a negative count. */
  lemma WinsorizedStricterThanTrimmed(size: nat, left: int, right: int)
    ensures WinsorizedArguments(size, left, right) == Pass ==> TrimmedArguments(size, left, right) == Pass
    ensures size > 0 ==> TrimmedArguments(size, -1, 0) == Pass && WinsorizedArguments(size, -1, 0).Fail?
  {
  }
}

=== FILE: errors.dfy ===
/** The exceptions the papaya and pmatrix code throws, as values.

    Every operation that can throw returns a `Result` (or, for the
    argument validators, an `Outcome`) instead of raising. The error
    constructors are named after the Java exception classes. */
module Errors {

  /** Java exception classes the modelled code can throw. */
  datatype Error =
    | IllegalArgument          // java.lang.IllegalArgumentException
    | IndexOutOfBounds         // java.lang.IndexOutOfBoundsException (ArrayList.get, explicit throws)
    | ArrayIndexOutOfBounds    // java.lang.ArrayIndexOutOfBoundsException (array access)
    | NegativeArraySize        // java.lang.NegativeArraySizeException (new T[n] with n < 0)
    | Arithmetic               // java.lang.ArithmeticException (integer division by zero)
    | NullPointer              // java.lang.NullPointerException (indexing a null array)

  /** The value an operation returns, or the exception it throws. */
  datatype Result<+T> = Ok(value: T) | Err(error: Error) {
    predicate IsFailure() { Err? }

    function PropagateFailure<U>(): Result<U>
      requires Err?
    {
      Err(error)
    }

    function Extract(): T
      requires Ok?
    {
      value
    }
  }

  /** What a `void` validator does: return normally, or throw. */
  datatype Outcome = Pass | Fail(error: Error) {
    predicate IsFailure() { Fail? }

    function PropagateFailure<U>(): Result<U>
      requires Fail?
    {
      Err(error)
    }
  }
}

=== FILE: find.dfy ===
/** The `int[]` searches and counters of papaya's `Find` class (Find.java).

    Arrays are sequences, so the `array == null` branches of the source
    have no counterpart here. */
module Find {
  import opened Seqs

  /** `PapayaConstants.INDEX_NOT_FOUND`. */
  const IndexNotFound: int := -1

  /** `PapayaConstants.INDICES_NOT_FOUND`: a one-element array holding -1. */
  const IndicesNotFound: seq<int> := [-1]

  /** `Integer.MAX_VALUE`, the start index `lastIndexOf(array, v)` passes on. */
  const IntMaxValue: int := 0x7fff_ffff

  /** A negative start index is treated as zero. */
  function ClampStart(start: int): nat
  {
    if start < 0 then 0 else start
  }

  /** The forward scan of `indexOf`: first i >= from holding v. */
  function ScanUp(a: seq<int>, v: int, from: nat): (r: int)
    ensures r == IndexNotFound || (from <= r < |a| && a[r] == v)
    ensures r == IndexNotFound <==> forall k :: from <= k < |a| ==> a[k] != v
    ensures r != IndexNotFound ==> forall k :: from <= k < r ==> a[k] != v
    decreases |a| - from
  {
    if from >= |a| then IndexNotFound
    else if a[from] == v then from
    else ScanUp(a, v, from + 1)
  }

  /** The backward scan of `lastIndexOf`: last i <= from holding v. */
  function ScanDown(a: seq<int>, v: int, from: int): (r: int)
    requires from < |a|
    ensures r == IndexNotFound || (0 <= r <= from && a[r] == v)
    ensures r == IndexNotFound <==> forall k :: 0 <= k <= from ==> a[k] != v
    ensures r != IndexNotFound ==> forall k :: r < k <= from ==> a[k] != v
    decreases from + 1
  {
    if from < 0 then IndexNotFound
    else if a[from] == v then from
    else ScanDown(a, v, from - 1)
  }

  /** `indexOf(int[] array, int valueToFind, int startIndex)`. */
  function IndexOfFrom(a: seq<int>, v: int, start: int): (r: int)
    ensures r == IndexNotFound <==> forall k :: ClampStart(start) <= k < |a| ==> a[k] != v
    ensures r != IndexNotFound ==>
      && ClampStart(start) <= r < |a| && a[r] == v
      && forall k :: ClampStart(start) <= k < r ==> a[k] != v
  {
    ScanUp(a, v, ClampStart(start))
  }

  /** `indexOf(int[] array, int valueToFind)`: the search starts at 0. */
  function IndexOf(a: seq<int>, v: int): (r: int)
    ensures r == IndexNotFound <==> v !in a
    ensures r != IndexNotFound ==> 0 <= r < |a| && a[r] == v && v !in a[..r]
  {
    IndexOfFrom(a, v, 0)
  }

  /** `lastIndexOf(int[] array, int valueToFind, int startIndex)`. */
  function LastIndexOfFrom(a: seq<int>, v: int, start: int): (r: int)
    ensures start < 0 ==> r == IndexNotFound
    ensures start >= |a| ==> r == LastIndexOfFrom(a, v, |a| - 1)
    ensures 0 <= start < |a| ==>
      && (r == IndexNotFound <==> forall k :: 0 <= k <= start ==> a[k] != v)
      && (r != IndexNotFound ==> 0 <= r <= start && a[r] == v && forall k :: r < k <= start ==> a[k] != v)
  {
    if start < 0 then IndexNotFound
    else if start >= |a| then ScanDown(a, v, |a| - 1)
    else ScanDown(a, v, start)
  }

  /** `lastIndexOf(int[] array, int valueToFind)`: starts at `Integer.MAX_VALUE`,
      which is clamped to the last index, so the whole array is searched. */
  function LastIndexOf(a: seq<int>, v: int): (r: int)
    ensures |a| <= IntMaxValue ==>
      && (r == IndexNotFound <==> v !in a)
      && (r != IndexNotFound ==> 0 <= r < |a| && a[r] == v && v !in a[r + 1..])
  {
    LastIndexOfFrom(a, v, IntMaxValue)
  }

  /** `contains(int[] array, int valueToFind)`. */
  function Contains(a: seq<int>, v: int): (r: bool)
    ensures r <==> v in a
  {
    IndexOf(a, v) != IndexNotFound
  }

  /** `checkIndices`: the collected indices, or the `{-1}` sentinel when there are none. */
  function CheckIndices(indices: seq<int>): (r: seq<int>)
    ensures |indices| > 0 ==> r == indices
    ensures |indices| == 0 ==> r == IndicesNotFound
  {
    if |indices| > 0 then indices else IndicesNotFound
  }

  /** `indicesWith(int[] array, int valueToFind, int startIndex)`. */
  function IndicesWithFrom(a: seq<int>, v: int, start: int): (r: seq<int>)
    ensures r == IndicesNotFound <==> forall k :: ClampStart(start) <= k < |a| ==> a[k] != v
    ensures r != IndicesNotFound ==>
      && Increasing(r)
      && forall k :: k in r <==> ClampStart(start) <= k < |a| && a[k] == v
  {
    CheckedSelection(a, ClampStart(start), EqualTo(v));
    CheckIndices(Select(a, ClampStart(start), |a|, EqualTo(v)))
  }

  /** `indicesWith(int[] array, int valueToFind)`: the search starts at 0. */
  function IndicesWith(a: seq<int>, v: int): (r: seq<int>)
    ensures r == IndicesNotFound <==> v !in a
    ensures r != IndicesNotFound ==> Increasing(r) && forall k :: k in r <==> 0 <= k < |a| && a[k] == v
  {
    IndicesWithFrom(a, v, 0)
  }

  // ------------------------------------------------ the int-to-float cast

  /** 2^k. */
  function Pow2(k: nat): (r: nat)
    ensures r >= 1
  {
    if k == 0 then 1 else 2 * Pow2(k - 1)
  }

  /** A `float` has a 24-bit significand. */
  const FloatSignificand: int := 0x100_0000

  /** log2 of the spacing of the floats around a natural m: 0 below 2^24,
      one more for every further bit of m. */
  function SpacingExponent(m: nat): nat
  {
    if m < FloatSignificand then 0 else 1 + SpacingExponent(m / 2)
  }

  /** IEEE 754 round-to-nearest, ties to even, of a natural to a multiple
      of the float spacing u: the nearer of the multiples just below and
      just above m, the one with an even quotient on a tie. */
  function RoundToFloat(m: nat): (r: nat)
    ensures 2 * (if r >= m then r - m else m - r) <= Pow2(SpacingExponent(m))
    ensures r % Pow2(SpacingExponent(m)) == 0
  {
    var u := Pow2(SpacingExponent(m));
    var rem := m % u;
    RoundedMultiples(m, u);
    if 2 * rem < u || (2 * rem == u && (m / u) % 2 == 0) then m - rem
    else m - rem + u
  }

  /** Both neighbours m - m % u and m - m % u + u are multiples of u. */
  lemma RoundedMultiples(m: nat, u: nat)
    requires u > 0
    ensures (m - m % u) % u == 0 && (m - m % u + u) % u == 0
  {
    var q := m / u;
    assert m - m % u == q * u;
    RemainderUnique(m - m % u, u, q, 0);
    assert m - m % u + u == (q + 1) * u;
    RemainderUnique(m - m % u + u, u, q + 1, 0);
  }

  /** Writing x as q * u + rem with 0 <= rem < u fixes the remainder. */
  lemma RemainderUnique(x: int, u: int, q: int, rem: int)
    requires u > 0 && 0 <= rem < u && x == q * u + rem
    ensures x % u == rem
  {
    var q', rem' := x / u, x % u;
    assert x == q' * u + rem';
    var d := q - q';
    Distribute(q, q', u);
    assert d * u == rem' - rem;
    if d > 0 {
      ProductAtLeast(d, u);
    } else if d < 0 {
      ProductAtLeast(-d, u);
    }
  }

  lemma Distribute(q: int, q': int, u: int)
    ensures (q - q') * u == q * u - q' * u
  {
  }

  lemma {:induction false} ProductAtLeast(d: int, u: int)
    requires d >= 1 && u > 0
    ensures d * u >= u
    decreases d
  {
    if d > 1 {
      ProductAtLeast(d - 1, u);
      assert d * u == (d - 1) * u + u;
    }
  }

  /** The negation of a multiple of u is one too. */
  lemma NegatedMultiple(x: int, u: int)
    requires u > 0 && x % u == 0
    ensures (-x) % u == 0
  {
    var q := x / u;
    assert -x == (-q) * u;
    RemainderUnique(-x, u, -q, 0);
  }

  /** The value of `(float)n` for a Java `int` n, which is always a whole
      number: a multiple of the spacing at |n|, with the sign of n, within
      half a spacing of n. */
  function FloatOfInt(n: int): (r: int)
    ensures n >= 0 ==> r >= 0
    ensures n <= 0 ==> r <= 0
    ensures r % Pow2(SpacingExponent(if n >= 0 then n else -n)) == 0
    ensures 2 * (if r >= n then r - n else n - r) <= Pow2(SpacingExponent(if n >= 0 then n else -n))
  {
    if n >= 0 then RoundToFloat(n)
    else
      var p := RoundToFloat(-n);
      NegatedMultiple(p, Pow2(SpacingExponent(-n)));
      -(p as int)
  }

  /** Below 2^24 in magnitude the cast is exact. */
  lemma SmallIntsAreExact(n: int)
    requires -FloatSignificand <= n <= FloatSignificand
    ensures FloatOfInt(n) == n
  {
    var m := if n >= 0 then n else -n;
    if m == FloatSignificand {
      assert SpacingExponent(m / 2) == 0;
      assert Pow2(SpacingExponent(m)) == 2;
    } else {
      assert Pow2(SpacingExponent(m)) == 1;
    }
  }

  /** 2^24 + 1 is the first int the cast changes: it becomes 2^24. */
  lemma FirstInexactInt()
    ensures FloatOfInt(FloatSignificand + 1) == FloatSignificand
  {
    var m := FloatSignificand + 1;
    assert SpacingExponent(m / 2) == 0;
    assert Pow2(SpacingExponent(m)) == 2;
  }

  /** `indicesWithin(int[] array, float minVal, float maxVal)`: indices of the
      elements whose `float` value lies in [minVal, maxVal], or the
      sentinel when there are none. The comparison `array[i] >= minVal`
      promotes the `int` element to `float` first. */
  function IndicesWithin(a: seq<int>, minVal: real, maxVal: real): (r: seq<int>)
    ensures r == IndicesNotFound <==> forall k :: 0 <= k < |a| ==> !(minVal <= FloatOfInt(a[k]) as real <= maxVal)
    ensures r != IndicesNotFound ==>
      && Increasing(r)
      && forall k :: k in r <==> 0 <= k < |a| && minVal <= FloatOfInt(a[k]) as real <= maxVal
  {
    var within := (x: int) => minVal <= FloatOfInt(x) as real <= maxVal;
    CheckedSelection(a, 0, within);
    CheckIndices(Select(a, 0, |a|, within))
  }

  /** For elements within 2^24 in magnitude the cast changes nothing: the
      result is exactly the positions of the elements in [minVal, maxVal]. */
  lemma IndicesWithinSmallValues(a: seq<int>, minVal: real, maxVal: real)
    requires forall k :: 0 <= k < |a| ==> -FloatSignificand <= a[k] <= FloatSignificand
    ensures IndicesWithin(a, minVal, maxVal) == IndicesNotFound <==>
      forall k :: 0 <= k < |a| ==> !(minVal <= a[k] as real <= maxVal)
    ensures IndicesWithin(a, minVal, maxVal) != IndicesNotFound ==>
      forall k :: k in IndicesWithin(a, minVal, maxVal) <==> 0 <= k < |a| && minVal <= a[k] as real <= maxVal
  {
    forall k | 0 <= k < |a|
      ensures FloatOfInt(a[k]) == a[k]
    {
      SmallIntsAreExact(a[k]);
    }
  }

  /** The element 2^24 + 1 lies above the bounds [2^24, 2^24] but its
      `float` value does not, so it is found. */
  lemma IndicesWithinRoundsElements()
    ensures IndicesWithin([FloatSignificand + 1], FloatSignificand as real, FloatSignificand as real) == [0]
  {
    FirstInexactInt();
    var a := [FloatSignificand + 1];
    var r := IndicesWithin(a, FloatSignificand as real, FloatSignificand as real);
    assert 0 in r;
    assert forall k :: k in r ==> k == 0;
    assert r == [r[0]];
  }

  /** The sentinel stands for an empty selection; any other result is the
      selection itself. */
  lemma CheckedSelection(a: seq<int>, lo: nat, p: int -> bool)
    ensures CheckIndices(Select(a, lo, |a|, p)) == IndicesNotFound <==> forall k :: lo <= k < |a| ==> !p(a[k])
    ensures CheckIndices(Select(a, lo, |a|, p)) != IndicesNotFound ==>
      && Increasing(CheckIndices(Select(a, lo, |a|, p)))
      && forall k :: k in CheckIndices(Select(a, lo, |a|, p)) <==> lo <= k < |a| && p(a[k])
  {
    var found := Select(a, lo, |a|, p);
    SelectSpec(a, lo, |a|, p);
    if |found| > 0 {
      assert found[0] in found;
      assert found[0] >= 0;
    }
  }

  /** The four `indices*` comparison filters: no sentinel, an empty result
      when nothing matches. */
  function IndicesLessThanOrEqualTo(a: seq<int>, m: int): (r: seq<int>)
    ensures Increasing(r)
    ensures forall k :: k in r <==> 0 <= k < |a| && a[k] <= m
  {
    SelectSpec(a, 0, |a|, AtMost(m));
    Select(a, 0, |a|, AtMost(m))
  }

  function IndicesLessThan(a: seq<int>, m: int): (r: seq<int>)
    ensures Increasing(r)
    ensures forall k :: k in r <==> 0 <= k < |a| && a[k] < m
  {
    SelectSpec(a, 0, |a|, LessThan(m));
    Select(a, 0, |a|, LessThan(m))
  }

  function IndicesGreaterThanOrEqualTo(a: seq<int>, m: int): (r: seq<int>)
    ensures Increasing(r)
    ensures forall k :: k in r <==> 0 <= k < |a| && a[k] >= m
  {
    SelectSpec(a, 0, |a|, AtLeast(m));
    Select(a, 0, |a|, AtLeast(m))
  }

  function IndicesGreaterThan(a: seq<int>, m: int): (r: seq<int>)
    ensures Increasing(r)
    ensures forall k :: k in r <==> 0 <= k < |a| && a[k] > m
  {
    SelectSpec(a, 0, |a|, GreaterThan(m));
    Select(a, 0, |a|, GreaterThan(m))
  }

  /** The counting loop shared by `numRepeats` and the `num*` counters. */
  method CountMatching(a: seq<int>, p: int -> bool) returns (count: nat)
    ensures count == Count(a, p)
  {
    count := 0;
    var i := 0;
    while i < |a|
      invariant 0 <= i <= |a|
      invariant count == Count(a[..i], p)
    {
      assert a[..i + 1][..i] == a[..i];
      if p(a[i]) {
        count := count + 1;
      }
      i := i + 1;
    }
    assert a[..i] == a;
  }

  /** `numRepeats(int[] array, int valueToFind)`. */
  method NumRepeats(a: seq<int>, v: int) returns (count: nat)
    ensures count == Count(a, EqualTo(v))
    ensures count == 0 <==> v !in a
  {
    count := CountMatching(a, EqualTo(v));
    CountNone(a, EqualTo(v));
  }

  /** The documentation of `numRepeats` promises `INDEX_NOT_FOUND` for a
      value that is absent; the loop returns 0 instead. */
  method NumRepeatsOfAbsentValue() returns (count: nat)
    ensures count == 0 && count != IndexNotFound
  {
    count := NumRepeats([1, 2], 3);
  }

  /** The count as documented: the number of positions holding v, or
      `INDEX_NOT_FOUND` when there are none. */
  method NumRepeatsOrNotFound(a: seq<int>, v: int) returns (r: int)
    ensures r == IndexNotFound <==> v !in a
    ensures v in a ==> r > 0 && r == Count(a, EqualTo(v))
  {
    var count := NumRepeats(a, v);
    r := if count == 0 then IndexNotFound else count;
  }

  method NumLessThanOrEqualTo(a: seq<int>, m: int) returns (count: nat)
    ensures count == Count(a, AtMost(m))
  {
    count := CountMatching(a, AtMost(m));
  }

  method NumLessThan(a: seq<int>, m: int) returns (count: nat)
    ensures count == Count(a, LessThan(m))
  {
    count := CountMatching(a, LessThan(m));
  }

  method NumGreaterThanOrEqualTo(a: seq<int>, m: int) returns (count: nat)
    ensures count == Count(a, AtLeast(m))
  {
    count := CountMatching(a, AtLeast(m));
  }

  method NumGreaterThan(a: seq<int>, m: int) returns (count: nat)
    ensures count == Count(a, GreaterThan(m))
  {
    count := CountMatching(a, GreaterThan(m));
  }

  /** Every element is either below the threshold or at/above it, so the
      two complementary counters add up to the array length. */
  lemma CountersPartition(a: seq<int>, m: int)
    ensures Count(a, LessThan(m)) + Count(a, AtLeast(m)) == |a|
    ensures Count(a, AtMost(m)) + Count(a, GreaterThan(m)) == |a|
  {
    var all := (x: int) => true;
    CountDisjoint(a, LessThan(m), AtLeast(m), all);
    CountDisjoint(a, AtMost(m), GreaterThan(m), all);
    CountAll(a, all);
  }

  /** The index filters find as many indices as the counters count. */
  lemma IndicesMatchCounters(a: seq<int>, m: int)
    ensures |IndicesLessThan(a, m)| == Count(a, LessThan(m))
    ensures |IndicesLessThanOrEqualTo(a, m)| == Count(a, AtMost(m))
    ensures |IndicesGreaterThan(a, m)| == Count(a, GreaterThan(m))
    ensures |IndicesGreaterThanOrEqualTo(a, m)| == Count(a, AtLeast(m))
  {
    assert a[0..|a|] == a;
    SelectLength(a, 0, |a|, LessThan(m));
    SelectLength(a, 0, |a|, AtMost(m));
    SelectLength(a, 0, |a|, GreaterThan(m));
    SelectLength(a, 0, |a|, AtLeast(m));
  }

  /** `indicesWith` lists one index per repeat counted by `numRepeats`,
      unless there is none, when it returns the one-element sentinel. */
  lemma IndicesWithMatchesRepeats(a: seq<int>, v: int)
    ensures v in a ==> |IndicesWith(a, v)| == Count(a, EqualTo(v))
    ensures v !in a ==> |IndicesWith(a, v)| == 1 && Count(a, EqualTo(v)) == 0
  {
    assert a[0..|a|] == a;
    SelectLength(a, 0, |a|, EqualTo(v));
    CountNone(a, EqualTo(v));
  }

  /** The first and last occurrence agree on whether v occurs, and the
      first never comes after the last. */
  lemma FirstNotAfterLast(a: seq<int>, v: int)
    requires |a| <= IntMaxValue
    ensures (IndexOf(a, v) == IndexNotFound) == (LastIndexOf(a, v) == IndexNotFound)
    ensures IndexOf(a, v) <= LastIndexOf(a, v)
    ensures Count(a, EqualTo(v)) == 1 ==> IndexOf(a, v) == LastIndexOf(a, v)
  {
    var i, j := IndexOf(a, v), LastIndexOf(a, v);
    if i != IndexNotFound && j != IndexNotFound && i != j {
      assert i < j;
      CountAtLeastTwo(a, i, j, EqualTo(v));
    }
  }
}

=== FILE: frequency.dfy ===
/** papaya's `Frequency` class (Frequency.java), `int[]` constructor: a
    histogram with bins of fixed width, its cumulative sums and getters.

    The class stores the bin counts in a `float[]`. The model counts with
    exact integers: it does not follow `frequency[bin]++` once a count
    reaches 2^24, where adding one to a float leaves it unchanged, nor the
    rounding of the running totals. */
module Frequency {
  import opened Errors
  import opened Seqs

  /** Java's `int` division: the quotient is truncated toward zero (Dafny's
      `/` rounds toward negative infinity for a positive divisor). It is
      total here; the model never divides by zero with it. */
  function JavaDiv(a: int, b: int): (r: int)
    ensures b > 0 && a >= 0 ==> r == a / b
    ensures b > 0 && a < 0 ==> r == -((-a) / b)
    ensures b != 0 ==> (a >= 0) == (b > 0) || r <= 0
    ensures b != 0 ==>
      var rem := a - r * b;
      (rem == 0 || (rem > 0) == (a > 0)) && -(if b > 0 then b else -b) < rem < (if b > 0 then b else -b)
  {
    if b == 0 then 0
    else
      var p: nat := if a >= 0 then a else -a;
      var m: nat := if b > 0 then b else -b;
      QuotientNonNegative(p, m);
      if (a >= 0) == (b > 0) then p / m else -(p / m)
  }

  lemma QuotientNonNegative(p: nat, m: nat)
    requires m > 0
    ensures p / m >= 0
  {
  }

  /** The bin a value is counted in: `(value - minVal) / binWidth`. */
  function BinOf(value: int, minVal: int, binWidth: int): int
  {
    JavaDiv(value - minVal, binWidth)
  }

  /** Selects the values that fall into bin `b`. */
  function InBin(b: int, minVal: int, binWidth: int): int -> bool
  {
    v => BinOf(v, minVal, binWidth) == b
  }

  /** The fields of a `Frequency` object. */
  datatype Frequency = Frequency(numBins: int, ln: int, frequency: seq<int>)

  /** What the constructor establishes: one count per bin. */
  predicate Valid(f: Frequency)
  {
    f.numBins == |f.frequency| && f.ln >= 0
  }

  /** `numBins = (maxVal - minVal) / binWidth + 1`. */
  function NumBins(minVal: int, maxVal: int, binWidth: int): int
  {
    JavaDiv(maxVal - minVal, binWidth) + 1
  }

  /** A value in [minVal, maxVal] lands in one of the allocated bins when the
      bin width is positive. */
  lemma InRangeBin(v: int, minVal: int, maxVal: int, binWidth: int)
    requires binWidth > 0 && minVal <= v <= maxVal
    ensures 0 <= BinOf(v, minVal, binWidth) < NumBins(minVal, maxVal, binWidth)
  {
    DivMonotone(v - minVal, maxVal - minVal, binWidth);
  }

  /** Division by a positive width preserves the order of non-negative numbers. */
  lemma DivMonotone(a: int, b: int, w: int)
    requires 0 <= a <= b && w > 0
    ensures a / w <= b / w
  {
    var qa, qb := a / w, b / w;
    assert w * (qa - qb) == (a - a % w) - (b - b % w);
    assert w * (qa - qb) < w;
    ProductBelowFactor(w, qa - qb);
  }

  /** A multiple of a positive w that is below w has a factor below one. */
  lemma ProductBelowFactor(w: int, d: int)
    requires w > 0 && w * d < w
    ensures d < 1
  {
    if d >= 1 {
      assert false;
    }
  }

  /** Integer truncation sends a value less than one bin width below
      `minVal` into bin 0, where flooring would put it in bin -1. */
  lemma BelowMinCountsInFirstBin(v: int, minVal: int, binWidth: int)
    requires binWidth > 0 && minVal - binWidth < v < minVal
    ensures BinOf(v, minVal, binWidth) == 0
    ensures (v - minVal) / binWidth == -1
  {
  }

  /** `Frequency(int[] _inputDat, int _minVal, int _maxVal, int _binWidth)`:
      a zero width divides by zero, a negative bin count fails the
      allocation, and a value whose bin does not exist throws from the
      counting loop. */
  method NewFrequency(data: seq<int>, minVal: int, maxVal: int, binWidth: int) returns (r: Result<Frequency>)
    ensures binWidth == 0 ==> r == Err(Arithmetic)
    ensures binWidth != 0 && NumBins(minVal, maxVal, binWidth) < 0 ==> r == Err(NegativeArraySize)
    ensures binWidth != 0 && NumBins(minVal, maxVal, binWidth) >= 0 ==>
      (r.Ok? <==> forall k :: 0 <= k < |data| ==> 0 <= BinOf(data[k], minVal, binWidth) < NumBins(minVal, maxVal, binWidth))
    ensures r.Err? && binWidth != 0 && NumBins(minVal, maxVal, binWidth) >= 0 ==> r.error == ArrayIndexOutOfBounds
    ensures binWidth > 0 && minVal <= maxVal && (forall k :: 0 <= k < |data| ==> minVal <= data[k] <= maxVal) ==> r.Ok?
    ensures r.Ok? ==> Valid(r.value)
    ensures r.Ok? ==> r.value.numBins == NumBins(minVal, maxVal, binWidth) && r.value.ln == |data|
    ensures r.Ok? ==> forall b :: 0 <= b < r.value.numBins ==> r.value.frequency[b] == Count(data, InBin(b, minVal, binWidth))
    ensures r.Ok? ==> Sum(r.value.frequency) == |data|
  {
    if binWidth == 0 {
      return Err(Arithmetic);
    }
    var numBins := NumBins(minVal, maxVal, binWidth);
    if numBins < 0 {
      return Err(NegativeArraySize);
    }
    if binWidth > 0 && minVal <= maxVal && (forall k :: 0 <= k < |data| ==> minVal <= data[k] <= maxVal) {
      AllInRangeBins(data, minVal, maxVal, binWidth);
    }
    var frequency :- CountIntoBins(data, minVal, binWidth, numBins);
    r := Ok(Frequency(numBins, |data|, frequency));
  }

  /** Data within [minVal, maxVal] only addresses existing bins. */
  lemma AllInRangeBins(data: seq<int>, minVal: int, maxVal: int, binWidth: int)
    requires binWidth > 0 && minVal <= maxVal
    requires forall k :: 0 <= k < |data| ==> minVal <= data[k] <= maxVal
    ensures forall k :: 0 <= k < |data| ==> 0 <= BinOf(data[k], minVal, binWidth) < NumBins(minVal, maxVal, binWidth)
  {
    forall k | 0 <= k < |data|
      ensures 0 <= BinOf(data[k], minVal, binWidth) < NumBins(minVal, maxVal, binWidth)
    {
      InRangeBin(data[k], minVal, maxVal, binWidth);
    }
  }

  /** The counting loop of the constructor: `frequency[bin]++` for every
      value, throwing at the first value whose bin does not exist. */
  method CountIntoBins(data: seq<int>, minVal: int, binWidth: int, numBins: nat) returns (r: Result<seq<int>>)
    ensures r.Ok? <==> forall k :: 0 <= k < |data| ==> 0 <= BinOf(data[k], minVal, binWidth) < numBins
    ensures r.Err? ==> r.error == ArrayIndexOutOfBounds
    ensures r.Ok? ==> |r.value| == numBins
    ensures r.Ok? ==> forall b :: 0 <= b < numBins ==> r.value[b] == Count(data, InBin(b, minVal, binWidth))
    ensures r.Ok? ==> Sum(r.value) == |data|
  {
    var frequency := seq(numBins, _ => 0);
    SumZero(frequency);
    CountEmptyBins(data, minVal, binWidth, numBins);
    for i := 0 to |data|
      invariant |frequency| == numBins
      invariant forall k :: 0 <= k < i ==> 0 <= BinOf(data[k], minVal, binWidth) < numBins
      invariant forall b :: 0 <= b < numBins ==> frequency[b] == Count(data[..i], InBin(b, minVal, binWidth))
      invariant Sum(frequency) == i
    {
      var bin := BinOf(data[i], minVal, binWidth);
      if !(0 <= bin < numBins) {
        return Err(ArrayIndexOutOfBounds);
      }
      SumIncrement(frequency, bin);
      CountOneMore(data, i, minVal, binWidth, frequency);
      frequency := frequency[bin := frequency[bin] + 1];
    }
    assert data[..|data|] == data;
    r := Ok(frequency);
  }

  /** Before the loop no value has been counted in any bin. */
  lemma CountEmptyBins(data: seq<int>, minVal: int, binWidth: int, numBins: nat)
    ensures forall b :: 0 <= b < numBins ==> 0 == Count(data[..0], InBin(b, minVal, binWidth))
  {
    assert data[..0] == [];
  }

  /** One step of the loop: the value at i is counted in its own bin only. */
  lemma CountOneMore(data: seq<int>, i: int, minVal: int, binWidth: int, frequency: seq<int>)
    requires 0 <= i < |data| && 0 <= BinOf(data[i], minVal, binWidth) < |frequency|
    requires forall b :: 0 <= b < |frequency| ==> frequency[b] == Count(data[..i], InBin(b, minVal, binWidth))
    ensures forall b :: 0 <= b < |frequency| ==>
      frequency[BinOf(data[i], minVal, binWidth) := frequency[BinOf(data[i], minVal, binWidth)] + 1][b]
        == Count(data[..i + 1], InBin(b, minVal, binWidth))
  {
    assert data[..i + 1][..i] == data[..i];
  }

  /** A freshly allocated `int[]` holds zeros, which add up to zero. */
  lemma {:induction false} SumZero(s: seq<int>)
    requires forall k :: 0 <= k < |s| ==> s[k] == 0
    ensures Sum(s) == 0
    decreases |s|
  {
    if |s| > 0 {
      SumZero(s[..|s| - 1]);
    }
  }

  /** `compCumFrequency()`: running totals of the bin counts; `cumFreq[0]`
      is written unconditionally, so an object with no bins throws. */
  method CompCumFrequency(f: Frequency) returns (r: Result<seq<int>>)
    ensures |f.frequency| == 0 ==> r == Err(ArrayIndexOutOfBounds)
    ensures |f.frequency| > 0 ==> r.Ok?
    ensures r.Ok? ==> |r.value| == |f.frequency|
    ensures r.Ok? ==> forall i :: 0 <= i < |r.value| ==> r.value[i] == Sum(f.frequency[..i + 1])
    ensures r.Ok? ==> r.value[|r.value| - 1] == Sum(f.frequency)
    ensures r.Ok? && (forall b :: 0 <= b < |f.frequency| ==> f.frequency[b] >= 0) ==> Ascending(r.value)
  {
    var freq := f.frequency;
    if |freq| == 0 {
      return Err(ArrayIndexOutOfBounds);
    }
    var cumFreq := new int[|freq|];
    cumFreq[0] := freq[0];
    assert freq[..1][..0] == [];
    for i := 1 to |freq|
      invariant forall k :: 0 <= k < i ==> cumFreq[k] == Sum(freq[..k + 1])
    {
      assert freq[..i + 1][..i] == freq[..i];
      cumFreq[i] := freq[i] + cumFreq[i - 1];
    }
    assert freq[..|freq|] == freq;
    r := Ok(cumFreq[..]);
    if forall b :: 0 <= b < |freq| ==> freq[b] >= 0 {
      PrefixSumsAscending(freq, r.value);
    }
  }

  /** Running totals of non-negative counts never decrease. */
  lemma PrefixSumsAscending(freq: seq<int>, cum: seq<int>)
    requires |cum| == |freq|
    requires forall b :: 0 <= b < |freq| ==> freq[b] >= 0
    requires forall i :: 0 <= i < |cum| ==> cum[i] == Sum(freq[..i + 1])
    ensures Ascending(cum)
  {
    forall i, j | 0 <= i < j < |cum|
      ensures cum[i] <= cum[j]
    {
      PrefixSumMonotone(freq, i + 1, j + 1);
    }
  }

  lemma {:induction false} PrefixSumMonotone(freq: seq<int>, m: int, n: int)
    requires 0 <= m <= n <= |freq|
    requires forall b :: 0 <= b < |freq| ==> freq[b] >= 0
    ensures Sum(freq[..m]) <= Sum(freq[..n])
    decreases n - m
  {
    if m < n {
      PrefixSumMonotone(freq, m, n - 1);
      assert freq[..n][..n - 1] == freq[..n - 1];
    }
  }

  /** `getFrequency()`. */
  function GetFrequency(f: Frequency): (r: seq<int>)
    ensures Valid(f) ==> |r| == f.numBins
  {
    f.frequency
  }

  /** `getNumBins()`: always the length of `getFrequency()`. */
  function GetNumBins(f: Frequency): (r: int)
    ensures Valid(f) ==> r == |GetFrequency(f)|
  {
    f.numBins
  }

  /** `getLength()`: the number of values the object was built from. */
  function GetLength(f: Frequency): (r: int)
    ensures Valid(f) ==> r >= 0
  {
    f.ln
  }

  /** A histogram built by the constructor and then summed by
      `compCumFrequency()`: the last running total is `getLength()`, the
      number of values, since every value was counted exactly once. With
      data inside [minVal, maxVal] and a positive width both calls succeed. */
  method CumulativeTotalIsLength(data: seq<int>, minVal: int, maxVal: int, binWidth: int) returns (total: Result<int>)
    ensures binWidth > 0 && minVal <= maxVal && (forall k :: 0 <= k < |data| ==> minVal <= data[k] <= maxVal) ==>
      total == Ok(|data|)
    ensures total.Ok? ==> total.value == |data|
  {
    var built := NewFrequency(data, minVal, maxVal, binWidth);
    if built.Err? {
      return Err(built.error);
    }
    var f := built.value;
    var cum := CompCumFrequency(f);
    if cum.Err? {
      return Err(cum.error);
    }
    if binWidth > 0 && minVal <= maxVal {
      QuotientNonNegative(maxVal - minVal, binWidth);
    }
    total := Ok(cum.value[|cum.value| - 1]);
    assert total.value == GetLength(f);
  }
}

=== FILE: mat.dfy ===
/** The integer array utilities of papaya's `Mat` class (Mat.java), and
    `copyThenSort`.

    Java `int` arithmetic is modelled with unbounded integers: the
    overflow of `sum` and of `end-start+1` in `linspace` is not modelled.
    Arguments are sequences, so "the input is left untouched" holds by
    construction for every operation except `swap`. */
module Mat {
  import opened Errors
  import opened Seqs
  import Check

  /** `compare(int a, int b)`: the natural-order comparator. */
  function Compare(a: int, b: int): (r: int)
    ensures r == -1 <==> a < b
    ensures r == 0 <==> a == b
    ensures r == 1 <==> a > b
  {
    if a < b then -1 else if a > b then 1 else 0
  }

  // ---------------------------------------------------------------- concat

  /** `concat(int[] a, int[] b)`: two `System.arraycopy` calls into a new array. */
  method Concat(a: seq<int>, b: seq<int>) returns (c: seq<int>)
    ensures |c| == |a| + |b|
    ensures c[..|a|] == a && c[|a|..] == b
  {
    var out := new int[|a| + |b|];
    for i := 0 to |a|
      invariant forall k :: 0 <= k < i ==> out[k] == a[k]
    {
      out[i] := a[i];
    }
    for i := 0 to |b|
      invariant forall k :: 0 <= k < |a| ==> out[k] == a[k]
      invariant forall k :: 0 <= k < i ==> out[|a| + k] == b[k]
    {
      out[|a| + i] := b[i];
    }
    c := out[..];
  }

  // --------------------------------------------------------------- reverse

  /** Reference reversal: position i holds the element |s|-1-i places from the front. */
  function Reversed(s: seq<int>): seq<int>
  {
    seq(|s|, i requires 0 <= i < |s| => s[|s| - 1 - i])
  }

  /** `reverse(int[] data)`: copies left to right while `right` counts down. */
  method Reverse(data: seq<int>) returns (reversed: seq<int>)
    ensures |reversed| == |data|
    ensures forall i :: 0 <= i < |data| ==> reversed[|data| - 1 - i] == data[i]
    ensures reversed == Reversed(data)
  {
    var size := |data|;
    var right := size - 1;
    var out := new int[size];
    for left := 0 to size
      invariant right == size - 1 - left
      invariant forall i :: 0 <= i < left ==> out[size - 1 - i] == data[i]
    {
      out[right] := data[left];
      right := right - 1;
    }
    reversed := out[..];
  }

  /** Reversing twice gives back the original array. */
  lemma ReverseInvolution(s: seq<int>)
    ensures Reversed(Reversed(s)) == s
  {
    var r := Reversed(Reversed(s));
    assert forall i :: 0 <= i < |s| ==> r[i] == s[i];
  }

  /** Reversing a concatenation reverses and swaps the two parts. */
  lemma ReverseConcat(a: seq<int>, b: seq<int>)
    ensures Reversed(a + b) == Reversed(b) + Reversed(a)
  {
    var l, r := Reversed(a + b), Reversed(b) + Reversed(a);
    assert |l| == |r|;
    forall i | 0 <= i < |l|
      ensures l[i] == r[i]
    {
      if i < |b| {
        assert r[i] == Reversed(b)[i];
      } else {
        assert r[i] == Reversed(a)[i - |b|];
      }
    }
  }

  // -------------------------------------------------------------- linspace

  /** `linspace(int start, int end)`: the integers start..end, both included;
      `new int[end-start+1]` throws when end < start-1. */
  method Linspace(start: int, end: int) returns (r: Result<seq<int>>)
    ensures r.Err? <==> end - start + 1 < 0
    ensures r.Err? ==> r.error == NegativeArraySize
    ensures r.Ok? ==> |r.value| == end - start + 1
    ensures r.Ok? ==> forall i :: 0 <= i < |r.value| ==> r.value[i] == start + i
    ensures r.Ok? ==> r.value == Range(start, end + 1)
  {
    var n := end - start + 1;
    if n < 0 {
      return Err(NegativeArraySize);
    }
    var indices := new int[n];
    for i := 0 to n
      invariant forall k :: 0 <= k < i ==> indices[k] == k + start
    {
      indices[i] := i + start;
    }
    r := Ok(indices[..]);
  }

  // -------------------------------------------------------------- populate

  /** Every index addresses a cell of `full`. */
  predicate IndicesIn(full: seq<int>, indices: seq<int>)
  {
    forall i :: 0 <= i < |indices| ==> 0 <= indices[i] < |full|
  }

  /** Reference gather: position i holds full[indices[i]]. */
  function Gathered(full: seq<int>, indices: seq<int>): seq<int>
    requires IndicesIn(full, indices)
  {
    seq(|indices|, i requires 0 <= i < |indices| => full[indices[i]])
  }

  /** `populate(int[] fullDataset, int[] indices)`: an index outside the
      data set throws. */
  method Populate(fullDataset: seq<int>, indices: seq<int>) returns (r: Result<seq<int>>)
    ensures r.Ok? <==> IndicesIn(fullDataset, indices)
    ensures r.Err? ==> r.error == ArrayIndexOutOfBounds
    ensures r.Ok? ==> |r.value| == |indices|
    ensures r.Ok? ==> forall i :: 0 <= i < |indices| ==> r.value[i] == fullDataset[indices[i]]
    ensures r.Ok? ==> r.value == Gathered(fullDataset, indices)
  {
    var outputDat := new int[|indices|];
    for i := 0 to |indices|
      invariant forall k :: 0 <= k < i ==> 0 <= indices[k] < |fullDataset| && outputDat[k] == fullDataset[indices[k]]
    {
      if !(0 <= indices[i] < |fullDataset|) {
        return Err(ArrayIndexOutOfBounds);
      }
      outputDat[i] := fullDataset[indices[i]];
    }
    r := Ok(outputDat[..]);
  }

  /** Gathering by `linspace(0, n-1)` copies the whole array. */
  lemma GatherByRange(full: seq<int>)
    ensures IndicesIn(full, Range(0, |full|))
    ensures Gathered(full, Range(0, |full|)) == full
  {
  }

  /** Gathering twice is gathering once by the composed index array. */
  lemma GatherCompose(full: seq<int>, p: seq<int>, q: seq<int>)
    requires IndicesIn(full, p) && IndicesIn(p, q)
    ensures IndicesIn(Gathered(full, p), q)
    ensures IndicesIn(full, Gathered(p, q))
    ensures Gathered(Gathered(full, p), q) == Gathered(full, Gathered(p, q))
  {
  }

  // ------------------------------------------------------------- transpose

  /** Every row has at least `cols` cells. */
  predicate RowsCover(m: seq<seq<int>>, cols: int)
  {
    forall r :: 0 <= r < |m| ==> |m[r]| >= cols
  }

  /** `rows` rows of exactly `cols` cells. */
  predicate Rectangular(m: seq<seq<int>>, rows: int, cols: int)
  {
    |m| == rows && forall r :: 0 <= r < |m| ==> |m[r]| == cols
  }

  /** Reference transpose, sized by the first row. */
  function Transposed(m: seq<seq<int>>): seq<seq<int>>
    requires |m| > 0 && RowsCover(m, |m[0]|)
  {
    seq(|m[0]|, c requires 0 <= c < |m[0]| =>
      seq(|m|, r requires 0 <= r < |m| => m[r][c]))
  }

  /** `transpose(int[][] data)`: the column count is read from `data[0]`, so
      an empty matrix throws; a row shorter than the first row throws when
      its missing column is reached. */
  method Transpose(data: seq<seq<int>>) returns (r: Result<seq<seq<int>>>)
    ensures |data| == 0 ==> r == Err(ArrayIndexOutOfBounds)
    ensures |data| > 0 ==> (r.Ok? <==> RowsCover(data, |data[0]|))
    ensures r.Err? ==> r.error == ArrayIndexOutOfBounds
    ensures r.Ok? ==> |data| > 0 && RowsCover(data, |data[0]|) && Rectangular(r.value, |data[0]|, |data|)
    ensures r.Ok? ==> forall c, row :: 0 <= c < |r.value| && 0 <= row < |data| ==> r.value[c][row] == data[row][c]
    ensures r.Ok? ==> r.value == Transposed(data)
  {
    if |data| == 0 {
      return Err(ArrayIndexOutOfBounds);
    }
    var numColumns := |data[0]|;
    var numRows := |data|;
    var out: seq<seq<int>> := [];
    for c := 0 to numColumns
      invariant |out| == c
      invariant RowsCover(data, c)
      invariant Rectangular(out, c, numRows)
      invariant forall c', row :: 0 <= c' < c && 0 <= row < numRows ==> out[c'][row] == data[row][c']
    {
      var column: seq<int> := [];
      for row := 0 to numRows
        invariant |column| == row
        invariant forall k :: 0 <= k < row ==> c < |data[k]| && column[k] == data[k][c]
      {
        if c >= |data[row]| {
          return Err(ArrayIndexOutOfBounds);
        }
        column := column + [data[row][c]];
      }
      out := out + [column];
    }
    forall c | 0 <= c < numColumns
      ensures out[c] == Transposed(data)[c]
    {
      assert |out[c]| == numRows;
    }
    r := Ok(out);
  }

  /** A rectangular matrix with at least one row and one column comes
      back unchanged from two transpositions. */
  lemma TransposeTwice(m: seq<seq<int>>, rows: int, cols: int)
    requires rows > 0 && cols > 0 && Rectangular(m, rows, cols)
    ensures Rectangular(Transposed(m), cols, rows)
    ensures Transposed(Transposed(m)) == m
  {
    var t := Transposed(m);
    assert |t[0]| == rows;
    var tt := Transposed(t);
    assert |tt| == rows;
    forall r | 0 <= r < rows
      ensures tt[r] == m[r]
    {
      assert |tt[r]| == cols;
    }
  }

  // ------------------------------------------------------------- subMatrix

  /** Every requested cell exists: each column index lies within each requested row. */
  predicate CellsExist(m: seq<seq<int>>, rows: seq<int>, cols: seq<int>)
  {
    forall i :: 0 <= i < |rows| && |cols| > 0 ==>
      && 0 <= rows[i] < |m|
      && forall j :: 0 <= j < |cols| ==> 0 <= cols[j] < |m[rows[i]]|
  }

  /** Reference extraction: cell (i, j) is m[rows[i]][cols[j]]. */
  function Extracted(m: seq<seq<int>>, rows: seq<int>, cols: seq<int>): seq<seq<int>>
    requires CellsExist(m, rows, cols)
  {
    seq(|rows|, i requires 0 <= i < |rows| =>
      seq(|cols|, j requires 0 <= j < |cols| => m[rows[i]][cols[j]]))
  }

  /** `subMatrix(int[][] inputMat, int[] rowIndices, int[] columnIndices)`, as
      written: the guards compare the NUMBER of requested rows and columns
      with the matrix dimensions; an index outside the matrix then throws
      from the copy loop, which only reads a row when a column is requested. */
  function SubMatrix(m: seq<seq<int>>, rows: seq<int>, cols: seq<int>): (r: Result<seq<seq<int>>>)
    ensures r.Ok? <==> |rows| <= |m| && |m| > 0 && |cols| <= |m[0]| && CellsExist(m, rows, cols)
    ensures |rows| > |m| ==> r == Err(IllegalArgument)
    ensures |rows| <= |m| == 0 ==> r == Err(ArrayIndexOutOfBounds)
    ensures |rows| <= |m| && |m| > 0 && |cols| > |m[0]| ==> r == Err(IllegalArgument)
    ensures r.Ok? ==> |r.value| == |rows|
    ensures r.Ok? ==> forall i :: 0 <= i < |rows| ==> |r.value[i]| == |cols|
    ensures r.Ok? ==> forall i, j :: 0 <= i < |rows| && 0 <= j < |cols| ==> r.value[i][j] == m[rows[i]][cols[j]]
  {
    if |rows| > |m| then Err(IllegalArgument)
    else if |m| == 0 then Err(ArrayIndexOutOfBounds)
    else if |cols| > |m[0]| then Err(IllegalArgument)
    else if !CellsExist(m, rows, cols) then Err(ArrayIndexOutOfBounds)
    else Ok(Extracted(m, rows, cols))
  }

  /** Every requested row exists, and every requested column exists in it. */
  predicate IndicesWithinBounds(m: seq<seq<int>>, rows: seq<int>, cols: seq<int>)
  {
    && (forall i :: 0 <= i < |rows| ==> 0 <= rows[i] < |m|)
    && CellsExist(m, rows, cols)
  }

  /** A request that repeats a row index asks for more rows than the matrix
      has, so the count guard rejects it although every index is in bounds. */
  lemma SubMatrixRejectsRepeatedRow()
    ensures IndicesWithinBounds([[1, 2], [3, 4]], [0, 0, 1], [0])
    ensures SubMatrix([[1, 2], [3, 4]], [0, 0, 1], [0]) == Err(IllegalArgument)
  {
    var m, rows, cols := [[1, 2], [3, 4]], [0, 0, 1], [0];
    assert forall i :: 0 <= i < |rows| ==> rows[i] in {0, 1};
  }

  /** `subMatrix` as its error message describes it: it rejects exactly the
      requests naming a row or column outside the matrix. */
  function SubMatrixInBounds(m: seq<seq<int>>, rows: seq<int>, cols: seq<int>): (r: Result<seq<seq<int>>>)
    ensures r.Ok? <==> IndicesWithinBounds(m, rows, cols)
    ensures r.Err? ==> r.error == IllegalArgument
    ensures r.Ok? ==> |r.value| == |rows|
    ensures r.Ok? ==> forall i :: 0 <= i < |rows| ==> |r.value[i]| == |cols|
    ensures r.Ok? ==> forall i, j :: 0 <= i < |rows| && 0 <= j < |cols| ==> r.value[i][j] == m[rows[i]][cols[j]]
  {
    if !IndicesWithinBounds(m, rows, cols) then Err(IllegalArgument)
    else Ok(Extracted(m, rows, cols))
  }

  /** Wherever the code as written succeeds with at least one column, the
      corrected routine succeeds with the same matrix. */
  lemma SubMatrixInBoundsExtends(m: seq<seq<int>>, rows: seq<int>, cols: seq<int>)
    requires |cols| > 0 && SubMatrix(m, rows, cols).Ok?
    ensures SubMatrixInBounds(m, rows, cols) == SubMatrix(m, rows, cols)
  {
  }

  // ------------------------------------------------------------------- sum

  /** Reference elementwise sum of two equally long arrays. */
  function Plus(a: seq<int>, b: seq<int>): seq<int>
    requires |a| == |b|
  {
    seq(|a|, i requires 0 <= i < |a| => a[i] + b[i])
  }

  /** Reference: `number` added to every element. */
  function Shifted(a: seq<int>, number: int): seq<int>
  {
    seq(|a|, i requires 0 <= i < |a| => a[i] + number)
  }

  /** `sum(int[] data)`: starts from `data[0]`, so an empty array throws. */
  method SumOfArray(data: seq<int>) returns (r: Result<int>)
    ensures |data| == 0 ==> r == Err(ArrayIndexOutOfBounds)
    ensures |data| > 0 ==> r == Ok(Sum(data))
  {
    if |data| == 0 {
      return Err(ArrayIndexOutOfBounds);
    }
    var sum := data[0];
    assert data[..1][..0] == [];
    for i := 1 to |data|
      invariant sum == Sum(data[..i])
    {
      assert data[..i + 1][..i] == data[..i];
      sum := sum + data[i];
    }
    assert data[..|data|] == data;
    r := Ok(sum);
  }

  /** `sum(int[] data1, int[] data2)`: `Check.equalLengths` rejects arrays of
      different lengths. */
  method SumOfArrays(data1: seq<int>, data2: seq<int>) returns (r: Result<seq<int>>)
    ensures r.Err? <==> |data1| != |data2|
    ensures r.Err? ==> r.error == IllegalArgument
    ensures r.Ok? ==> |r.value| == |data1| == |data2|
    ensures r.Ok? ==> forall i :: 0 <= i < |data1| ==> r.value[i] == data1[i] + data2[i]
    ensures r.Ok? ==> r.value == Plus(data1, data2)
  {
    var size := |data1|;
    var ok := Check.EqualLengths(size, data2);
    if ok.Fail? {
      return Err(ok.error);
    }
    var sum := new int[size];
    for i := 0 to size
      invariant forall k :: 0 <= k < i ==> sum[k] == data1[k] + data2[k]
    {
      sum[i] := data1[i] + data2[i];
    }
    r := Ok(sum[..]);
  }

  /** `sum(int[] data, int number)`. */
  method SumWithNumber(data: seq<int>, number: int) returns (r: seq<int>)
    ensures |r| == |data|
    ensures forall i :: 0 <= i < |data| ==> r[i] == data[i] + number
    ensures r == Shifted(data, number)
  {
    var sum := new int[|data|];
    for i := 0 to |data|
      invariant forall k :: 0 <= k < i ==> sum[k] == data[k] + number
    {
      sum[i] := data[i] + number;
    }
    r := sum[..];
  }

  /** The total of an elementwise sum is the sum of the totals. */
  lemma {:induction false} SumOfPlus(a: seq<int>, b: seq<int>)
    requires |a| == |b|
    ensures Sum(Plus(a, b)) == Sum(a) + Sum(b)
    decreases |a|
  {
    if |a| > 0 {
      var n := |a| - 1;
      SumOfPlus(a[..n], b[..n]);
      assert Plus(a, b)[..n] == Plus(a[..n], b[..n]);
    }
  }

  /** Adding `number` to each of n elements adds n*number to the total. */
  lemma {:induction false} SumOfShifted(a: seq<int>, number: int)
    ensures Sum(Shifted(a, number)) == Sum(a) + |a| * number
    decreases |a|
  {
    if |a| > 0 {
      var n := |a| - 1;
      SumOfShifted(a[..n], number);
      assert Shifted(a, number)[..n] == Shifted(a[..n], number);
    }
  }

  // ------------------------------------------------------------------ swap

  /** Reference: s with cells i and j exchanged. */
  function Swapped(s: seq<int>, i: int, j: int): seq<int>
    requires 0 <= i < |s| && 0 <= j < |s|
  {
    s[i := s[j]][j := s[i]]
  }

  /** `swap(int[] data, int oldIndex, int newIndex)`: both reads happen before
      either write, so a bad index throws with the array unchanged. */
  method Swap(data: array<int>, oldIndex: int, newIndex: int) returns (r: Outcome)
    modifies data
    ensures r == Pass <==> 0 <= oldIndex < data.Length && 0 <= newIndex < data.Length
    ensures r.Fail? ==> r.error == ArrayIndexOutOfBounds && data[..] == old(data[..])
    ensures r == Pass ==> data[..] == Swapped(old(data[..]), oldIndex, newIndex)
  {
    if !(0 <= oldIndex < data.Length) {
      return Fail(ArrayIndexOutOfBounds);
    }
    var tmp := data[oldIndex];
    if !(0 <= newIndex < data.Length) {
      return Fail(ArrayIndexOutOfBounds);
    }
    data[oldIndex] := data[newIndex];
    data[newIndex] := tmp;
    r := Pass;
  }

  /** A swap exchanges the two cells, leaves every other cell alone, and
      keeps the multiset of elements; swapping again undoes it. */
  lemma SwapSpec(s: seq<int>, i: int, j: int)
    requires 0 <= i < |s| && 0 <= j < |s|
    ensures |Swapped(s, i, j)| == |s|
    ensures Swapped(s, i, j)[i] == s[j] && Swapped(s, i, j)[j] == s[i]
    ensures forall k :: 0 <= k < |s| && k != i && k != j ==> Swapped(s, i, j)[k] == s[k]
    ensures multiset(Swapped(s, i, j)) == multiset(s)
    ensures Swapped(Swapped(s, i, j), i, j) == s
  {
    SwappedMultiset(s, i, j);
    var t := Swapped(s, i, j);
    var back := Swapped(t, i, j);
    forall k | 0 <= k < |s|
      ensures back[k] == s[k]
    {
    }
  }

  lemma SwappedMultiset(s: seq<int>, i: int, j: int)
    requires 0 <= i < |s| && 0 <= j < |s|
    ensures multiset(Swapped(s, i, j)) == multiset(s)
  {
    var u := s[i := s[j]];
    assert multiset(u) == multiset(s) - multiset{s[i]} + multiset{s[j]};
    assert u[j] == s[j];
    assert multiset(u[j := s[i]]) == multiset(u) - multiset{s[j]} + multiset{s[i]};
  }

  // -------------------------------------------------------------- constant

  /** `constant(int constValue, int size)`: a negative size throws. */
  method Constant(constValue: int, size: int) returns (r: Result<seq<int>>)
    ensures r.Err? <==> size < 0
    ensures r.Err? ==> r.error == NegativeArraySize
    ensures r.Ok? ==> |r.value| == size && forall k :: 0 <= k < size ==> r.value[k] == constValue
    ensures r.Ok? ==> Count(r.value, EqualTo(constValue)) == size
  {
    if size < 0 {
      return Err(NegativeArraySize);
    }
    var constant := new int[size];
    for i := 0 to size
      invariant forall k :: 0 <= k < i ==> constant[k] == constValue
    {
      constant[i] := constValue;
    }
    r := Ok(constant[..]);
    CountAll(r.value, EqualTo(constValue));
  }

  // ---------------------------------------------------------- copyThenSort

  /** Insert x into an ascending sequence. */
  function Insert(x: int, s: seq<int>): seq<int>
  {
    if |s| == 0 then [x]
    else if x <= s[0] then [x] + s
    else [s[0]] + Insert(x, s[1..])
  }

  /** Reference ascending sort (insertion sort). */
  function Sorted(s: seq<int>): seq<int>
  {
    if |s| == 0 then [] else Insert(s[0], Sorted(s[1..]))
  }

  lemma InsertSpec(x: int, s: seq<int>)
    requires Ascending(s)
    ensures Ascending(Insert(x, s))
    ensures multiset(Insert(x, s)) == multiset(s) + multiset{x}
  {
    InsertMultiset(x, s);
    InsertAscending(x, s);
  }

  lemma {:induction false} InsertMultiset(x: int, s: seq<int>)
    ensures multiset(Insert(x, s)) == multiset(s) + multiset{x}
    decreases |s|
  {
    if |s| > 0 && x > s[0] {
      var t := Insert(x, s[1..]);
      calc {
        multiset(Insert(x, s));
      ==
        multiset([s[0]] + t);
      ==
        multiset{s[0]} + multiset(t);
      == { InsertMultiset(x, s[1..]); }
        multiset{s[0]} + multiset(s[1..]) + multiset{x};
      == { assert s == [s[0]] + s[1..]; }
        multiset(s) + multiset{x};
      }
    }
  }

  lemma {:induction false} InsertAscending(x: int, s: seq<int>)
    requires Ascending(s)
    ensures Ascending(Insert(x, s))
    decreases |s|
  {
    if |s| > 0 && x > s[0] {
      var t := Insert(x, s[1..]);
      InsertAscending(x, s[1..]);
      InsertMultiset(x, s[1..]);
      forall k | 0 <= k < |t|
        ensures s[0] <= t[k]
      {
        assert t[k] in multiset(t);
        if t[k] != x {
          assert t[k] in multiset(s[1..]);
          var m :| 0 <= m < |s| - 1 && s[1..][m] == t[k];
          assert s[1 + m] == t[k];
        }
      }
      AscendingCons(s[0], t);
    } else if |s| > 0 {
      AscendingCons(x, s);
    }
  }

  lemma {:induction false} SortedSpec(s: seq<int>)
    ensures Ascending(Sorted(s))
    ensures multiset(Sorted(s)) == multiset(s)
    decreases |s|
  {
    if |s| > 0 {
      var rest := Sorted(s[1..]);
      SortedSpec(s[1..]);
      InsertSpec(s[0], rest);
      calc {
        multiset(Sorted(s));
      ==
        multiset(Insert(s[0], rest));
      ==
        multiset(s[1..]) + multiset{s[0]};
      == { assert s == [s[0]] + s[1..]; }
        multiset(s);
      }
    }
  }

  /** There is only one ascending arrangement of a multiset, so any correct
      sort, `Arrays.sort` included, returns `Sorted`. */
  lemma {:induction false} AscendingPermutationUnique(a: seq<int>, b: seq<int>)
    requires Ascending(a) && Ascending(b) && multiset(a) == multiset(b)
    ensures a == b
    decreases |a|
  {
    assert |a| == |multiset(a)| == |b|;
    if |a| > 0 {
      assert a[0] in multiset(b);
      assert b[0] in multiset(a);
      assert a[0] == b[0];
      assert a == [a[0]] + a[1..];
      assert b == [b[0]] + b[1..];
      assert multiset(a) == multiset{a[0]} + multiset(a[1..]);
      assert multiset(b) == multiset{b[0]} + multiset(b[1..]);
      assert multiset(a[1..]) == multiset(a) - multiset{a[0]};
      assert multiset(b[1..]) == multiset(b) - multiset{b[0]};
      AscendingPermutationUnique(a[1..], b[1..]);
    }
  }

  /** `copyThenSort(data)`: `Arrays.sort` on a fresh copy. */
  method CopyThenSort(data: seq<int>) returns (sortedData: seq<int>)
    ensures Ascending(sortedData)
    ensures multiset(sortedData) == multiset(data)
    ensures |sortedData| == |data|
  {
    var copy := new int[|data|];
    for i := 0 to |data|
      invariant forall k :: 0 <= k < i ==> copy[k] == data[k]
    {
      copy[i] := data[i];
    }
    assert copy[..] == data;
    sortedData := Sorted(copy[..]);
    SortedSpec(copy[..]);
    assert |sortedData| == |multiset(sortedData)|;
  }
}

=== FILE: nans.dfy ===
/** papaya's `NaNs` class (NaNs.java): removing, replacing and locating
    the NaN entries of a floating-point array.

    A float or double is modelled as either NaN or a number; these
    routines only ask whether an entry is NaN, so one model covers the
    `double[]` and the `float[]` overloads. */
module NaNs {
  import opened Seqs

  /** A Java `float`/`double`: NaN, or an ordinary value. */
  datatype Float = NaN | Num(x: real)

  /** `Double.isNaN`, as a predicate value for `Count` and `Select`. */
  function IsNaN(): Float -> bool
  {
    (f: Float) => f.NaN?
  }

  /** Reference definition: the non-NaN entries, in their original order. */
  function NonNaN(s: seq<Float>): seq<Float>
  {
    if |s| == 0 then []
    else NonNaN(s[..|s| - 1]) + (if s[|s| - 1].NaN? then [] else [s[|s| - 1]])
  }

  /** Dropping the NaNs removes exactly the counted NaNs and nothing else. */
  lemma {:induction false} NonNaNSpec(s: seq<Float>)
    ensures |NonNaN(s)| == |s| - Count(s, IsNaN())
    ensures forall k :: 0 <= k < |NonNaN(s)| ==> !NonNaN(s)[k].NaN?
    ensures multiset(NonNaN(s)) <= multiset(s)
    decreases |s|
  {
    if |s| > 0 {
      var init, last := s[..|s| - 1], s[|s| - 1];
      NonNaNSpec(init);
      var kept := if last.NaN? then [] else [last];
      assert NonNaN(s) == NonNaN(init) + kept;
      assert multiset(s) == multiset(init) + multiset([last]) by {
        assert s == init + [last];
      }
      assert multiset(kept) <= multiset([last]);
    }
  }

  /** An array without NaNs is returned unchanged. */
  lemma {:induction false} NonNaNOfClean(s: seq<Float>)
    requires forall k :: 0 <= k < |s| ==> !s[k].NaN?
    ensures NonNaN(s) == s
    decreases |s|
  {
    if |s| > 0 {
      NonNaNOfClean(s[..|s| - 1]);
      assert s == s[..|s| - 1] + [s[|s| - 1]];
    }
  }

  /** `eliminate(data)`: copy the non-NaN entries into a scratch array of
      the full length, then trim it to the number copied. */
  method Eliminate(data: seq<Float>) returns (eliminated: seq<Float>)
    ensures eliminated == NonNaN(data)
    ensures |eliminated| == |data| - Count(data, IsNaN())
    ensures forall k :: 0 <= k < |eliminated| ==> !eliminated[k].NaN?
    ensures (forall k :: 0 <= k < |data| ==> !data[k].NaN?) ==> eliminated == data
  {
    var data2 := new Float[|data|](_ => Num(0.0));
    var j := 0;
    for i := 0 to |data|
      invariant 0 <= j <= i
      invariant data2[..j] == NonNaN(data[..i])
    {
      assert data[..i + 1][..i] == data[..i];
      NonNaNSpec(data[..i]);
      if !data[i].NaN? {
        data2[j] := data[i];
        j := j + 1;
      }
    }
    assert data[..|data|] == data;
    eliminated := data2[..j];
    NonNaNSpec(data);
    if forall k :: 0 <= k < |data| ==> !data[k].NaN? {
      NonNaNOfClean(data);
    }
  }

  /** The entry `replaceNewWith` and `replaceOriginalWith` store at one position. */
  function Replace(f: Float, newNaN: Float): Float
  {
    if f.NaN? then newNaN else f
  }

  /** `replaceNewWith(data, newNaN)`: a new array with each NaN replaced. */
  method ReplaceNewWith(data: seq<Float>, newNaN: Float) returns (replaced: seq<Float>)
    ensures |replaced| == |data|
    ensures forall k :: 0 <= k < |data| && !data[k].NaN? ==> replaced[k] == data[k]
    ensures forall k :: 0 <= k < |data| && data[k].NaN? ==> replaced[k] == newNaN
    ensures !newNaN.NaN? ==> Count(replaced, IsNaN()) == 0 && NonNaN(replaced) == replaced
  {
    var out := new Float[|data|](_ => Num(0.0));
    for i := 0 to |data|
      invariant forall k :: 0 <= k < i ==> out[k] == Replace(data[k], newNaN)
    {
      if data[i].NaN? {
        out[i] := newNaN;
      } else {
        out[i] := data[i];
      }
    }
    replaced := out[..];
    if !newNaN.NaN? {
      CountNone(replaced, IsNaN());
      NonNaNOfClean(replaced);
    }
  }

  /** `replaceOriginalWith(data, newNaN)`: the same replacement, in place. */
  method ReplaceOriginalWith(data: array<Float>, newNaN: Float)
    modifies data
    ensures forall k :: 0 <= k < data.Length ==> data[k] == Replace(old(data[k]), newNaN)
  {
    for i := 0 to data.Length
      invariant forall k :: 0 <= k < i ==> data[k] == Replace(old(data[k]), newNaN)
      invariant forall k :: i <= k < data.Length ==> data[k] == old(data[k])
    {
      if data[i].NaN? {
        data[i] := newNaN;
      }
    }
  }

  /** `containsNaNs(data)`: stops at the first NaN. */
  method ContainsNaNs(data: seq<Float>) returns (r: bool)
    ensures r <==> exists k :: 0 <= k < |data| && data[k].NaN?
    ensures r <==> Count(data, IsNaN()) > 0
    ensures !r ==> NonNaN(data) == data
  {
    r := false;
    var i := 0;
    while i < |data|
      invariant 0 <= i <= |data|
      invariant forall k :: 0 <= k < i ==> !data[k].NaN?
    {
      if data[i].NaN? {
        r := true;
        CountNone(data, IsNaN());
        return;
      }
      i := i + 1;
    }
    CountNone(data, IsNaN());
    NonNaNOfClean(data);
  }

  /** `getNaNPositions(data)`: the NaN indices, ascending. */
  method GetNaNPositions(data: seq<Float>) returns (out: seq<int>)
    ensures Increasing(out)
    ensures forall k :: k in out <==> 0 <= k < |data| && data[k].NaN?
    ensures |out| == Count(data, IsNaN())
    ensures |out| + |NonNaN(data)| == |data|
  {
    out := [];
    for i := 0 to |data|
      invariant out == Select(data, 0, i, IsNaN())
    {
      if data[i].NaN? {
        out := out + [i];
      }
    }
    SelectSpec(data, 0, |data|, IsNaN());
    SelectLength(data, 0, |data|, IsNaN());
    assert data[0..|data|] == data;
    NonNaNSpec(data);
  }
}

=== FILE: pmatrix.dfy ===
/** The `pmatrix` helper class (matrix/source/matrix/pmatrix.java and its
    copy matrix/source/matrix/pmatrix/src/matrix/pmatrix.java): small matrix
    operations that write their result into a static field and return that
    field.

    Each static field is `null` until its operation first runs, which then
    allocates it with the sizes of that call; every later call zeroes and
    refills the same array and returns it again. The model threads each
    field through the calls as a value. An argument of add, subtract or
    scale is either an independent array or the field's own array, handed
    back by an earlier call (`Aliased`); reads of it see the writes of the
    running call. While the field is still `null`, that argument is the
    Java `null`: the call allocates and zeroes the field and then throws
    NullPointerException at its first read of the argument.

    `float` entries are modelled as reals; rounding is not modelled. */
module PMatrix {
  import opened Errors

  type Matrix = seq<seq<real>>

  /** A static result field of matrix type. */
  datatype Field = Null | Buffer(cells: Matrix)

  /** A matrix argument of an elementwise operation. */
  datatype Operand = Array(m: Matrix) | Aliased

  predicate InBounds(m: Matrix, a: int, b: int)
  {
    0 <= a < |m| && 0 <= b < |m[a]|
  }

  /** Every cell of the rows x cols corner exists. */
  predicate Covers(m: Matrix, rows: int, cols: int)
  {
    forall a, b :: 0 <= a < rows && 0 <= b < cols ==> InBounds(m, a, b)
  }

  predicate SameShape(m: Matrix, n: Matrix)
  {
    |m| == |n| && forall a :: 0 <= a < |m| ==> |m[a]| == |n[a]|
  }

  /** `new float[rows][cols]`. */
  function Zeros(rows: nat, cols: nat): (r: Matrix)
    ensures |r| == rows && forall a :: 0 <= a < rows ==> |r[a]| == cols
    ensures forall a, b :: InBounds(r, a, b) ==> r[a][b] == 0.0
  {
    seq(rows, _ => seq(cols, _ => 0.0))
  }

  /** `if (field == null) field = new float[rows][cols];` */
  function Allocate(field: Field, rows: int, cols: int): (r: Result<Matrix>)
    ensures field.Buffer? ==> r == Ok(field.cells)
    ensures field.Null? ==> (r.Ok? <==> rows >= 0 && cols >= 0)
    ensures r.Err? ==> r.error == NegativeArraySize
    ensures field.Null? && r.Ok? ==> |r.value| == rows && Covers(r.value, rows, cols)
    ensures field.Null? && r.Ok? ==> forall a, b :: InBounds(r.value, a, b) ==> r.value[a][b] == 0.0
  {
    if field.Buffer? then Ok(field.cells)
    else if rows < 0 || cols < 0 then Err(NegativeArraySize)
    else Ok(Zeros(rows, cols))
  }

  /** The field can be allocated and then has every cell of the corner. */
  predicate Writable(field: Field, rows: int, cols: int)
  {
    Allocate(field, rows, cols).Ok? && Covers(Allocate(field, rows, cols).value, rows, cols)
  }

  /** Outside the corner, m keeps what the (allocated) field held. */
  ghost predicate KeepsOutside(m: Matrix, field: Field, rows: int, cols: int)
    requires Allocate(field, rows, cols).Ok?
  {
    var base := Allocate(field, rows, cols).value;
    SameShape(m, base) && forall a, b :: InBounds(m, a, b) && !(a < rows && b < cols) ==> m[a][b] == base[a][b]
  }

  lemma Extensional(m: Matrix, n: Matrix)
    requires SameShape(m, n)
    requires forall a, b :: InBounds(m, a, b) ==> m[a][b] == n[a][b]
    ensures m == n
  {
    forall a | 0 <= a < |m|
      ensures m[a] == n[a]
    {
      assert forall b :: 0 <= b < |m[a]| ==> InBounds(m, a, b);
    }
  }

  // ------------------------------------------------- filling the corner

  /** What the filling loops write: 1 on the diagonal of the identity, 0
      everywhere else. */
  function Fill(diagonal: bool, a: int, b: int): real
  {
    if diagonal && a == b then 1.0 else 0.0
  }

  /** One row of a filling loop: `m[a][b] = fill` for b below cols. */
  method FillRow(buf: Matrix, a: int, cols: int, diagonal: bool) returns (r: Outcome, row: seq<real>)
    requires 0 <= a < |buf|
    ensures |row| == |buf[a]|
    ensures r == Pass <==> cols <= |buf[a]|
    ensures r.Fail? ==> r.error == ArrayIndexOutOfBounds
    ensures r == Pass ==> forall b :: 0 <= b < |row| ==> row[b] == if b < cols then Fill(diagonal, a, b) else buf[a][b]
  {
    row := buf[a];
    var b := 0;
    while b < cols
      invariant 0 <= b <= |row| && b <= (if cols < 0 then 0 else cols) && |row| == |buf[a]|
      invariant forall e :: 0 <= e < |row| ==> row[e] == if e < b then Fill(diagonal, a, e) else buf[a][e]
    {
      if b >= |row| {
        return Fail(ArrayIndexOutOfBounds), row;
      }
      row := row[b := Fill(diagonal, a, b)];
      b := b + 1;
    }
    return Pass, row;
  }

  ghost predicate FilledUpTo(buf: Matrix, buf0: Matrix, rows: int, cols: int, diagonal: bool)
  {
    SameShape(buf, buf0) &&
    forall x, y :: InBounds(buf, x, y) ==> buf[x][y] == if x < rows && y < cols then Fill(diagonal, x, y) else buf0[x][y]
  }

  /** The nested filling loops over the rows x cols corner: the "set answer
      matrix to zero" loops of every operation, and the loops of
      `identityMatrix`. */
  method FillPass(buf0: Matrix, rows: int, cols: int, diagonal: bool) returns (r: Outcome, buf: Matrix)
    ensures SameShape(buf, buf0)
    ensures r == Pass <==> Covers(buf0, rows, cols)
    ensures r.Fail? ==> r.error == ArrayIndexOutOfBounds
    ensures r == Pass ==> FilledUpTo(buf, buf0, rows, cols, diagonal)
  {
    buf := buf0;
    var a := 0;
    while a < rows
      invariant 0 <= a && a <= (if rows < 0 then 0 else rows) && SameShape(buf, buf0)
      invariant Covers(buf0, a, cols)
      invariant FilledUpTo(buf, buf0, a, cols, diagonal)
    {
      if cols > 0 {
        if a >= |buf| {
          assert !InBounds(buf0, a, 0);
          return Fail(ArrayIndexOutOfBounds), buf;
        }
        var rowResult, row := FillRow(buf, a, cols, diagonal);
        if rowResult.Fail? {
          assert !InBounds(buf0, a, |buf0[a]|);
          return rowResult, buf;
        }
        buf := buf[a := row];
      }
      a := a + 1;
    }
    return Pass, buf;
  }

  // ------------------------------------------------------------ identity

  /** The n x n identity matrix. */
  function Identity(n: nat): (r: Matrix)
    ensures |r| == n && forall a :: 0 <= a < n ==> |r[a]| == n
    ensures forall a, b :: InBounds(r, a, b) ==> r[a][b] == if a == b then 1.0 else 0.0
  {
    seq(n, a => seq(n, b => if a == b then 1.0 else 0.0))
  }

  /** `identityMatrix(matrixSize)`: 1 on the diagonal and 0 elsewhere over
      the matrixSize x matrixSize corner of the field; a fresh field becomes
      exactly the identity. */
  method IdentityMatrix(identity: Field, matrixSize: int) returns (r: Result<Matrix>, after: Field)
    ensures identity.Null? && matrixSize < 0 ==> r == Err(NegativeArraySize) && after == Null
    ensures identity.Null? && matrixSize >= 0 ==> r == Ok(Identity(matrixSize))
    ensures r.Ok? <==> Writable(identity, matrixSize, matrixSize)
    ensures r.Err? && identity.Buffer? ==> r.error == ArrayIndexOutOfBounds
    ensures r.Ok? ==> after == Buffer(r.value) && KeepsOutside(r.value, identity, matrixSize, matrixSize)
    ensures r.Ok? ==> forall a, b :: 0 <= a < matrixSize && 0 <= b < matrixSize ==>
      InBounds(r.value, a, b) && r.value[a][b] == if a == b then 1.0 else 0.0
  {
    var fresh0 := Allocate(identity, matrixSize, matrixSize);
    if fresh0.Err? {
      return Err(fresh0.error), identity;
    }
    var fillResult, buf := FillPass(fresh0.value, matrixSize, matrixSize, true);
    if fillResult.Fail? {
      return Err(ArrayIndexOutOfBounds), Buffer(buf);
    }
    r, after := Ok(buf), Buffer(buf);
    forall a, b | 0 <= a < matrixSize && 0 <= b < matrixSize
      ensures InBounds(buf, a, b)
    {
      assert InBounds(fresh0.value, a, b);
    }
    if identity.Null? {
      Extensional(buf, Identity(matrixSize));
    }
  }

  // ------------------------------------------------ the computing loops

  datatype Op = Add | Subtract | Scale

  function Combine(op: Op, u: real, v: real, factor: real): real
  {
    match op
    case Add => u + v
    case Subtract => u - v
    case Scale => u * factor
  }

  /** What the computing loop adds to cell (c, d) of the result:
      `A[c][d] op B[c][d]` (or `A[c][d] * factor`), the dot product of row
      c of A and column d of B over the first cols entries, or `A[d][c]`. */
  datatype Term =
    | Elementwise(op: Op, x: Operand, y: Operand, factor: real)
    | Product(a: Matrix, b: Matrix)
    | Transpose(a: Matrix)

  /** `matrix[c][d]` for an argument, read in the current state z of the
      field. */
  function Entry(x: Operand, z: Matrix, c: int, d: int): (r: Result<real>)
    ensures r.Ok? <==> InBounds(if x.Array? then x.m else z, c, d)
  {
    var m := if x.Array? then x.m else z;
    if InBounds(m, c, d) then Ok(m[c][d]) else Err(ArrayIndexOutOfBounds)
  }

  /** Every `A[c][i]` and `B[i][d]` with i below n exists. */
  predicate ProductDefined(a: Matrix, b: Matrix, c: int, d: int, n: int)
  {
    forall i :: 0 <= i < n ==> InBounds(a, c, i) && InBounds(b, i, d)
  }

  /** The sum of `A[c][i] * B[i][d]` over i below n. */
  function Dot(a: Matrix, b: Matrix, c: int, d: int, n: int): real
    requires ProductDefined(a, b, c, d, n)
    decreases n
  {
    if n <= 0 then 0.0
    else
      assert InBounds(a, c, n - 1) && InBounds(b, n - 1, d);
      Dot(a, b, c, d, n - 1) + a[c][n - 1] * b[n - 1][d]
  }

  /** The term of cell (c, d) with the field in state z, or the failed
      read. */
  function TermAt(t: Term, z: Matrix, c: int, d: int, cols: int): (r: Result<real>)
    ensures r.Err? ==> r.error == ArrayIndexOutOfBounds
  {
    match t
    case Elementwise(op, x, y, factor) =>
      var u := Entry(x, z, c, d);
      var v := if op == Scale then Ok(0.0) else Entry(y, z, c, d);
      if u.Err? || v.Err? then Err(ArrayIndexOutOfBounds) else Ok(Combine(op, u.value, v.value, factor))
    case Product(a, b) =>
      if ProductDefined(a, b, c, d, cols) then Ok(Dot(a, b, c, d, cols)) else Err(ArrayIndexOutOfBounds)
    case Transpose(a) =>
      if InBounds(a, d, c) then Ok(a[d][c]) else Err(ArrayIndexOutOfBounds)
  }

  function Contribution(t: Term, z: Matrix, c: int, d: int, cols: int): real
  {
    var v := TermAt(t, z, c, d, cols);
    if v.Ok? then v.value else 0.0
  }

  /** The term of a cell reads the field only at that cell. */
  lemma TermAtSameCell(t: Term, z1: Matrix, z2: Matrix, c: int, d: int, cols: int)
    requires InBounds(z1, c, d) <==> InBounds(z2, c, d)
    requires InBounds(z1, c, d) ==> z1[c][d] == z2[c][d]
    ensures TermAt(t, z1, c, d, cols) == TermAt(t, z2, c, d, cols)
  {
  }

  /** The inner loop of `multiplySquareMatrix`: accumulates
      `A[c][i] * B[i][d]` for i below n. */
  method MultiplyCell(a: Matrix, b: Matrix, c: int, d: int, n: int) returns (v: Result<real>)
    ensures v.Ok? <==> ProductDefined(a, b, c, d, n)
    ensures v.Err? ==> v.error == ArrayIndexOutOfBounds
    ensures v.Ok? ==> v.value == Dot(a, b, c, d, n)
  {
    var s := 0.0;
    var i := 0;
    while i < n
      invariant 0 <= i && i <= (if n < 0 then 0 else n)
      invariant ProductDefined(a, b, c, d, i)
      invariant s == Dot(a, b, c, d, i)
    {
      if !InBounds(a, c, i) || !InBounds(b, i, d) {
        return Err(ArrayIndexOutOfBounds);
      }
      s := s + a[c][i] * b[i][d];
      i := i + 1;
    }
    return Ok(s);
  }

  /** The right-hand side of one assignment of a computing loop. */
  method CellTerm(t: Term, z: Matrix, c: int, d: int, cols: int) returns (v: Result<real>)
    ensures v == TermAt(t, z, c, d, cols)
  {
    match t
    case Elementwise(op, x, y, factor) =>
      var u := Entry(x, z, c, d);
      if u.Err? {
        return Err(ArrayIndexOutOfBounds);
      }
      var w := Ok(0.0);
      if op != Scale {
        w := Entry(y, z, c, d);
        if w.Err? {
          return Err(ArrayIndexOutOfBounds);
        }
      }
      return Ok(Combine(op, u.value, w.value, factor));
    case Product(a, b) =>
      v := MultiplyCell(a, b, c, d, cols);
    case Transpose(a) =>
      if !InBounds(a, d, c) {
        return Err(ArrayIndexOutOfBounds);
      }
      return Ok(a[d][c]);
  }

  /** One row of a computing loop: `m[c][d] += term` for d below cols. The
      term is read from the field as it stands, with the earlier cells of
      the row already written. */
  method ComputeRow(t: Term, buf: Matrix, c: int, cols: int) returns (r: Outcome, row: seq<real>)
    requires 0 <= c < |buf| && cols <= |buf[c]|
    ensures |row| == |buf[c]|
    ensures r == Pass <==> forall d :: 0 <= d < cols ==> TermAt(t, buf, c, d, cols).Ok?
    ensures r.Fail? ==> r.error == ArrayIndexOutOfBounds
    ensures r == Pass ==> forall d :: 0 <= d < |row| ==>
      row[d] == if d < cols then buf[c][d] + Contribution(t, buf, c, d, cols) else buf[c][d]
  {
    row := buf[c];
    var d := 0;
    while d < cols
      invariant 0 <= d && d <= (if cols < 0 then 0 else cols) && |row| == |buf[c]|
      invariant forall e :: 0 <= e < d ==> TermAt(t, buf, c, e, cols).Ok?
      invariant forall e :: 0 <= e < |row| ==>
        row[e] == if e < d then buf[c][e] + Contribution(t, buf, c, e, cols) else buf[c][e]
    {
      var current := buf[c := row];
      TermAtSameCell(t, current, buf, c, d, cols);
      var v := CellTerm(t, current, c, d, cols);
      if v.Err? {
        return Fail(ArrayIndexOutOfBounds), row;
      }
      row := row[d := row[d] + v.value];
      d := d + 1;
    }
    return Pass, row;
  }

  /** Every term of the corner can be read with the field in state z. */
  predicate Defined(t: Term, z: Matrix, rows: int, cols: int)
  {
    forall c, d :: 0 <= c < rows && 0 <= d < cols ==> TermAt(t, z, c, d, cols).Ok?
  }

  ghost predicate ComputedUpTo(t: Term, buf: Matrix, buf0: Matrix, rows: int, cols: int)
  {
    SameShape(buf, buf0) &&
    forall x, y :: InBounds(buf, x, y) ==>
      buf[x][y] == if x < rows && y < cols then buf0[x][y] + Contribution(t, buf0, x, y, cols) else buf0[x][y]
  }

  /** The "solve" loops over the rows x cols corner of a field that has
      every cell of it. */
  method ComputePass(t: Term, buf0: Matrix, rows: int, cols: int) returns (r: Outcome, buf: Matrix)
    requires Covers(buf0, rows, cols)
    ensures SameShape(buf, buf0)
    ensures r == Pass <==> Defined(t, buf0, rows, cols)
    ensures r.Fail? ==> r.error == ArrayIndexOutOfBounds
    ensures r == Pass ==> ComputedUpTo(t, buf, buf0, rows, cols)
  {
    buf := buf0;
    var c := 0;
    while c < rows
      invariant 0 <= c && c <= (if rows < 0 then 0 else rows) && SameShape(buf, buf0)
      invariant Defined(t, buf0, c, cols)
      invariant ComputedUpTo(t, buf, buf0, c, cols)
    {
      if cols > 0 {
        assert InBounds(buf0, c, cols - 1);
        forall d | 0 <= d < cols
          ensures TermAt(t, buf, c, d, cols) == TermAt(t, buf0, c, d, cols)
        {
          TermAtSameCell(t, buf, buf0, c, d, cols);
        }
        var rowResult, row := ComputeRow(t, buf, c, cols);
        if rowResult.Fail? {
          var d :| 0 <= d < cols && !TermAt(t, buf, c, d, cols).Ok?;
          assert !TermAt(t, buf0, c, d, cols).Ok?;
          return rowResult, buf;
        }
        buf := buf[c := row];
      }
      c := c + 1;
    }
    return Pass, buf;
  }

  // ------------------------------------------ what the operations yield

  /** Argument x has cell (c, d): an aliased argument is the field, which
      has it. */
  predicate ReadsAt(x: Operand, c: int, d: int)
  {
    x.Aliased? || InBounds(x.m, c, d)
  }

  /** The value read from x at cell (c, d) once the field is zeroed. */
  function Read(x: Operand, c: int, d: int): real
    requires ReadsAt(x, c, d)
  {
    if x.Aliased? then 0.0 else x.m[c][d]
  }

  predicate CellReadable(t: Term, c: int, d: int, cols: int)
  {
    match t
    case Elementwise(op, x, y, _) => ReadsAt(x, c, d) && (op == Scale || ReadsAt(y, c, d))
    case Product(a, b) => ProductDefined(a, b, c, d, cols)
    case Transpose(a) => InBounds(a, d, c)
  }

  /** The value cell (c, d) of the result ends with. */
  function Value(t: Term, c: int, d: int, cols: int): real
    requires CellReadable(t, c, d, cols)
  {
    match t
    case Elementwise(op, x, y, factor) => Combine(op, Read(x, c, d), if op == Scale then 0.0 else Read(y, c, d), factor)
    case Product(a, b) => Dot(a, b, c, d, cols)
    case Transpose(a) => a[d][c]
  }

  predicate Readable(t: Term, rows: int, cols: int)
  {
    forall c, d :: 0 <= c < rows && 0 <= d < cols ==> CellReadable(t, c, d, cols)
  }

  /** On a zeroed field, the term of a cell is its final value. */
  lemma ZeroedTerms(t: Term, z: Matrix, rows: int, cols: int)
    requires forall c, d :: 0 <= c < rows && 0 <= d < cols ==> InBounds(z, c, d) && z[c][d] == 0.0
    ensures Defined(t, z, rows, cols) <==> Readable(t, rows, cols)
    ensures forall c, d :: 0 <= c < rows && 0 <= d < cols && CellReadable(t, c, d, cols) ==>
      Contribution(t, z, c, d, cols) == Value(t, c, d, cols)
  {
    forall c, d | 0 <= c < rows && 0 <= d < cols
      ensures TermAt(t, z, c, d, cols).Ok? <==> CellReadable(t, c, d, cols)
      ensures CellReadable(t, c, d, cols) ==> Contribution(t, z, c, d, cols) == Value(t, c, d, cols)
    {
      ZeroedCell(t, z, c, d, cols);
    }
  }

  lemma ZeroedCell(t: Term, z: Matrix, c: int, d: int, cols: int)
    requires InBounds(z, c, d) && z[c][d] == 0.0
    ensures TermAt(t, z, c, d, cols).Ok? <==> CellReadable(t, c, d, cols)
    ensures CellReadable(t, c, d, cols) ==> Contribution(t, z, c, d, cols) == Value(t, c, d, cols)
  {
  }

  /** The result an operation computes over its corner, with the field's
      old cells elsewhere. */
  ghost predicate Produces(t: Term, m: Matrix, field: Field, rows: int, cols: int)
    requires Allocate(field, rows, cols).Ok?
  {
    && Readable(t, rows, cols)
    && KeepsOutside(m, field, rows, cols)
    && Covers(m, rows, cols)
    && forall c, d :: 0 <= c < rows && 0 <= d < cols ==> InBounds(m, c, d) && m[c][d] == Value(t, c, d, cols)
  }

  /** Allocate the field if needed, zero the corner, then compute it. */
  method Run(t: Term, field: Field, rows: int, cols: int) returns (r: Result<Matrix>, after: Field)
    ensures field.Null? && (rows < 0 || cols < 0) ==> r == Err(NegativeArraySize) && after == Null
    ensures r.Ok? <==> Writable(field, rows, cols) && Readable(t, rows, cols)
    ensures r.Err? ==> (r.error == NegativeArraySize <==> field.Null? && (rows < 0 || cols < 0))
    ensures r.Err? ==> r.error in {NegativeArraySize, ArrayIndexOutOfBounds}
    ensures r.Ok? ==> after == Buffer(r.value) && Produces(t, r.value, field, rows, cols)
  {
    var fresh0 := Allocate(field, rows, cols);
    if fresh0.Err? {
      return Err(fresh0.error), field;
    }
    var base := fresh0.value;
    var zeroResult, zeroed := FillPass(base, rows, cols, false);
    if zeroResult.Fail? {
      return Err(ArrayIndexOutOfBounds), Buffer(zeroed);
    }
    forall a, b | 0 <= a < rows && 0 <= b < cols
      ensures InBounds(zeroed, a, b) && zeroed[a][b] == 0.0
    {
      assert InBounds(base, a, b);
    }
    ZeroedTerms(t, zeroed, rows, cols);
    var computeResult, buf := ComputePass(t, zeroed, rows, cols);
    if computeResult.Fail? {
      return Err(ArrayIndexOutOfBounds), Buffer(buf);
    }
    forall a, b | 0 <= a < rows && 0 <= b < cols
      ensures InBounds(buf, a, b)
    {
      assert InBounds(zeroed, a, b);
    }
    r, after := Ok(buf), Buffer(buf);
  }

  // ----------------------------------------- the elementwise operations

  /** Argument x has the whole corner. */
  predicate Reads(x: Operand, rows: int, cols: int)
  {
    x.Aliased? || Covers(x.m, rows, cols)
  }

  lemma ElementwiseReadable(op: Op, x: Operand, y: Operand, factor: real, rows: int, cols: int)
    ensures Readable(Elementwise(op, x, y, factor), rows, cols) <==> Reads(x, rows, cols) && (op == Scale || Reads(y, rows, cols))
  {
    var t := Elementwise(op, x, y, factor);
    if Readable(t, rows, cols) {
      forall c, d | 0 <= c < rows && 0 <= d < cols
        ensures x.Array? ==> InBounds(x.m, c, d)
        ensures op != Scale && y.Array? ==> InBounds(y.m, c, d)
      {
        assert CellReadable(t, c, d, cols);
      }
    }
    if Reads(x, rows, cols) && (op == Scale || Reads(y, rows, cols)) {
      forall c, d | 0 <= c < rows && 0 <= d < cols
        ensures CellReadable(t, c, d, cols)
      {
        assert x.Array? ==> InBounds(x.m, c, d);
        assert op != Scale && y.Array? ==> InBounds(y.m, c, d);
      }
    }
  }

  /** Argument x is the field's own array while that field is still null,
      so it is the Java `null`, and the call reads it at least once. */
  predicate ReadsNull(field: Field, rows: int, cols: int, x: Operand)
  {
    field.Null? && rows > 0 && cols > 0 && x.Aliased?
  }

  /** The exception of the first cell of `A[0][0] op B[0][0]` when one of
      the arguments is null: Java indexes A before B. */
  function FirstReadError(matrixA: Operand): Error
  {
    if ReadsAt(matrixA, 0, 0) then NullPointer else ArrayIndexOutOfBounds
  }

  /** `addSquareMatrix(rows, cols, A, B)`: the corner of the field becomes
      A + B, where an aliased argument counts as zero (the field is zeroed
      before it is read). */
  method AddSquareMatrix(add: Field, rows: int, cols: int, matrixA: Operand, matrixB: Operand)
      returns (r: Result<Matrix>, after: Field)
    ensures add.Null? && (rows < 0 || cols < 0) ==> r == Err(NegativeArraySize) && after == Null
    ensures r.Ok? <==> (Writable(add, rows, cols) && Reads(matrixA, rows, cols) && Reads(matrixB, rows, cols) &&
                        !ReadsNull(add, rows, cols, matrixA) && !ReadsNull(add, rows, cols, matrixB))
    ensures r.Err? ==> r.error in {NegativeArraySize, ArrayIndexOutOfBounds, NullPointer}
    ensures r.Err? ==> (r.error == NegativeArraySize <==> add.Null? && (rows < 0 || cols < 0))
    ensures r.Err? ==> (r.error == NullPointer <==>
      ReadsNull(add, rows, cols, matrixA) || (ReadsNull(add, rows, cols, matrixB) && ReadsAt(matrixA, 0, 0)))
    ensures ReadsNull(add, rows, cols, matrixA) || ReadsNull(add, rows, cols, matrixB) ==>
      after == Buffer(Zeros(rows, cols))
    ensures r.Ok? ==> after == Buffer(r.value) && KeepsOutside(r.value, add, rows, cols) && Covers(r.value, rows, cols)
    ensures r.Ok? ==> forall c, d :: 0 <= c < rows && 0 <= d < cols ==>
      InBounds(r.value, c, d) && r.value[c][d] == Read(matrixA, c, d) + Read(matrixB, c, d)
  {
    if ReadsNull(add, rows, cols, matrixA) || ReadsNull(add, rows, cols, matrixB) {
      return Err(FirstReadError(matrixA)), Buffer(Zeros(rows, cols));
    }
    ElementwiseReadable(Add, matrixA, matrixB, 0.0, rows, cols);
    r, after := Run(Elementwise(Add, matrixA, matrixB, 0.0), add, rows, cols);
  }

  /** `subtractSquareMatrix(rows, cols, A, B)`: the corner becomes A - B. */
  method SubtractSquareMatrix(subtract: Field, rows: int, cols: int, matrixA: Operand, matrixB: Operand)
      returns (r: Result<Matrix>, after: Field)
    ensures subtract.Null? && (rows < 0 || cols < 0) ==> r == Err(NegativeArraySize) && after == Null
    ensures r.Ok? <==> (Writable(subtract, rows, cols) && Reads(matrixA, rows, cols) && Reads(matrixB, rows, cols) &&
                        !ReadsNull(subtract, rows, cols, matrixA) && !ReadsNull(subtract, rows, cols, matrixB))
    ensures r.Err? ==> r.error in {NegativeArraySize, ArrayIndexOutOfBounds, NullPointer}
    ensures r.Err? ==> (r.error == NegativeArraySize <==> subtract.Null? && (rows < 0 || cols < 0))
    ensures r.Err? ==> (r.error == NullPointer <==>
      ReadsNull(subtract, rows, cols, matrixA) || (ReadsNull(subtract, rows, cols, matrixB) && ReadsAt(matrixA, 0, 0)))
    ensures ReadsNull(subtract, rows, cols, matrixA) || ReadsNull(subtract, rows, cols, matrixB) ==>
      after == Buffer(Zeros(rows, cols))
    ensures r.Ok? ==> after == Buffer(r.value) && KeepsOutside(r.value, subtract, rows, cols) && Covers(r.value, rows, cols)
    ensures r.Ok? ==> forall c, d :: 0 <= c < rows && 0 <= d < cols ==>
      InBounds(r.value, c, d) && r.value[c][d] == Read(matrixA, c, d) - Read(matrixB, c, d)
  {
    if ReadsNull(subtract, rows, cols, matrixA) || ReadsNull(subtract, rows, cols, matrixB) {
      return Err(FirstReadError(matrixA)), Buffer(Zeros(rows, cols));
    }
    ElementwiseReadable(Subtract, matrixA, matrixB, 0.0, rows, cols);
    r, after := Run(Elementwise(Subtract, matrixA, matrixB, 0.0), subtract, rows, cols);
  }

  /** `scaleSquareMatrix(rows, cols, A, scaleFactor)`: the corner becomes
      scaleFactor * A. */
  method ScaleSquareMatrix(scale: Field, rows: int, cols: int, matrixA: Operand, scaleFactor: real)
      returns (r: Result<Matrix>, after: Field)
    ensures scale.Null? && (rows < 0 || cols < 0) ==> r == Err(NegativeArraySize) && after == Null
    ensures r.Ok? <==> Writable(scale, rows, cols) && Reads(matrixA, rows, cols) && !ReadsNull(scale, rows, cols, matrixA)
    ensures r.Err? ==> r.error in {NegativeArraySize, ArrayIndexOutOfBounds, NullPointer}
    ensures r.Err? ==> (r.error == NegativeArraySize <==> scale.Null? && (rows < 0 || cols < 0))
    ensures r.Err? ==> (r.error == NullPointer <==> ReadsNull(scale, rows, cols, matrixA))
    ensures ReadsNull(scale, rows, cols, matrixA) ==> after == Buffer(Zeros(rows, cols))
    ensures r.Ok? ==> after == Buffer(r.value) && KeepsOutside(r.value, scale, rows, cols) && Covers(r.value, rows, cols)
    ensures r.Ok? ==> forall c, d :: 0 <= c < rows && 0 <= d < cols ==>
      InBounds(r.value, c, d) && r.value[c][d] == Read(matrixA, c, d) * scaleFactor
  {
    if ReadsNull(scale, rows, cols, matrixA) {
      return Err(NullPointer), Buffer(Zeros(rows, cols));
    }
    ElementwiseReadable(Scale, matrixA, Aliased, scaleFactor, rows, cols);
    r, after := Run(Elementwise(Scale, matrixA, Aliased, scaleFactor), scale, rows, cols);
  }

  /** Passing the `add` field back while it is still null: the call
      allocates a 1 x 1 field, zeroes it and throws at `matrixA[0][0]`. */
  method AddToNullField() returns (r: Result<Matrix>, after: Field)
    ensures r == Err(NullPointer) && after == Buffer([[0.0]])
  {
    r, after := AddSquareMatrix(Null, 1, 1, Aliased, Array([[2.0]]));
    var z := Zeros(1, 1);
    assert InBounds(z, 0, 0) && z[0][0] == 0.0;
    assert z[0] == [0.0];
    assert z == [[0.0]];
  }

  // --------------------------------------------- multiply and transpose

  lemma ProductReadable(a: Matrix, b: Matrix, rows: int, cols: int)
    ensures Readable(Product(a, b), rows, cols) <==>
      rows <= 0 || cols <= 0 || (Covers(a, rows, cols) && Covers(b, cols, cols))
  {
    var t := Product(a, b);
    if rows > 0 && cols > 0 && Readable(t, rows, cols) {
      forall c, i | 0 <= c < rows && 0 <= i < cols
        ensures InBounds(a, c, i)
      {
        assert CellReadable(t, c, 0, cols);
      }
      forall i, d | 0 <= i < cols && 0 <= d < cols
        ensures InBounds(b, i, d)
      {
        assert CellReadable(t, 0, d, cols);
      }
    }
  }

  /** `multiplySquareMatrix(rows, cols, A, B)`: the corner becomes the
      product of the rows x cols corner of A with the cols x cols corner of
      B. */
  method MultiplySquareMatrix(multiply: Field, rows: int, cols: int, matrixA: Matrix, matrixB: Matrix)
      returns (r: Result<Matrix>, after: Field)
    ensures multiply.Null? && (rows < 0 || cols < 0) ==> r == Err(NegativeArraySize) && after == Null
    ensures r.Ok? <==> (Writable(multiply, rows, cols) &&
      (rows <= 0 || cols <= 0 || (Covers(matrixA, rows, cols) && Covers(matrixB, cols, cols))))
    ensures r.Err? ==> r.error in {NegativeArraySize, ArrayIndexOutOfBounds}
    ensures r.Err? ==> (r.error == NegativeArraySize <==> multiply.Null? && (rows < 0 || cols < 0))
    ensures r.Ok? ==> after == Buffer(r.value) && KeepsOutside(r.value, multiply, rows, cols) && Covers(r.value, rows, cols)
    ensures r.Ok? ==> forall c, d :: 0 <= c < rows && 0 <= d < cols ==>
      ProductDefined(matrixA, matrixB, c, d, cols) && InBounds(r.value, c, d) && r.value[c][d] == Dot(matrixA, matrixB, c, d, cols)
  {
    ProductReadable(matrixA, matrixB, rows, cols);
    r, after := Run(Product(matrixA, matrixB), multiply, rows, cols);
  }

  lemma TransposeReadable(a: Matrix, rows: int, cols: int)
    ensures Readable(Transpose(a), rows, cols) <==> Covers(a, cols, rows)
  {
    var t := Transpose(a);
    if Readable(t, rows, cols) {
      forall d, c | 0 <= d < cols && 0 <= c < rows
        ensures InBounds(a, d, c)
      {
        assert CellReadable(t, c, d, cols);
      }
    }
  }

  /** `transposeMatrix(rows, cols, A)` (second copy only): the corner
      becomes the transpose of the cols x rows corner of A. */
  method TransposeMatrix(transpose: Field, rows: int, cols: int, matrixA: Matrix)
      returns (r: Result<Matrix>, after: Field)
    ensures transpose.Null? && (rows < 0 || cols < 0) ==> r == Err(NegativeArraySize) && after == Null
    ensures r.Ok? <==> Writable(transpose, rows, cols) && Covers(matrixA, cols, rows)
    ensures r.Err? ==> r.error in {NegativeArraySize, ArrayIndexOutOfBounds}
    ensures r.Err? ==> (r.error == NegativeArraySize <==> transpose.Null? && (rows < 0 || cols < 0))
    ensures r.Ok? ==> after == Buffer(r.value) && KeepsOutside(r.value, transpose, rows, cols) && Covers(r.value, rows, cols)
    ensures r.Ok? ==> forall c, d :: 0 <= c < rows && 0 <= d < cols ==> InBounds(r.value, c, d) && InBounds(matrixA, d, c) && r.value[c][d] == matrixA[d][c]
  {
    TransposeReadable(matrixA, rows, cols);
    r, after := Run(Transpose(matrixA), transpose, rows, cols);
  }

  /** Multiplying by the identity on the left changes nothing:
      the dot product of row c of I with column d of B is `B[c][d]`. */
  lemma IdentityTimesMatrix(b: Matrix, n: nat, c: int, d: int)
    requires 0 <= c < n && 0 <= d && forall i :: 0 <= i < n ==> InBounds(b, i, d)
    ensures ProductDefined(Identity(n), b, c, d, n)
    ensures InBounds(b, c, d) && Dot(Identity(n), b, c, d, n) == b[c][d]
  {
    IdentityRowPrefix(b, n, c, d, n);
  }

  lemma {:induction false} IdentityRowPrefix(b: Matrix, n: nat, c: int, d: int, k: nat)
    requires 0 <= c < n && k <= n && 0 <= d && forall i :: 0 <= i < k ==> InBounds(b, i, d)
    ensures ProductDefined(Identity(n), b, c, d, k)
    ensures c < k ==> InBounds(b, c, d) && Dot(Identity(n), b, c, d, k) == b[c][d]
    ensures c >= k ==> Dot(Identity(n), b, c, d, k) == 0.0
  {
    if k > 0 {
      IdentityRowPrefix(b, n, c, d, k - 1);
    }
  }

  /** Multiplying by the identity on the right changes nothing. */
  lemma MatrixTimesIdentity(a: Matrix, n: nat, c: int, d: int)
    requires 0 <= d < n && 0 <= c && forall i :: 0 <= i < n ==> InBounds(a, c, i)
    ensures ProductDefined(a, Identity(n), c, d, n)
    ensures InBounds(a, c, d) && Dot(a, Identity(n), c, d, n) == a[c][d]
  {
    IdentityColumnPrefix(a, n, c, d, n);
  }

  lemma {:induction false} IdentityColumnPrefix(a: Matrix, n: nat, c: int, d: int, k: nat)
    requires 0 <= d < n && k <= n && 0 <= c && forall i :: 0 <= i < k ==> InBounds(a, c, i)
    ensures ProductDefined(a, Identity(n), c, d, k)
    ensures d < k ==> InBounds(a, c, d) && Dot(a, Identity(n), c, d, k) == a[c][d]
    ensures d >= k ==> Dot(a, Identity(n), c, d, k) == 0.0
  {
    if k > 0 {
      IdentityColumnPrefix(a, n, c, d, k - 1);
    }
  }

  // ------------------------------------------------------ column multiply

  /** The static `float[]` field of `columnMultiplyMatrix`. */
  datatype VectorField = NoVector | Vector(entries: seq<real>)

  /** `if (field == null) field = new float[length];` */
  function AllocateVector(field: VectorField, length: int): (r: Result<seq<real>>)
    ensures field.Vector? ==> r == Ok(field.entries)
    ensures field.NoVector? ==> (r.Ok? <==> length >= 0)
    ensures r.Err? ==> r.error == NegativeArraySize
    ensures field.NoVector? && r.Ok? ==> |r.value| == length && forall a :: 0 <= a < length ==> r.value[a] == 0.0
  {
    if field.Vector? then Ok(field.entries)
    else if length < 0 then Err(NegativeArraySize)
    else Ok(seq(length, _ => 0.0))
  }

  /** Every `A[d]` and `B[c][d]` with d below n exists. */
  predicate RowDefined(v: seq<real>, m: Matrix, c: int, n: int)
  {
    n <= |v| && forall d :: 0 <= d < n ==> InBounds(m, c, d)
  }

  /** The sum of `A[d] * B[c][d]` over d below n. */
  function RowDot(v: seq<real>, m: Matrix, c: int, n: int): real
    requires RowDefined(v, m, c, n)
    decreases n
  {
    if n <= 0 then 0.0
    else
      assert InBounds(m, c, n - 1);
      RowDot(v, m, c, n - 1) + v[n - 1] * m[c][n - 1]
  }

  /** The "set answer matrix to zero" loops of `columnMultiplyMatrix`: the
      inner loop writes entry a of the field, once per column. */
  method VectorZeroPass(base: seq<real>, rows: int, cols: int) returns (r: Outcome, buf: seq<real>)
    ensures |buf| == |base|
    ensures r == Pass <==> rows <= 0 || cols <= 0 || rows <= |base|
    ensures r.Fail? ==> r.error == ArrayIndexOutOfBounds
    ensures r == Pass ==> forall a :: 0 <= a < |buf| ==> buf[a] == if a < rows && cols > 0 then 0.0 else base[a]
  {
    buf := base;
    var a := 0;
    while a < rows
      invariant 0 <= a && a <= (if rows < 0 then 0 else rows) && |buf| == |base|
      invariant cols > 0 ==> a <= |buf|
      invariant forall e :: 0 <= e < |buf| ==> buf[e] == if e < a && cols > 0 then 0.0 else base[e]
    {
      if cols > 0 {
        if a >= |buf| {
          return Fail(ArrayIndexOutOfBounds), buf;
        }
        buf := buf[a := 0.0];
      }
      a := a + 1;
    }
    return Pass, buf;
  }

  /** The inner loop of the "solve" loops: accumulates `A[d] * B[c][d]`
      for d below n. */
  method RowDotCell(v: seq<real>, m: Matrix, c: int, n: int) returns (s: Result<real>)
    ensures s.Ok? <==> RowDefined(v, m, c, n)
    ensures s.Err? ==> s.error == ArrayIndexOutOfBounds
    ensures s.Ok? ==> s.value == RowDot(v, m, c, n)
  {
    var sum := 0.0;
    var d := 0;
    while d < n
      invariant 0 <= d && d <= (if n < 0 then 0 else n)
      invariant RowDefined(v, m, c, d)
      invariant sum == RowDot(v, m, c, d)
    {
      if d >= |v| || !InBounds(m, c, d) {
        return Err(ArrayIndexOutOfBounds);
      }
      sum := sum + v[d] * m[c][d];
      d := d + 1;
    }
    return Ok(sum);
  }

  /** A and B have every entry the loops read. */
  predicate VectorReadable(v: seq<real>, m: Matrix, rows: int, cols: int)
  {
    rows <= 0 || cols <= 0 || (cols <= |v| && Covers(m, rows, cols))
  }

  /** The "solve" loops of `columnMultiplyMatrix`, on a field that has the
      first rows entries. */
  method VectorComputePass(buf0: seq<real>, rows: int, cols: int, v: seq<real>, m: Matrix)
      returns (r: Outcome, buf: seq<real>)
    requires cols <= 0 || rows <= |buf0|
    ensures |buf| == |buf0|
    ensures r == Pass <==> VectorReadable(v, m, rows, cols)
    ensures r.Fail? ==> r.error == ArrayIndexOutOfBounds
    ensures r == Pass ==> forall a :: 0 <= a < |buf| ==>
      buf[a] == if a < rows && cols > 0 then buf0[a] + RowDot(v, m, a, cols) else buf0[a]
  {
    buf := buf0;
    var c := 0;
    while c < rows
      invariant 0 <= c && c <= (if rows < 0 then 0 else rows) && |buf| == |buf0|
      invariant cols > 0 ==> forall e :: 0 <= e < c ==> RowDefined(v, m, e, cols)
      invariant forall e :: 0 <= e < |buf| ==>
        buf[e] == if e < c && cols > 0 && RowDefined(v, m, e, cols) then buf0[e] + RowDot(v, m, e, cols) else buf0[e]
    {
      if cols > 0 {
        var s := RowDotCell(v, m, c, cols);
        if s.Err? {
          if cols <= |v| {
            var d :| 0 <= d < cols && !InBounds(m, c, d);
            assert !InBounds(m, c, d);
          }
          return Fail(ArrayIndexOutOfBounds), buf;
        }
        buf := buf[c := buf[c] + s.value];
      }
      c := c + 1;
    }
    if rows > 0 && cols > 0 {
      assert RowDefined(v, m, 0, cols);
      forall a, b | 0 <= a < rows && 0 <= b < cols
        ensures InBounds(m, a, b)
      {
        assert RowDefined(v, m, a, cols);
      }
    }
    return Pass, buf;
  }

  /** Allocate the field with the given length if needed, zero the first
      rows entries, then compute them. */
  method ColumnProduct(field: VectorField, length: int, rows: int, cols: int, v: seq<real>, m: Matrix)
      returns (r: Result<seq<real>>, after: VectorField)
    ensures field.NoVector? && length < 0 ==> r == Err(NegativeArraySize) && after == NoVector
    ensures r.Err? ==> (r.error == NegativeArraySize <==> field.NoVector? && length < 0)
    ensures r.Ok? <==> (AllocateVector(field, length).Ok? &&
      (rows <= 0 || cols <= 0 || rows <= |AllocateVector(field, length).value|) && VectorReadable(v, m, rows, cols))
    ensures r.Err? ==> r.error in {NegativeArraySize, ArrayIndexOutOfBounds}
    ensures r.Ok? ==> after == Vector(r.value) && |r.value| == |AllocateVector(field, length).value|
    ensures r.Ok? ==> forall c :: 0 <= c < |r.value| ==>
      r.value[c] == if c < rows && cols > 0 then RowDot(v, m, c, cols) else AllocateVector(field, length).value[c]
  {
    var fresh0 := AllocateVector(field, length);
    if fresh0.Err? {
      return Err(fresh0.error), field;
    }
    var zeroResult, zeroed := VectorZeroPass(fresh0.value, rows, cols);
    if zeroResult.Fail? {
      return Err(ArrayIndexOutOfBounds), Vector(zeroed);
    }
    var computeResult, buf := VectorComputePass(zeroed, rows, cols, v, m);
    if computeResult.Fail? {
      return Err(ArrayIndexOutOfBounds), Vector(buf);
    }
    r, after := Ok(buf), Vector(buf);
  }

  /** `columnMultiplyMatrix(rows, cols, A, B)` as written: entry c of the
      field becomes the product of row c of B with the vector A. The field
      is first allocated with cols entries although rows entries are
      written, so a first call with more rows than columns fails. */
  method ColumnMultiplyMatrix(columnmultiply: VectorField, rows: int, cols: int, matrixA: seq<real>, matrixB: Matrix)
      returns (r: Result<seq<real>>, after: VectorField)
    ensures columnmultiply.NoVector? && cols < 0 ==> r == Err(NegativeArraySize) && after == NoVector
    ensures columnmultiply.NoVector? && 0 < cols < rows ==> r == Err(ArrayIndexOutOfBounds)
    ensures r.Ok? <==> (AllocateVector(columnmultiply, cols).Ok? &&
      (rows <= 0 || cols <= 0 || rows <= |AllocateVector(columnmultiply, cols).value|) && VectorReadable(matrixA, matrixB, rows, cols))
    ensures r.Err? ==> r.error in {NegativeArraySize, ArrayIndexOutOfBounds}
    ensures r.Err? ==> (r.error == NegativeArraySize <==> columnmultiply.NoVector? && cols < 0)
    ensures r.Ok? ==> after == Vector(r.value) && |r.value| == |AllocateVector(columnmultiply, cols).value|
    ensures columnmultiply.NoVector? && r.Ok? ==> |r.value| == cols
    ensures r.Ok? && cols > 0 ==> forall c :: 0 <= c < rows ==>
      c < |r.value| && RowDefined(matrixA, matrixB, c, cols) && r.value[c] == RowDot(matrixA, matrixB, c, cols)
    ensures r.Ok? ==> forall c :: 0 <= c < |r.value| && !(c < rows && cols > 0) ==>
      r.value[c] == AllocateVector(columnmultiply, cols).value[c]
  {
    r, after := ColumnProduct(columnmultiply, cols, rows, cols, matrixA, matrixB);
    ReadableRows(matrixA, matrixB, rows, cols);
  }

  /** `columnMultiplyMatrix` with the field allocated with one entry per
      row, as its loops index it: a first call yields exactly the product
      of the rows x cols corner of B with A. */
  method ColumnMultiplyByRows(columnmultiply: VectorField, rows: int, cols: int, matrixA: seq<real>, matrixB: Matrix)
      returns (r: Result<seq<real>>, after: VectorField)
    ensures columnmultiply.NoVector? ==> (r.Ok? <==> rows >= 0 && VectorReadable(matrixA, matrixB, rows, cols))
    ensures columnmultiply.NoVector? && r.Ok? ==> |r.value| == rows
    ensures r.Err? ==> r.error in {NegativeArraySize, ArrayIndexOutOfBounds}
    ensures r.Err? ==> (r.error == NegativeArraySize <==> columnmultiply.NoVector? && rows < 0)
    ensures r.Ok? ==> |r.value| == |AllocateVector(columnmultiply, rows).value|
    ensures r.Ok? ==> forall c :: 0 <= c < |r.value| && !(c < rows && cols > 0) ==>
      r.value[c] == AllocateVector(columnmultiply, rows).value[c]
    ensures r.Ok? ==> after == Vector(r.value) && forall c :: 0 <= c < rows && cols > 0 ==>
      c < |r.value| && RowDefined(matrixA, matrixB, c, cols) && r.value[c] == RowDot(matrixA, matrixB, c, cols)
  {
    r, after := ColumnProduct(columnmultiply, rows, rows, cols, matrixA, matrixB);
    ReadableRows(matrixA, matrixB, rows, cols);
  }

  lemma ReadableRows(v: seq<real>, m: Matrix, rows: int, cols: int)
    ensures VectorReadable(v, m, rows, cols) <==> rows <= 0 || cols <= 0 || forall c :: 0 <= c < rows ==> RowDefined(v, m, c, cols)
  {
    if rows > 0 && cols > 0 && (forall c :: 0 <= c < rows ==> RowDefined(v, m, c, cols)) {
      assert RowDefined(v, m, 0, cols);
      forall a, b | 0 <= a < rows && 0 <= b < cols
        ensures InBounds(m, a, b)
      {
        assert RowDefined(v, m, a, cols);
      }
    }
  }

  /** The vector as a one-column matrix. */
  function Column(v: seq<real>): (r: Matrix)
    ensures |r| == |v| && forall i :: 0 <= i < |v| ==> r[i] == [v[i]]
  {
    seq(|v|, i requires 0 <= i < |v| => [v[i]])
  }

  /** Multiplying B by the vector A is multiplying it by A as a column. */
  lemma {:induction false} ColumnIsProduct(v: seq<real>, m: Matrix, c: int, n: int)
    requires RowDefined(v, m, c, n)
    ensures ProductDefined(m, Column(v), c, 0, n)
    ensures RowDot(v, m, c, n) == Dot(m, Column(v), c, 0, n)
  {
    if n > 0 {
      ColumnIsProduct(v, m, c, n - 1);
    }
  }

  // ------------------------------------------------------- determinant

  /** `new int[size][2]`. */
  function IntPairs(size: nat): (r: seq<seq<int>>)
    ensures |r| == size && forall a :: 0 <= a < size ==> |r[a]| == 2
  {
    seq(size, _ => [0, 0])
  }

  /** `columnMultiplyMatrix(matrixSize, A)`, the unfinished determinant:
      the field `det` is set to 0, two local index tables are allocated and
      filled, and the summing loop has an empty body, so the result is 0
      for every matrix. The only failure is a negative size. */
  method ColumnMultiplyDeterminant(matrixSize: int, matrixA: Matrix) returns (r: Result<real>, det: real)
    ensures det == 0.0
    ensures r.Ok? <==> matrixSize >= 0
    ensures r.Err? ==> r.error == NegativeArraySize
    ensures r.Ok? ==> r.value == det
  {
    det := 0.0;
    var matrixSearch := matrixSize - 2;
    if matrixSize < 0 {
      return Err(NegativeArraySize), det;
    }
    var removalMatrix := IntPairs(matrixSize);
    var sumMatrix := IntPairs(matrixSize);
    var i := -1;
    while i < matrixSearch
      invariant -1 <= i && (matrixSearch >= -1 ==> i <= matrixSearch)
      invariant |removalMatrix| == |sumMatrix| == matrixSize
      invariant forall a :: 0 <= a < matrixSize ==> |removalMatrix[a]| == |sumMatrix[a]| == 2
      decreases matrixSearch - i
    {
      i := i + 1;
      ghost var round := i;
      var a := 0;
      while a < matrixSearch
        invariant i == round && 0 <= i <= matrixSearch && 0 <= a
        invariant |removalMatrix| == |sumMatrix| == matrixSize
        invariant forall e :: 0 <= e < matrixSize ==> |removalMatrix[e]| == |sumMatrix[e]| == 2
      {
        var b := i;
        while b < matrixSearch
          invariant i == round && 0 <= i <= matrixSearch && 0 <= a < matrixSearch
          invariant |removalMatrix| == |sumMatrix| == matrixSize
          invariant forall e :: 0 <= e < matrixSize ==> |removalMatrix[e]| == |sumMatrix[e]| == 2
        {
          if a == b {
            sumMatrix := sumMatrix[a := [a, b]];
          }
          if a != b {
            removalMatrix := removalMatrix[a := [a, b]];
          }
          if i == matrixSize {
            i := -1;
          }
          b := b + 1;
        }
        a := a + 1;
      }
    }
    return Ok(det), det;
  }

  // ---------------------------------------------- chaining the results

  /** `addSquareMatrix(rows, cols, addSquareMatrix(rows, cols, A, B), C)`:
      the inner call returns the field itself, which the outer call zeroes
      before reading it, so the result is C and the sum A + B is lost. */
  method ChainedAdd(add: Field, rows: int, cols: int, matrixA: Matrix, matrixB: Matrix, matrixC: Matrix)
      returns (r: Result<Matrix>, after: Field)
    ensures (add.Null? && rows >= 0 && cols >= 0 && Covers(matrixA, rows, cols) && Covers(matrixB, rows, cols) &&
      Covers(matrixC, rows, cols)) ==> r.Ok?
    ensures r.Ok? ==> Covers(r.value, rows, cols) && Covers(matrixC, rows, cols)
    ensures r.Ok? ==> forall c, d :: 0 <= c < rows && 0 <= d < cols ==> InBounds(r.value, c, d) && InBounds(matrixC, c, d) && r.value[c][d] == matrixC[c][d]
  {
    var first, between := AddSquareMatrix(add, rows, cols, Array(matrixA), Array(matrixB));
    if first.Err? {
      return first, between;
    }
    r, after := AddSquareMatrix(between, rows, cols, Aliased, Array(matrixC));
  }

  /** The chained sum with a fresh result array per call: the corner is
      A + B + C. */
  method ChainedSum(rows: int, cols: int, matrixA: Matrix, matrixB: Matrix, matrixC: Matrix) returns (r: Result<Matrix>)
    ensures r.Ok? <==> (rows >= 0 && cols >= 0 && Covers(matrixA, rows, cols) && Covers(matrixB, rows, cols) &&
      Covers(matrixC, rows, cols))
    ensures r.Ok? ==> |r.value| == rows && Covers(r.value, rows, cols)
    ensures r.Ok? ==> forall c, d :: 0 <= c < rows && 0 <= d < cols ==>
      InBounds(r.value, c, d) && InBounds(matrixA, c, d) && InBounds(matrixB, c, d) && InBounds(matrixC, c, d) &&
      r.value[c][d] == matrixA[c][d] + matrixB[c][d] + matrixC[c][d]
  {
    var first, firstField := AddSquareMatrix(Null, rows, cols, Array(matrixA), Array(matrixB));
    if first.Err? {
      return first;
    }
    var secondField;
    r, secondField := AddSquareMatrix(Null, rows, cols, Array(first.value), Array(matrixC));
  }
}

=== FILE: polynomial.dfy ===
/** papaya's `Polynomial.polyval` (Polynomial.java): Horner evaluation of a
    polynomial whose coefficients are given in descending powers.

    Values are real numbers, so one model covers the `double` and the
    `float` overloads; rounding is not modelled. */
module Polynomial {
  import opened Errors

  /** x raised to the n-th power. */
  function Power(x: real, n: nat): real
  {
    if n == 0 then 1.0 else x * Power(x, n - 1)
  }

  /** The documented value: coeff[0]*x^(n-1) + coeff[1]*x^(n-2) + ... + coeff[n-1],
      where n is the number of coefficients. */
  function PowerSum(coeff: seq<real>, x: real): real
  {
    if |coeff| == 0 then 0.0
    else coeff[0] * Power(x, |coeff| - 1) + PowerSum(coeff[1..], x)
  }

  /** What the loop of `polyval` has accumulated after reading `coeff`. */
  function Horner(coeff: seq<real>, x: real): real
  {
    if |coeff| == 0 then 0.0
    else Horner(coeff[..|coeff| - 1], x) * x + coeff[|coeff| - 1]
  }

  /** Appending a coefficient multiplies every existing term by x. */
  lemma {:induction false} PowerSumSnoc(s: seq<real>, c: real, x: real)
    ensures PowerSum(s + [c], x) == PowerSum(s, x) * x + c
    decreases |s|
  {
    if |s| == 0 {
      assert (s + [c])[1..] == [];
    } else {
      var t := s + [c];
      assert t[1..] == s[1..] + [c];
      calc {
        PowerSum(t, x);
        t[0] * Power(x, |t| - 1) + PowerSum(t[1..], x);
        s[0] * Power(x, |s|) + PowerSum(s[1..] + [c], x);
        { PowerSumSnoc(s[1..], c, x); }
        s[0] * Power(x, |s|) + (PowerSum(s[1..], x) * x + c);
        { assert Power(x, |s|) == x * Power(x, |s| - 1); }
        s[0] * (x * Power(x, |s| - 1)) + (PowerSum(s[1..], x) * x + c);
        { Regroup(s[0], Power(x, |s| - 1), PowerSum(s[1..], x), x, c); }
        (s[0] * Power(x, |s| - 1) + PowerSum(s[1..], x)) * x + c;
        PowerSum(s, x) * x + c;
      }
    }
  }

  lemma Regroup(a: real, p: real, q: real, x: real, c: real)
    ensures a * (x * p) + (q * x + c) == (a * p + q) * x + c
  {
  }

  /** Horner's scheme computes the documented power sum. */
  lemma {:induction false} HornerIsPowerSum(coeff: seq<real>, x: real)
    ensures Horner(coeff, x) == PowerSum(coeff, x)
    decreases |coeff|
  {
    if |coeff| > 0 {
      var init := coeff[..|coeff| - 1];
      HornerIsPowerSum(init, x);
      assert coeff == init + [coeff[|coeff| - 1]];
      PowerSumSnoc(init, coeff[|coeff| - 1], x);
    }
  }

  /** `polyval(double x, double[] coeff)`: reading `coeff[0]` throws on an
      empty coefficient array. */
  method PolyVal(x: real, coeff: seq<real>) returns (r: Result<real>)
    ensures |coeff| == 0 ==> r == Err(ArrayIndexOutOfBounds)
    ensures |coeff| > 0 ==> r == Ok(PowerSum(coeff, x))
  {
    if |coeff| == 0 {
      return Err(ArrayIndexOutOfBounds);
    }
    var ans := coeff[0];
    assert coeff[..1][..0] == [];
    var i := 1;
    while i < |coeff|
      invariant 1 <= i <= |coeff|
      invariant ans == Horner(coeff[..i], x)
    {
      assert coeff[..i + 1][..i] == coeff[..i];
      ans := ans * x + coeff[i];
      i := i + 1;
    }
    assert coeff[..i] == coeff;
    HornerIsPowerSum(coeff, x);
    r := Ok(ans);
  }

  /** `polyval(double[] x, double[] coeff)`: one evaluation per point; an
      empty coefficient array throws only if there is a point to evaluate. */
  method PolyValArray(xs: seq<real>, coeff: seq<real>) returns (r: Result<seq<real>>)
    ensures |xs| > 0 && |coeff| == 0 ==> r == Err(ArrayIndexOutOfBounds)
    ensures |xs| == 0 || |coeff| > 0 ==> r.Ok?
    ensures r.Ok? ==> |r.value| == |xs| && forall k :: 0 <= k < |xs| ==> r.value[k] == PowerSum(coeff, xs[k])
  {
    var y := new real[|xs|];
    for i := 0 to |xs|
      invariant forall k :: 0 <= k < i ==> y[k] == PowerSum(coeff, xs[k])
      invariant i > 0 ==> |coeff| > 0
    {
      var v := PolyVal(xs[i], coeff);
      if v.Err? {
        return Err(v.error);
      }
      y[i] := v.value;
    }
    r := Ok(y[..]);
  }

  /** The constant coefficient is the value at zero. */
  lemma {:induction false} PowerSumAtZero(coeff: seq<real>)
    requires |coeff| > 0
    ensures PowerSum(coeff, 0.0) == coeff[|coeff| - 1]
    decreases |coeff|
  {
    if |coeff| > 1 {
      PowerSumAtZero(coeff[1..]);
      assert Power(0.0, |coeff| - 1) == 0.0;
    }
  }
}

=== FILE: rank.dfy ===
/** papaya's `Rank` class (Rank.java), `rank(int[] data, int tiesStrategy)`:
    the rank transform with its four strategies for tied values, built from
    `checkTiesStrategy`, `Arrays.sort` on value/position pairs, `rankIt`,
    `resolveTie` and `fill`.

    Ranks are `float` values in the source; they are whole or half-whole
    numbers and are modelled as reals. */
module Rank {
  import opened Errors
  import opened Seqs

  const Average := 0
  const Minimum := 1
  const Maximum := 2
  const Sequential := 3

  /** `checkTiesStrategy(num)`. */
  function CheckTiesStrategy(num: int): (r: Outcome)
    ensures r == Pass <==> Average <= num <= Sequential
    ensures r.Fail? ==> r.error == IllegalArgument
  {
    if num < 0 || num > 3 then Fail(IllegalArgument) else Pass
  }

  // ------------------------------------------------------ the reference

  /** The rank the documentation promises for position p. Tied values
      share ranks lowest..highest, where lowest is one more than the number
      of smaller values and highest is the number of values not larger. */
  function RankSpec(data: seq<int>, tiesStrategy: int, p: int): real
    requires 0 <= p < |data|
  {
    var lowest := Count(data, LessThan(data[p])) + 1;
    var highest := Count(data, AtMost(data[p]));
    if tiesStrategy == Average then (lowest + highest) as real / 2.0
    else if tiesStrategy == Maximum then highest as real
    else if tiesStrategy == Sequential then (lowest + Count(data[..p], EqualTo(data[p]))) as real
    else lowest as real
  }

  /** The worked example of the documentation, (1,3,4,3), under each
      strategy. */
  lemma DocumentedExample()
    ensures RankSpec([1, 3, 4, 3], Average, 0) == 1.0 && RankSpec([1, 3, 4, 3], Average, 1) == 2.5
    ensures RankSpec([1, 3, 4, 3], Average, 2) == 4.0 && RankSpec([1, 3, 4, 3], Average, 3) == 2.5
    ensures RankSpec([1, 3, 4, 3], Minimum, 1) == 2.0 && RankSpec([1, 3, 4, 3], Minimum, 3) == 2.0
    ensures RankSpec([1, 3, 4, 3], Maximum, 1) == 3.0 && RankSpec([1, 3, 4, 3], Maximum, 3) == 3.0
    ensures RankSpec([1, 3, 4, 3], Sequential, 1) == 2.0 && RankSpec([1, 3, 4, 3], Sequential, 3) == 3.0
  {
    var s := [1, 3, 4, 3];
    assert s[..3] == [1, 3, 4] && s[..2] == [1, 3] && s[..1] == [1] && s[..0] == [];
    assert [1, 3, 4][..2] == [1, 3] && [1, 3][..1] == [1] && [1][..0] == [];
  }

  /** Without ties every strategy gives 1 + the number of smaller values,
      and different positions get different ranks in 1..n: the ranks are a
      permutation of 1..n. */
  lemma NoTies(data: seq<int>, tiesStrategy: int)
    requires forall i, j :: 0 <= i < j < |data| ==> data[i] != data[j]
    ensures forall p :: 0 <= p < |data| ==>
      RankSpec(data, tiesStrategy, p) == (Count(data, LessThan(data[p])) + 1) as real
    ensures forall p :: 0 <= p < |data| ==> 1 <= Count(data, LessThan(data[p])) + 1 <= |data|
    ensures forall p, q :: 0 <= p < q < |data| ==> RankSpec(data, tiesStrategy, p) != RankSpec(data, tiesStrategy, q)
  {
    forall p | 0 <= p < |data|
      ensures Count(data, AtMost(data[p])) == Count(data, LessThan(data[p])) + 1
      ensures Count(data[..p], EqualTo(data[p])) == 0
      ensures Count(data, LessThan(data[p])) + 1 <= |data|
    {
      OnlyOneEqual(data, p);
      CountDisjoint(data, LessThan(data[p]), EqualTo(data[p]), AtMost(data[p]));
      CountNone(data[..p], EqualTo(data[p]));
      CountBounded(data, AtMost(data[p]));
    }
    forall p, q | 0 <= p < q < |data|
      ensures Count(data, LessThan(data[p])) != Count(data, LessThan(data[q]))
    {
      if data[p] < data[q] {
        CountMonotone(data, AtMost(data[p]), LessThan(data[q]));
      } else {
        CountMonotone(data, AtMost(data[q]), LessThan(data[p]));
      }
    }
  }

  /** In data without repeats each value occurs once. */
  lemma {:induction false} OnlyOneEqual(data: seq<int>, p: int)
    requires 0 <= p < |data|
    requires forall i, j :: 0 <= i < j < |data| ==> data[i] != data[j]
    ensures Count(data, EqualTo(data[p])) == 1
    decreases |data|
  {
    var n := |data| - 1;
    if p == n {
      CountNone(data[..n], EqualTo(data[p]));
    } else {
      OnlyOneEqual(data[..n], p);
    }
  }

  // -------------------------------------------------- sorting the pairs

  /** `IntFloatPair`: a value and its position in the input. */
  datatype IntFloatPair = IntFloatPair(value: int, position: int)

  /** The order `Arrays.sort` leaves the pairs in. It compares values only,
      but it is a stable sort and the pairs start in position order, so tied
      values stay in position order. */
  predicate Before(x: IntFloatPair, y: IntFloatPair)
  {
    x.value < y.value || (x.value == y.value && x.position < y.position)
  }

  predicate StrictlyOrdered(s: seq<IntFloatPair>)
  {
    forall i, j :: 0 <= i < j < |s| ==> Before(s[i], s[j])
  }

  function InsertPair(x: IntFloatPair, s: seq<IntFloatPair>): seq<IntFloatPair>
  {
    if |s| == 0 then [x]
    else if Before(x, s[0]) then [x] + s
    else [s[0]] + InsertPair(x, s[1..])
  }

  /** `Arrays.sort(ranks)`. */
  function SortPairs(s: seq<IntFloatPair>): seq<IntFloatPair>
  {
    if |s| == 0 then [] else InsertPair(s[0], SortPairs(s[1..]))
  }

  lemma {:induction false} InsertPairSpec(x: IntFloatPair, s: seq<IntFloatPair>)
    requires StrictlyOrdered(s) && x !in s
    ensures StrictlyOrdered(InsertPair(x, s))
    ensures multiset(InsertPair(x, s)) == multiset(s) + multiset{x}
    decreases |s|
  {
    if |s| == 0 {
    } else if Before(x, s[0]) {
      assert forall k :: 0 <= k < |s| ==> Before(x, s[k]);
      ConsOrdered(x, s);
    } else {
      var t := s[1..];
      assert s == [s[0]] + t;
      TailOrdered(s);
      InsertPairSpec(x, t);
      var w := InsertPair(x, t);
      assert Before(s[0], x) by {
        assert x != s[0];
      }
      forall k | 0 <= k < |w|
        ensures Before(s[0], w[k])
      {
        assert w[k] in multiset(w);
      }
      ConsOrdered(s[0], w);
      assert InsertPair(x, s) == [s[0]] + w;
    }
  }

  /** A pair before every pair of a strictly ordered sequence can be put
      in front of it. */
  lemma ConsOrdered(x: IntFloatPair, s: seq<IntFloatPair>)
    requires StrictlyOrdered(s) && forall k :: 0 <= k < |s| ==> Before(x, s[k])
    ensures StrictlyOrdered([x] + s)
  {
    var u := [x] + s;
    forall i, j | 0 <= i < j < |u|
      ensures Before(u[i], u[j])
    {
      assert u[j] == s[j - 1];
      if i > 0 {
        assert u[i] == s[i - 1];
      }
    }
  }

  /** The tail of a strictly ordered sequence is strictly ordered and comes
      after its head. */
  lemma TailOrdered(s: seq<IntFloatPair>)
    requires StrictlyOrdered(s) && |s| > 0
    ensures StrictlyOrdered(s[1..])
    ensures forall k :: 0 <= k < |s| - 1 ==> Before(s[0], s[1..][k])
  {
    var t := s[1..];
    forall i, j | 0 <= i < j < |t|
      ensures Before(t[i], t[j])
    {
      assert t[i] == s[i + 1] && t[j] == s[j + 1];
    }
  }

  lemma {:induction false} SortPairsSpec(s: seq<IntFloatPair>)
    requires forall i, j :: 0 <= i < j < |s| ==> s[i] != s[j]
    ensures StrictlyOrdered(SortPairs(s))
    ensures multiset(SortPairs(s)) == multiset(s)
    decreases |s|
  {
    if |s| > 0 {
      SortPairsSpec(s[1..]);
      assert s == [s[0]] + s[1..];
      assert s[0] !in multiset(s[1..]);
      InsertPairSpec(s[0], SortPairs(s[1..]));
    }
  }

  /** The pairs `rank` builds: each value with its position. */
  function Labelled(data: seq<int>): (r: seq<IntFloatPair>)
    ensures |r| == |data| && forall i :: 0 <= i < |data| ==> r[i] == IntFloatPair(data[i], i)
  {
    seq(|data|, i requires 0 <= i < |data| => IntFloatPair(data[i], i))
  }

  function Value(x: IntFloatPair): int { x.value }

  /** The values of the pairs, in order. */
  function Values(ranks: seq<IntFloatPair>): (r: seq<int>)
    ensures |r| == |ranks| && forall k :: 0 <= k < |ranks| ==> r[k] == ranks[k].value
  {
    seq(|ranks|, k requires 0 <= k < |ranks| => ranks[k].value)
  }

  /** The positions of the pairs, in order. */
  function Positions(ranks: seq<IntFloatPair>): (r: seq<int>)
    ensures |r| == |ranks| && forall k :: 0 <= k < |ranks| ==> r[k] == ranks[k].position
  {
    seq(|ranks|, k requires 0 <= k < |ranks| => ranks[k].position)
  }

  // ------------------------------------------------------ resolving ties

  /** `Math.round` of a float, as a float. */
  function Round(x: real): real
  {
    (x + 0.5).Floor as real
  }

  /** The rank `resolveTie` gives the j-th member of a tie group of the
      given length whose members all hold rank c. */
  function ResolvedRank(tiesStrategy: int, c: real, length: int, j: int): real
  {
    if tiesStrategy == Average then (2.0 * c + length as real - 1.0) / 2.0
    else if tiesStrategy == Maximum then c + length as real - 1.0
    else if tiesStrategy == Minimum then c
    else if tiesStrategy == Sequential then Round(c) + j as real
    else c
  }

  predicate InRange(trace: seq<int>, n: int)
  {
    forall k :: 0 <= k < |trace| ==> 0 <= trace[k] < n
  }

  /** `fill(data, tiesTrace, value)`. */
  function Fill(data: seq<real>, tiesTrace: seq<int>, value: real): (r: seq<real>)
    requires InRange(tiesTrace, |data|)
    ensures |r| == |data|
    ensures forall p :: 0 <= p < |data| ==> r[p] == if p in tiesTrace then value else data[p]
    decreases |tiesTrace|
  {
    if |tiesTrace| == 0 then data
    else Fill(data[tiesTrace[0] := value], tiesTrace[1..], value)
  }

  /** The SEQUENTIAL branch of `resolveTie`: the j-th listed position gets
      f + j. */
  function FillSequential(data: seq<real>, tiesTrace: seq<int>, f: real): (r: seq<real>)
    requires InRange(tiesTrace, |data|)
    ensures |r| == |data|
    ensures forall p :: 0 <= p < |data| && p !in tiesTrace ==> r[p] == data[p]
    ensures Distinct(tiesTrace) ==> forall j :: 0 <= j < |tiesTrace| ==> r[tiesTrace[j]] == f + j as real
    decreases |tiesTrace|
  {
    if |tiesTrace| == 0 then data
    else
      var n := |tiesTrace| - 1;
      assert forall k :: 0 <= k < n ==> tiesTrace[..n][k] == tiesTrace[k];
      FillSequential(data, tiesTrace[..n], f)[tiesTrace[n] := f + n as real]
  }

  predicate Distinct(s: seq<int>)
  {
    forall i, j :: 0 <= i < j < |s| ==> s[i] != s[j]
  }

  /** `resolveTie(ranks, tiesTrace, tiesStrategy)`. */
  function ResolveTie(ranks: seq<real>, tiesTrace: seq<int>, tiesStrategy: int): (r: seq<real>)
    requires |tiesTrace| > 0 && InRange(tiesTrace, |ranks|)
    ensures |r| == |ranks|
    ensures forall p :: 0 <= p < |ranks| && p !in tiesTrace ==> r[p] == ranks[p]
    ensures Distinct(tiesTrace) && (forall j :: 0 <= j < |tiesTrace| ==> ranks[tiesTrace[j]] == ranks[tiesTrace[0]]) ==>
      forall j :: 0 <= j < |tiesTrace| ==> r[tiesTrace[j]] == ResolvedRank(tiesStrategy, ranks[tiesTrace[0]], |tiesTrace|, j)
  {
    var c := ranks[tiesTrace[0]];
    var length := |tiesTrace|;
    if tiesStrategy == Average then Fill(ranks, tiesTrace, (2.0 * c + length as real - 1.0) / 2.0)
    else if tiesStrategy == Maximum then Fill(ranks, tiesTrace, c + length as real - 1.0)
    else if tiesStrategy == Minimum then Fill(ranks, tiesTrace, c)
    else if tiesStrategy == Sequential then FillSequential(ranks, tiesTrace, Round(c))
    else ranks
  }

  // --------------------------------------------------------------- rankIt

  /** The final rank of the k-th sorted pair: its tie group starts after
      the pairs with smaller values and ends after those with values not
      larger. */
  function SortedRank(ranks: seq<IntFloatPair>, tiesStrategy: int, k: int): real
    requires 0 <= k < |ranks|
  {
    var vals := Values(ranks);
    var lo := Count(vals, LessThan(ranks[k].value));
    ResolvedRank(tiesStrategy, (lo + 1) as real, Count(vals, AtMost(ranks[k].value)) - lo, k - lo)
  }

  predicate DistinctPositions(ranks: seq<IntFloatPair>)
  {
    forall i, j :: 0 <= i < j < |ranks| ==> ranks[i].position != ranks[j].position
  }

  /** `rankIt(ranks, out, tiesStrategy)`: walks the sorted pairs, giving each
      the 1-based index where its tie group starts and resolving a group
      once it ends. `ranks[0]` is read first, so no pairs means an
      exception. */
  method RankIt(ranks: seq<IntFloatPair>, tiesStrategy: int) returns (r: Result<seq<real>>)
    requires Ascending(Values(ranks)) && DistinctPositions(ranks)
    requires forall k :: 0 <= k < |ranks| ==> 0 <= ranks[k].position < |ranks|
    ensures |ranks| == 0 <==> r.Err?
    ensures r.Err? ==> r.error == ArrayIndexOutOfBounds
    ensures r.Ok? ==> |r.value| == |ranks|
    ensures r.Ok? ==> forall k :: 0 <= k < |ranks| ==> r.value[ranks[k].position] == SortedRank(ranks, tiesStrategy, k)
  {
    var n := |ranks|;
    if n == 0 {
      return Err(ArrayIndexOutOfBounds);
    }
    var pos := 1;
    var out := seq(n, _ => 0.0);
    out := out[ranks[0].position := pos as real];
    var tiesTrace := [ranks[0].position];
    var g := 0;
    FirstWalked(ranks, tiesStrategy, out);
    for i := 1 to n
      invariant pos == g + 1
      invariant Walked(ranks, tiesStrategy, out, tiesTrace, g, i)
    {
      pos, out, tiesTrace, g := Step(ranks, tiesStrategy, out, tiesTrace, g, i);
    }
    out := CloseGroup(ranks, tiesStrategy, out, tiesTrace, g, n);
    r := Ok(out);
  }

  /** The state of `rankIt` after the first i sorted pairs: the tie group
      g..i-1 is still open, holds rank g + 1 and is listed in the trace;
      the pairs before it have their final ranks. */
  predicate Walked(ranks: seq<IntFloatPair>, tiesStrategy: int, out: seq<real>, tiesTrace: seq<int>, g: int, i: int)
  {
    && 0 <= g < i <= |ranks| == |out|
    && tiesTrace == Positions(ranks[g..i])
    && (forall k :: g <= k < i ==> ranks[k].value == ranks[g].value)
    && (g == 0 || ranks[g - 1].value < ranks[g].value)
    && (forall k :: 0 <= k < g ==> 0 <= ranks[k].position < |out| && out[ranks[k].position] == SortedRank(ranks, tiesStrategy, k))
    && (forall k :: g <= k < i ==> 0 <= ranks[k].position < |out| && out[ranks[k].position] == (g + 1) as real)
  }

  /** Before the loop the first pair forms the open group, at rank 1. */
  lemma FirstWalked(ranks: seq<IntFloatPair>, tiesStrategy: int, out: seq<real>)
    requires |ranks| == |out| > 0 && 0 <= ranks[0].position < |out| && out[ranks[0].position] == 1.0
    ensures Walked(ranks, tiesStrategy, out, [ranks[0].position], 0, 1)
  {
    assert ranks[0..1] == [ranks[0]];
  }

  /** One iteration of the loop of `rankIt`: a larger value closes the tie
      group and starts the next at rank i + 1; an equal value joins the
      group. */
  method Step(ranks: seq<IntFloatPair>, tiesStrategy: int, out0: seq<real>, tiesTrace0: seq<int>, g0: int, i: int)
      returns (pos: int, out: seq<real>, tiesTrace: seq<int>, g: int)
    requires Ascending(Values(ranks)) && DistinctPositions(ranks)
    requires forall k :: 0 <= k < |ranks| ==> 0 <= ranks[k].position < |ranks|
    requires i < |ranks| && Walked(ranks, tiesStrategy, out0, tiesTrace0, g0, i)
    ensures pos == g + 1 && Walked(ranks, tiesStrategy, out, tiesTrace, g, i + 1)
  {
    if ranks[i].value > ranks[i - 1].value {
      pos, out, tiesTrace, g := StartGroup(ranks, tiesStrategy, out0, tiesTrace0, g0, i);
    } else {
      pos, out, tiesTrace, g := JoinGroup(ranks, tiesStrategy, out0, tiesTrace0, g0, i);
    }
  }

  /** A value larger than the previous one: close the group, open the next
      at rank i + 1. */
  method StartGroup(ranks: seq<IntFloatPair>, tiesStrategy: int, out0: seq<real>, tiesTrace0: seq<int>, g0: int, i: int)
      returns (pos: int, out: seq<real>, tiesTrace: seq<int>, g: int)
    requires Ascending(Values(ranks)) && DistinctPositions(ranks)
    requires forall k :: 0 <= k < |ranks| ==> 0 <= ranks[k].position < |ranks|
    requires i < |ranks| && Walked(ranks, tiesStrategy, out0, tiesTrace0, g0, i)
    requires ranks[i].value > ranks[i - 1].value
    ensures pos == g + 1 && Walked(ranks, tiesStrategy, out, tiesTrace, g, i + 1)
  {
    var closed := CloseGroup(ranks, tiesStrategy, out0, tiesTrace0, g0, i);
    pos := i + 1;
    tiesTrace := [ranks[i].position];
    g := i;
    assert ranks[i..i + 1] == [ranks[i]];
    out := closed[ranks[i].position := pos as real];
    forall k | 0 <= k < i
      ensures out[ranks[k].position] == SortedRank(ranks, tiesStrategy, k)
    {
      assert ranks[k].position != ranks[i].position;
    }
  }

  /** A value equal to the previous one joins the open group. */
  method JoinGroup(ranks: seq<IntFloatPair>, tiesStrategy: int, out0: seq<real>, tiesTrace0: seq<int>, g0: int, i: int)
      returns (pos: int, out: seq<real>, tiesTrace: seq<int>, g: int)
    requires Ascending(Values(ranks)) && DistinctPositions(ranks)
    requires forall k :: 0 <= k < |ranks| ==> 0 <= ranks[k].position < |ranks|
    requires i < |ranks| && Walked(ranks, tiesStrategy, out0, tiesTrace0, g0, i)
    requires !(ranks[i].value > ranks[i - 1].value)
    ensures pos == g + 1 && Walked(ranks, tiesStrategy, out, tiesTrace, g, i + 1)
  {
    assert Values(ranks)[i - 1] <= Values(ranks)[i];
    assert ranks[i].value == ranks[g0].value;
    PositionsSnoc(ranks, g0, i);
    pos, g := g0 + 1, g0;
    tiesTrace := tiesTrace0 + [ranks[i].position];
    out := out0[ranks[i].position := pos as real];
    forall k | 0 <= k < i
      ensures out[ranks[k].position] == out0[ranks[k].position]
    {
      assert ranks[k].position != ranks[i].position;
    }
  }

  /** The trace grows by the position of the pair that joins the group. */
  lemma PositionsSnoc(ranks: seq<IntFloatPair>, g: int, i: int)
    requires 0 <= g <= i < |ranks|
    ensures Positions(ranks[g..i + 1]) == Positions(ranks[g..i]) + [ranks[i].position]
  {
  }

  /** The end of a tie group g..e-1: `resolveTie` when it has more than one
      member (a single member already holds its final rank). */
  method CloseGroup(ranks: seq<IntFloatPair>, tiesStrategy: int, out0: seq<real>, tiesTrace: seq<int>, g: int, e: int)
      returns (out: seq<real>)
    requires Ascending(Values(ranks)) && DistinctPositions(ranks)
    requires forall k :: 0 <= k < |ranks| ==> 0 <= ranks[k].position < |ranks|
    requires 0 <= g < e <= |ranks| == |out0|
    requires tiesTrace == Positions(ranks[g..e])
    requires forall k :: g <= k < e ==> ranks[k].value == ranks[g].value
    requires g == 0 || ranks[g - 1].value < ranks[g].value
    requires e == |ranks| || ranks[e].value > ranks[g].value
    requires forall k :: 0 <= k < g ==> out0[ranks[k].position] == SortedRank(ranks, tiesStrategy, k)
    requires forall k :: g <= k < e ==> out0[ranks[k].position] == (g + 1) as real
    ensures |out| == |out0|
    ensures forall k :: 0 <= k < e ==> out[ranks[k].position] == SortedRank(ranks, tiesStrategy, k)
    ensures forall k :: e <= k < |ranks| ==> out[ranks[k].position] == out0[ranks[k].position]
  {
    TraceFacts(ranks, g, e, tiesTrace);
    if |tiesTrace| > 1 {
      out := ResolveTie(out0, tiesTrace, tiesStrategy);
      ResolveOutside(ranks, out0, tiesTrace, tiesStrategy, g, e);
      ResolveInside(ranks, tiesStrategy, out0, tiesTrace, g, e);
    } else {
      out := out0;
      GroupRanks(ranks, tiesStrategy, g, e);
      SingleGroup(tiesStrategy, g);
    }
  }

  /** `resolveTie` leaves the positions outside the group alone. */
  lemma ResolveOutside(ranks: seq<IntFloatPair>, out0: seq<real>, tiesTrace: seq<int>, tiesStrategy: int, g: int, e: int)
    requires forall k :: 0 <= k < |ranks| ==> 0 <= ranks[k].position < |ranks|
    requires 0 <= g < e <= |ranks| == |out0| && |tiesTrace| > 0 && InRange(tiesTrace, |out0|)
    requires forall k :: 0 <= k < |ranks| && !(g <= k < e) ==> ranks[k].position !in tiesTrace
    ensures forall k :: 0 <= k < |ranks| && !(g <= k < e) ==>
      ResolveTie(out0, tiesTrace, tiesStrategy)[ranks[k].position] == out0[ranks[k].position]
  {
  }

  /** Inside the group `resolveTie` gives the documented ranks. */
  lemma ResolveInside(ranks: seq<IntFloatPair>, tiesStrategy: int, out0: seq<real>, tiesTrace: seq<int>, g: int, e: int)
    requires Ascending(Values(ranks))
    requires forall k :: 0 <= k < |ranks| ==> 0 <= ranks[k].position < |ranks|
    requires 0 <= g < e <= |ranks| == |out0|
    requires |tiesTrace| == e - g && Distinct(tiesTrace)
    requires forall j :: 0 <= j < |tiesTrace| ==> tiesTrace[j] == ranks[g + j].position
    requires forall k :: g <= k < e ==> ranks[k].value == ranks[g].value
    requires g == 0 || ranks[g - 1].value < ranks[g].value
    requires e == |ranks| || ranks[e].value > ranks[g].value
    requires forall k :: g <= k < e ==> out0[ranks[k].position] == (g + 1) as real
    ensures InRange(tiesTrace, |out0|)
    ensures forall k :: g <= k < e ==>
      ResolveTie(out0, tiesTrace, tiesStrategy)[ranks[k].position] == SortedRank(ranks, tiesStrategy, k)
  {
    GroupRanks(ranks, tiesStrategy, g, e);
    assert forall j :: 0 <= j < |tiesTrace| ==> out0[tiesTrace[j]] == (g + 1) as real;
    var out := ResolveTie(out0, tiesTrace, tiesStrategy);
    forall k | g <= k < e
      ensures out[ranks[k].position] == SortedRank(ranks, tiesStrategy, k)
    {
      assert tiesTrace[k - g] == ranks[k].position;
    }
  }

  /** The trace of a tie group lists its positions, each once, and none of
      the positions outside it. */
  lemma TraceFacts(ranks: seq<IntFloatPair>, g: int, e: int, tiesTrace: seq<int>)
    requires DistinctPositions(ranks)
    requires 0 <= g < e <= |ranks|
    requires tiesTrace == Positions(ranks[g..e])
    ensures |tiesTrace| == e - g
    ensures forall j :: 0 <= j < |tiesTrace| ==> tiesTrace[j] == ranks[g + j].position
    ensures Distinct(tiesTrace)
    ensures forall k :: 0 <= k < |ranks| && !(g <= k < e) ==> ranks[k].position !in tiesTrace
  {
    assert forall j :: 0 <= j < |tiesTrace| ==> tiesTrace[j] == ranks[g + j].position;
    forall k | 0 <= k < |ranks| && !(g <= k < e)
      ensures ranks[k].position !in tiesTrace
    {
      forall j | 0 <= j < |tiesTrace|
        ensures tiesTrace[j] != ranks[k].position
      {
        assert tiesTrace[j] == ranks[g + j].position;
      }
    }
  }

  /** A group of one keeps the rank it was given. */
  lemma SingleGroup(tiesStrategy: int, g: int)
    requires 0 <= g
    ensures ResolvedRank(tiesStrategy, (g + 1) as real, 1, 0) == (g + 1) as real
  {
    assert ((g + 1) as real + 0.5).Floor == g + 1;
  }

  /** Inside a tie group g..e-1 of ascending values the ranks are those
      `resolveTie` gives a group that starts at rank g + 1. */
  lemma GroupRanks(ranks: seq<IntFloatPair>, tiesStrategy: int, g: int, e: int)
    requires Ascending(Values(ranks))
    requires 0 <= g < e <= |ranks|
    requires forall k :: g <= k < e ==> ranks[k].value == ranks[g].value
    requires g == 0 || ranks[g - 1].value < ranks[g].value
    requires e == |ranks| || ranks[e].value > ranks[g].value
    ensures forall k :: g <= k < e ==>
      SortedRank(ranks, tiesStrategy, k) == ResolvedRank(tiesStrategy, (g + 1) as real, e - g, k - g)
  {
    GroupCounts(Values(ranks), g, e);
  }

  /** In ascending values, the counts of values below and not above the
      value of a tie group g..e-1 are g and e. */
  lemma GroupCounts(vals: seq<int>, g: int, e: int)
    requires Ascending(vals)
    requires 0 <= g < e <= |vals|
    requires forall k :: g <= k < e ==> vals[k] == vals[g]
    requires g == 0 || vals[g - 1] < vals[g]
    requires e == |vals| || vals[e] > vals[g]
    ensures Count(vals, LessThan(vals[g])) == g
    ensures Count(vals, AtMost(vals[g])) == e
  {
    SplitCount(vals, g, LessThan(vals[g]));
    SplitCount(vals, e, AtMost(vals[g]));
  }

  /** A predicate that holds exactly on the first m elements counts m. */
  lemma SplitCount(vals: seq<int>, m: int, p: int -> bool)
    requires 0 <= m <= |vals|
    requires forall k :: 0 <= k < m ==> p(vals[k])
    requires forall k :: m <= k < |vals| ==> !p(vals[k])
    ensures Count(vals, p) == m
  {
    var a, b := vals[..m], vals[m..];
    assert vals == a + b;
    assert forall k :: 0 <= k < |a| ==> a[k] == vals[k];
    assert forall k :: 0 <= k < |b| ==> b[k] == vals[m + k];
    CountAll(a, p);
    CountNone(b, p);
    CountAppend(a, b, p);
  }

  // ----------------------------------------------------------------- rank

  /** `rank(int[] data, int tiesStrategy)`. */
  method Rank(data: seq<int>, tiesStrategy: int) returns (r: Result<seq<real>>)
    ensures CheckTiesStrategy(tiesStrategy).Fail? ==> r == Err(IllegalArgument)
    ensures CheckTiesStrategy(tiesStrategy) == Pass && |data| == 0 ==> r == Err(ArrayIndexOutOfBounds)
    ensures CheckTiesStrategy(tiesStrategy) == Pass && |data| > 0 ==> r.Ok?
    ensures r.Ok? ==> |r.value| == |data|
    ensures r.Ok? ==> forall p :: 0 <= p < |data| ==> r.value[p] == RankSpec(data, tiesStrategy, p)
  {
    var check := CheckTiesStrategy(tiesStrategy);
    if check.Fail? {
      return Err(check.error);
    }
    var ranks := SortPairs(Labelled(data));
    SortedLabels(data);
    r := RankIt(ranks, tiesStrategy);
    if r.Ok? {
      forall p | 0 <= p < |data|
        ensures r.value[p] == RankSpec(data, tiesStrategy, p)
      {
        var k := FindPosition(data, p);
        SortedRankIsSpec(data, tiesStrategy, k);
      }
    }
  }

  /** What sorting the labelled pairs gives `rankIt` to work with. */
  lemma SortedLabels(data: seq<int>)
    ensures StrictlyOrdered(SortPairs(Labelled(data)))
    ensures multiset(SortPairs(Labelled(data))) == multiset(Labelled(data))
    ensures |SortPairs(Labelled(data))| == |data|
    ensures Ascending(Values(SortPairs(Labelled(data))))
    ensures DistinctPositions(SortPairs(Labelled(data)))
    ensures forall k :: 0 <= k < |data| ==>
      0 <= SortPairs(Labelled(data))[k].position < |data|
      && SortPairs(Labelled(data))[k].value == data[SortPairs(Labelled(data))[k].position]
  {
    var s := Labelled(data);
    SortPairsSpec(s);
    var ranks := SortPairs(s);
    assert |multiset(ranks)| == |multiset(s)|;
    forall k | 0 <= k < |ranks|
      ensures 0 <= ranks[k].position < |data| && ranks[k].value == data[ranks[k].position]
    {
      assert ranks[k] in multiset(s);
    }
  }

  /** Every position occurs in the sorted pairs. */
  lemma FindPosition(data: seq<int>, p: int) returns (k: int)
    requires 0 <= p < |data|
    ensures |SortPairs(Labelled(data))| == |data|
    ensures 0 <= k < |data| && SortPairs(Labelled(data))[k] == IntFloatPair(data[p], p)
  {
    SortedLabels(data);
    var s := Labelled(data);
    assert s[p] in multiset(SortPairs(s));
    k :| 0 <= k < |SortPairs(s)| && SortPairs(s)[k] == s[p];
  }

  /** The rank `rankIt` gives the k-th sorted pair is the documented rank of
      that pair's position. */
  lemma SortedRankIsSpec(data: seq<int>, tiesStrategy: int, k: int)
    requires 0 <= k < |data|
    ensures |SortPairs(Labelled(data))| == |data|
    ensures 0 <= SortPairs(Labelled(data))[k].position < |data|
    ensures SortedRank(SortPairs(Labelled(data)), tiesStrategy, k)
         == RankSpec(data, tiesStrategy, SortPairs(Labelled(data))[k].position)
  {
    SortedLabels(data);
    var ranks := SortPairs(Labelled(data));
    var p := ranks[k].position;
    var v := data[p];
    SortedCounts(data, k);
    var lo := Count(data, LessThan(v));
    var hi := Count(data, AtMost(v));
    var eq := Count(data[..p], EqualTo(v));
    ResolvedIsSpec(tiesStrategy, lo, hi, eq);
  }

  /** The counts `SortedRank` uses for the k-th sorted pair, in terms of the
      input: smaller values, values not larger, and k itself, which counts
      the smaller values and the equal values at earlier positions. */
  lemma SortedCounts(data: seq<int>, k: int)
    requires 0 <= k < |data|
    ensures |SortPairs(Labelled(data))| == |data|
    ensures 0 <= SortPairs(Labelled(data))[k].position < |data|
    ensures SortPairs(Labelled(data))[k].value == data[SortPairs(Labelled(data))[k].position]
    ensures Count(Values(SortPairs(Labelled(data))), LessThan(SortPairs(Labelled(data))[k].value))
         == Count(data, LessThan(SortPairs(Labelled(data))[k].value))
    ensures Count(Values(SortPairs(Labelled(data))), AtMost(SortPairs(Labelled(data))[k].value))
         == Count(data, AtMost(SortPairs(Labelled(data))[k].value))
    ensures k == Count(data, LessThan(SortPairs(Labelled(data))[k].value))
         + Count(data[..SortPairs(Labelled(data))[k].position], EqualTo(SortPairs(Labelled(data))[k].value))
  {
    SortedLabels(data);
    var ranks := SortPairs(Labelled(data));
    var x := ranks[k];
    var vals := Values(ranks);
    assert MapSeq(Labelled(data), Value) == data;
    assert MapSeq(ranks, Value) == vals;
    MapPermutation(ranks, Labelled(data), Value);
    CountPermutation(vals, data, LessThan(x.value));
    CountPermutation(vals, data, AtMost(x.value));
    PrecedingInSorted(ranks, k);
    CountPermutation(ranks, Labelled(data), Precedes(x));
    PrecedingLabels(data, x.value, x.position);
  }

  /** `resolveTie`'s formulas for a group starting at rank lo + 1 and
      ending at rank hi agree with the documented ranks. */
  lemma ResolvedIsSpec(tiesStrategy: int, lo: int, hi: int, eq: int)
    requires 0 <= lo
    ensures tiesStrategy == Average ==>
      ResolvedRank(tiesStrategy, (lo + 1) as real, hi - lo, eq) == ((lo + 1) + hi) as real / 2.0
    ensures tiesStrategy == Maximum ==> ResolvedRank(tiesStrategy, (lo + 1) as real, hi - lo, eq) == hi as real
    ensures tiesStrategy == Sequential ==>
      ResolvedRank(tiesStrategy, (lo + 1) as real, hi - lo, eq) == ((lo + 1) + eq) as real
    ensures tiesStrategy != Average && tiesStrategy != Maximum && tiesStrategy != Sequential ==>
      ResolvedRank(tiesStrategy, (lo + 1) as real, hi - lo, eq) == (lo + 1) as real
  {
    assert Round((lo + 1) as real) == (lo + 1) as real by {
      assert ((lo + 1) as real + 0.5).Floor == lo + 1;
    }
  }

  /** The pairs before x. */
  function Precedes(x: IntFloatPair): IntFloatPair -> bool
  {
    y => Before(y, x)
  }

  /** In a strictly ordered sequence exactly the first k pairs precede the
      k-th. */
  lemma PrecedingInSorted(s: seq<IntFloatPair>, k: int)
    requires StrictlyOrdered(s) && 0 <= k < |s|
    ensures Count(s, Precedes(s[k])) == k
  {
    var a, b := s[..k], s[k..];
    assert s == a + b;
    forall i | 0 <= i < |a|
      ensures Precedes(s[k])(a[i])
    {
      assert a[i] == s[i];
    }
    forall i | 0 <= i < |b|
      ensures !Precedes(s[k])(b[i])
    {
      assert b[i] == s[k + i];
      if i > 0 {
        assert Before(s[k], s[k + i]);
      }
    }
    CountAll(a, Precedes(s[k]));
    CountNone(b, Precedes(s[k]));
    CountAppend(a, b, Precedes(s[k]));
  }

  /** Counting the labelled pairs before (v, p): the smaller values, and
      the equal values at earlier positions. */
  lemma {:induction false} PrecedingLabels(data: seq<int>, v: int, p: int)
    requires 0 <= p
    ensures Count(Labelled(data), Precedes(IntFloatPair(v, p)))
         == Count(data, LessThan(v)) + Count(data[..if p < |data| then p else |data|], EqualTo(v))
    decreases |data|
  {
    if |data| > 0 {
      var n := |data| - 1;
      var x := IntFloatPair(v, p);
      var before := if Precedes(x)(IntFloatPair(data[n], n)) then 1 else 0;
      var less := if data[n] < v then 1 else 0;
      var equal := if data[n] == v && n < p then 1 else 0;
      assert before == less + equal;
      calc {
        Count(Labelled(data), Precedes(x));
        { assert Labelled(data)[..n] == Labelled(data[..n]); }
        Count(Labelled(data[..n]), Precedes(x)) + before;
        { PrecedingLabels(data[..n], v, p); }
        Count(data[..n], LessThan(v)) + Count(data[..n][..if p < n then p else n], EqualTo(v)) + before;
        Count(data, LessThan(v)) + Count(data[..n][..if p < n then p else n], EqualTo(v)) + equal;
        { PrecedingEqual(data, v, p); }
        Count(data, LessThan(v)) + Count(data[..if p < |data| then p else |data|], EqualTo(v));
      }
    }
  }

  /** The equal values before position p, counted with or without the last
      element of the data. */
  lemma PrecedingEqual(data: seq<int>, v: int, p: int)
    requires |data| > 0 && 0 <= p
    ensures Count(data[..|data| - 1][..if p < |data| - 1 then p else |data| - 1], EqualTo(v))
          + (if data[|data| - 1] == v && |data| - 1 < p then 1 else 0)
         == Count(data[..if p < |data| then p else |data|], EqualTo(v))
  {
    var n := |data| - 1;
    if p <= n {
      assert data[..n][..p] == data[..p];
    } else {
      assert data[..n][..n] == data[..n];
      assert data[..|data|] == data;
      assert data[..n + 1][..n] == data[..n];
    }
  }
}

=== FILE: seqs.dfy ===
/** Counting, summing and index selection over sequences: the reference
    definitions the papaya contracts are stated against. */
module Seqs {

  /** Number of elements of `s` that satisfy `p`. */
  function Count<T>(s: seq<T>, p: T -> bool): nat
  {
    if |s| == 0 then 0
    else Count(s[..|s| - 1], p) + (if p(s[|s| - 1]) then 1 else 0)
  }

  /** Sum of the elements of `s`. */
  function Sum(s: seq<int>): int
  {
    if |s| == 0 then 0 else Sum(s[..|s| - 1]) + s[|s| - 1]
  }

  /** The indices i with lo <= i < hi whose element satisfies `p`, ascending. */
  function Select<T>(s: seq<T>, lo: int, hi: int, p: T -> bool): seq<int>
    requires 0 <= lo && hi <= |s|
    decreases hi - lo
  {
    if hi <= lo then []
    else Select(s, lo, hi - 1, p) + (if p(s[hi - 1]) then [hi - 1] else [])
  }

  /** The integers lo, lo+1, ..., hi-1. */
  function Range(lo: int, hi: int): (r: seq<int>)
    ensures |r| == if hi < lo then 0 else hi - lo
    ensures forall k :: 0 <= k < |r| ==> r[k] == lo + k
  {
    if hi <= lo then [] else seq(hi - lo, k => lo + k)
  }

  /** f applied to every element. */
  function MapSeq<A, B>(s: seq<A>, f: A -> B): (r: seq<B>)
    ensures |r| == |s| && forall k :: 0 <= k < |s| ==> r[k] == f(s[k])
  {
    seq(|s|, k requires 0 <= k < |s| => f(s[k]))
  }

  /** Permuting a sequence permutes its image under any function. */
  lemma {:induction false} MapPermutation<A, B>(s: seq<A>, t: seq<A>, f: A -> B)
    requires multiset(s) == multiset(t)
    ensures multiset(MapSeq(s, f)) == multiset(MapSeq(t, f))
    decreases |s|
  {
    if |s| > 0 {
      var e := s[0];
      assert s == [e] + s[1..];
      var i := RemoveOne(s, t);
      var rest := t[..i] + t[i + 1..];
      MapPermutation(s[1..], rest, f);
      MapAppend(t[..i], [e] + t[i + 1..], f);
      MapAppend([e], t[i + 1..], f);
      MapAppend(t[..i], t[i + 1..], f);
      MapAppend([e], s[1..], f);
    }
  }

  /** Where the first element of s sits in a permutation t of s, and what is
      left of t without it. */
  lemma RemoveOne<A>(s: seq<A>, t: seq<A>) returns (i: int)
    requires |s| > 0 && multiset(s) == multiset(t)
    ensures 0 <= i < |t| && t[i] == s[0]
    ensures t == t[..i] + ([s[0]] + t[i + 1..])
    ensures multiset(s[1..]) == multiset(t[..i] + t[i + 1..])
  {
    assert s[0] in multiset(t) by { assert s[0] in s; }
    i :| 0 <= i < |t| && t[i] == s[0];
    assert t[i..] == [s[0]] + t[i + 1..];
    assert t == t[..i] + t[i..];
    var rest := t[..i] + t[i + 1..];
    MultisetHead(s);
    MultisetRemove(t, i);
    MultisetCancel(multiset(s[1..]), multiset(rest), s[0]);
  }

  lemma MultisetHead<A>(s: seq<A>)
    requires |s| > 0
    ensures multiset(s) == multiset(s[1..]) + multiset{s[0]}
  {
    assert s == [s[0]] + s[1..];
  }

  lemma MultisetCancel<A>(a: multiset<A>, b: multiset<A>, x: A)
    requires a + multiset{x} == b + multiset{x}
    ensures a == b
  {
    forall y
      ensures a[y] == b[y]
    {
      assert (a + multiset{x})[y] == (b + multiset{x})[y];
    }
  }

  /** Removing the element at i removes one occurrence of it. */
  lemma MultisetRemove<A>(t: seq<A>, i: int)
    requires 0 <= i < |t|
    ensures multiset(t) == multiset(t[..i] + t[i + 1..]) + multiset{t[i]}
  {
    assert t == t[..i] + [t[i]] + t[i + 1..];
  }

  lemma MapAppend<A, B>(s: seq<A>, t: seq<A>, f: A -> B)
    ensures MapSeq(s + t, f) == MapSeq(s, f) + MapSeq(t, f)
  {
  }

  /** Strictly ascending. */
  predicate Increasing(s: seq<int>)
  {
    forall i, j :: 0 <= i < j < |s| ==> s[i] < s[j]
  }

  /** A strictly ascending sequence is determined by its elements. */
  lemma {:induction false} IncreasingUnique(a: seq<int>, b: seq<int>)
    requires Increasing(a) && Increasing(b)
    requires forall x :: x in a <==> x in b
    ensures a == b
    decreases |a|
  {
    if |b| > 0 {
      assert b[0] in b;
    }
    if |a| > 0 {
      assert a[0] in a;
      assert |b| > 0;
      assert b[0] in b;
      IncreasingHeadIsLeast(a, b[0]);
      IncreasingHeadIsLeast(b, a[0]);
      forall x
        ensures x in a[1..] <==> x in b[1..]
      {
        IncreasingTail(a, x);
        IncreasingTail(b, x);
      }
      IncreasingUnique(a[1..], b[1..]);
      assert a == [a[0]] + a[1..];
      assert b == [b[0]] + b[1..];
    }
  }

  lemma IncreasingHeadIsLeast(a: seq<int>, x: int)
    requires Increasing(a) && x in a
    ensures a[0] <= x
  {
  }

  /** The tail of a strictly ascending sequence is strictly ascending and
      holds every element but the head. */
  lemma IncreasingTail(a: seq<int>, x: int)
    requires Increasing(a) && |a| > 0
    ensures Increasing(a[1..])
    ensures x in a[1..] <==> x in a && x != a[0]
  {
    if x in a[1..] {
      var k :| 0 <= k < |a[1..]| && a[1..][k] == x;
      assert a[k + 1] == x;
    }
    if x in a && x != a[0] {
      var k :| 0 <= k < |a| && a[k] == x;
      assert a[1..][k - 1] == x;
    }
  }

  /** Ascending, ties allowed. */
  predicate Ascending(s: seq<int>)
  {
    forall i, j :: 0 <= i < j < |s| ==> s[i] <= s[j]
  }

  // Named predicates, so that the same predicate value is used in every contract.

  function EqualTo(v: int): int -> bool { x => x == v }
  function LessThan(m: int): int -> bool { x => x < m }
  function AtMost(m: int): int -> bool { x => x <= m }
  function GreaterThan(m: int): int -> bool { x => x > m }
  function AtLeast(m: int): int -> bool { x => x >= m }

  lemma {:induction false} CountAppend<T>(s: seq<T>, t: seq<T>, p: T -> bool)
    ensures Count(s + t, p) == Count(s, p) + Count(t, p)
    decreases |t|
  {
    if |t| == 0 {
      assert s + t == s;
    } else {
      assert (s + t)[..|s + t| - 1] == s + t[..|t| - 1];
      CountAppend(s, t[..|t| - 1], p);
    }
  }

  lemma CountBounded<T>(s: seq<T>, p: T -> bool)
    ensures Count(s, p) <= |s|
  {
  }

  /** Every element satisfies `p` exactly when all of `s` is counted. */
  lemma {:induction false} CountAll<T>(s: seq<T>, p: T -> bool)
    ensures Count(s, p) == |s| <==> forall i :: 0 <= i < |s| ==> p(s[i])
    decreases |s|
  {
    if |s| > 0 {
      CountAll(s[..|s| - 1], p);
      CountBounded(s[..|s| - 1], p);
    }
  }

  /** No element satisfies `p` exactly when the count is zero. */
  lemma {:induction false} CountNone<T>(s: seq<T>, p: T -> bool)
    ensures Count(s, p) == 0 <==> forall i :: 0 <= i < |s| ==> !p(s[i])
    decreases |s|
  {
    if |s| > 0 {
      CountNone(s[..|s| - 1], p);
    }
  }

  /** Counting does not depend on the order of the elements. */
  lemma {:induction false} CountPermutation<T>(s: seq<T>, t: seq<T>, p: T -> bool)
    requires multiset(s) == multiset(t)
    ensures Count(s, p) == Count(t, p)
    decreases |s|
  {
    if |s| > 0 {
      var init, last := s[..|s| - 1], s[|s| - 1];
      assert multiset(s) == multiset(init) + multiset{last} by {
        assert s == init + [last];
      }
      assert last in multiset(t);
      var i :| 0 <= i < |t| && t[i] == last;
      var rest := t[..i] + t[i + 1..];
      MultisetRemove(t, i);
      MultisetCancel(multiset(init), multiset(rest), last);
      CountPermutation(init, rest, p);
      CountRemove(t, i, p);
    }
  }

  /** Removing the element at i removes its contribution to the count. */
  lemma CountRemove<T>(t: seq<T>, i: int, p: T -> bool)
    requires 0 <= i < |t|
    ensures Count(t, p) == Count(t[..i] + t[i + 1..], p) + (if p(t[i]) then 1 else 0)
  {
    calc {
      Count(t, p);
      { assert t[..i + 1] + t[i + 1..] == t; CountAppend(t[..i + 1], t[i + 1..], p); }
      Count(t[..i + 1], p) + Count(t[i + 1..], p);
      { assert t[..i + 1][..i] == t[..i]; }
      Count(t[..i], p) + (if p(t[i]) then 1 else 0) + Count(t[i + 1..], p);
      { CountAppend(t[..i], t[i + 1..], p); }
      Count(t[..i] + t[i + 1..], p) + (if p(t[i]) then 1 else 0);
    }
  }

  /** Two predicates that never hold together count separately. */
  lemma {:induction false} CountDisjoint<T>(s: seq<T>, p: T -> bool, q: T -> bool, both: T -> bool)
    requires forall x :: both(x) == (p(x) || q(x))
    requires forall x :: !(p(x) && q(x))
    ensures Count(s, both) == Count(s, p) + Count(s, q)
    decreases |s|
  {
    if |s| > 0 {
      CountDisjoint(s[..|s| - 1], p, q, both);
    }
  }

  /** A predicate implied by another counts at least as much. */
  lemma {:induction false} CountMonotone<T>(s: seq<T>, p: T -> bool, q: T -> bool)
    requires forall x :: p(x) ==> q(x)
    ensures Count(s, p) <= Count(s, q)
    decreases |s|
  {
    if |s| > 0 {
      CountMonotone(s[..|s| - 1], p, q);
    }
  }

  /** A head no larger than any element of an ascending tail keeps it ascending. */
  lemma AscendingCons(h: int, t: seq<int>)
    requires Ascending(t)
    requires forall k :: 0 <= k < |t| ==> h <= t[k]
    ensures Ascending([h] + t)
  {
    var s := [h] + t;
    forall p, q | 0 <= p < q < |s|
      ensures s[p] <= s[q]
    {
      assert s[q] == t[q - 1];
      if p > 0 {
        assert s[p] == t[p - 1];
      }
    }
  }

  /** Two distinct matching positions make the count at least two. */
  lemma {:induction false} CountAtLeastTwo<T>(s: seq<T>, i: int, j: int, p: T -> bool)
    requires 0 <= i < j < |s| && p(s[i]) && p(s[j])
    ensures Count(s, p) >= 2
    decreases |s|
  {
    if j == |s| - 1 {
      CountNone(s[..|s| - 1], p);
    } else {
      CountAtLeastTwo(s[..|s| - 1], i, j, p);
    }
  }

  lemma {:induction false} SumAppend(s: seq<int>, t: seq<int>)
    ensures Sum(s + t) == Sum(s) + Sum(t)
    decreases |t|
  {
    if |t| == 0 {
      assert s + t == s;
    } else {
      assert (s + t)[..|s + t| - 1] == s + t[..|t| - 1];
      SumAppend(s, t[..|t| - 1]);
    }
  }

  /** Adding one to a cell adds one to the sum. */
  lemma {:induction false} SumIncrement(s: seq<int>, i: int)
    requires 0 <= i < |s|
    ensures Sum(s[i := s[i] + 1]) == Sum(s) + 1
    decreases |s|
  {
    var t := s[i := s[i] + 1];
    if i == |s| - 1 {
      assert t[..|t| - 1] == s[..|s| - 1];
    } else {
      assert t[..|t| - 1] == s[..|s| - 1][i := s[i] + 1];
      SumIncrement(s[..|s| - 1], i);
    }
  }

  /** `Select` lists exactly the matching indices, in strictly ascending order. */
  lemma {:induction false} SelectSpec<T>(s: seq<T>, lo: int, hi: int, p: T -> bool)
    requires 0 <= lo && hi <= |s|
    ensures Increasing(Select(s, lo, hi, p))
    ensures forall i :: i in Select(s, lo, hi, p) <==> lo <= i < hi && p(s[i])
    ensures forall k :: 0 <= k < |Select(s, lo, hi, p)| ==> lo <= Select(s, lo, hi, p)[k] < hi
    decreases hi - lo
  {
    if lo < hi {
      SelectSpec(s, lo, hi - 1, p);
      var prev := Select(s, lo, hi - 1, p);
      if p(s[hi - 1]) {
        IncreasingSnoc(prev, hi - 1);
        assert Select(s, lo, hi, p) == prev + [hi - 1];
      } else {
        assert Select(s, lo, hi, p) == prev;
      }
    }
  }

  /** An element above every element keeps a sequence strictly ascending. */
  lemma IncreasingSnoc(s: seq<int>, x: int)
    requires Increasing(s) && forall k :: 0 <= k < |s| ==> s[k] < x
    ensures Increasing(s + [x])
  {
  }

  /** `Select` finds as many indices as `Count` counts elements. */
  lemma {:induction false} SelectLength<T>(s: seq<T>, lo: int, hi: int, p: T -> bool)
    requires 0 <= lo <= hi <= |s|
    ensures |Select(s, lo, hi, p)| == Count(s[lo..hi], p)
    decreases hi - lo
  {
    if lo < hi {
      SelectLength(s, lo, hi - 1, p);
      assert s[lo..hi][..hi - lo - 1] == s[lo..hi - 1];
    }
  }
}

=== FILE: sorting.dfy ===
/** papaya's `Sorting` class (Sorting.java), `int[]` overloads: the index
    sort `indices`, the two-array sort `twoArrays`, and the tuned 3-way
    quicksort of Bentley and McIlroy they both run (`quickSort1`,
    `quickSort2`) with its helpers `med3`, `compare`, `swap`, `vecswap` and
    `rangeCheck`.

    `quickSort1` and `quickSort2` sort an array x and apply every swap to a
    second array as well (the index array, or y). The two arrays therefore
    move as one array of pairs, which is how they are modelled: a `Cell`
    holds x[i] and the companion's entry at the same position. The array
    being sorted is threaded through the methods as a value. */
module Sorting {
  import opened Errors
  import opened Seqs
  import Mat

  /** Below this length the insertion sort runs. */
  const Small := 7
  /** Above this length the pivot is a pseudomedian of nine. */
  const Medium := 40

  /** x[i] together with the companion array's entry at i. */
  type Cell = (int, int)

  /** The value that ascending order compares: descending order is
      ascending order of the negated values. */
  function Key(v: int, isAscending: bool): int
  {
    if isAscending then v else -v
  }

  /** `compare(value1, value2, isAscending)`: negative, zero or positive as
      value1 comes before, ties with, or comes after value2 in the requested
      order. Java's `int` subtraction can overflow; the model's cannot. */
  function Compare(value1: int, value2: int, isAscending: bool): (r: int)
    ensures r < 0 <==> Key(value1, isAscending) < Key(value2, isAscending)
    ensures r == 0 <==> value1 == value2
    ensures r > 0 <==> Key(value1, isAscending) > Key(value2, isAscending)
  {
    if isAscending then value1 - value2 else value2 - value1
  }

  /** Cells lo..hi-1 are in the requested order. */
  predicate SortedBy(s: seq<Cell>, lo: int, hi: int, asc: bool)
    requires 0 <= lo <= hi <= |s|
  {
    forall i, j :: lo <= i < j < hi ==> Key(s[i].0, asc) <= Key(s[j].0, asc)
  }

  /** The three kinds of region of the partition: before, tied with, and
      after the partition value v. */
  predicate AllBelow(s: seq<Cell>, lo: int, hi: int, asc: bool, v: int)
    requires 0 <= lo <= hi <= |s|
  {
    forall j :: lo <= j < hi ==> Key(s[j].0, asc) < Key(v, asc)
  }

  predicate AllEqual(s: seq<Cell>, lo: int, hi: int, asc: bool, v: int)
    requires 0 <= lo <= hi <= |s|
  {
    forall j :: lo <= j < hi ==> Key(s[j].0, asc) == Key(v, asc)
  }

  predicate AllAbove(s: seq<Cell>, lo: int, hi: int, asc: bool, v: int)
    requires 0 <= lo <= hi <= |s|
  {
    forall j :: lo <= j < hi ==> Key(s[j].0, asc) > Key(v, asc)
  }

  /** t is s with at most the cells lo..hi-1 changed. */
  predicate Unchanged(t: seq<Cell>, s: seq<Cell>, lo: int, hi: int)
  {
    |t| == |s| && forall k :: 0 <= k < |s| && !(lo <= k < hi) ==> t[k] == s[k]
  }

  // ------------------------------------------------------------ swapping

  /** `swap(x, a, b)`. */
  function Swap(s: seq<Cell>, a: int, b: int): (r: seq<Cell>)
    requires 0 <= a < |s| && 0 <= b < |s|
    ensures |r| == |s| && r[a] == s[b] && r[b] == s[a]
    ensures forall k :: 0 <= k < |s| && k != a && k != b ==> r[k] == s[k]
    ensures multiset(r) == multiset(s)
  {
    s[a := s[b]][b := s[a]]
  }

  /** `vecswap(x, a, b, n)`: n swaps of x[a+i] with x[b+i]. For disjoint
      ranges the two blocks change places; in every case nothing outside
      them changes. */
  method VecSwap(x0: seq<Cell>, a: int, b: int, n: int) returns (x: seq<Cell>)
    requires 0 <= a && 0 <= b && 0 <= n && a + n <= |x0| && b + n <= |x0|
    ensures |x| == |x0| && multiset(x) == multiset(x0)
    ensures forall k :: 0 <= k < |x0| && !(a <= k < a + n) && !(b <= k < b + n) ==> x[k] == x0[k]
    ensures a + n <= b || b + n <= a ==> forall k :: a <= k < a + n ==> x[k] == x0[k - a + b]
    ensures a + n <= b || b + n <= a ==> forall k :: b <= k < b + n ==> x[k] == x0[k - b + a]
  {
    x := x0;
    VecSwapStart(x0, a, b, n);
    for i := 0 to n
      invariant VecSwapped(x0, x, a, b, n, i)
    {
      VecSwapStep(x0, x, a, b, n, i);
      x := Swap(x, a + i, b + i);
    }
    VecSwapDone(x0, x, a, b, n);
  }

  lemma VecSwapStart(x0: seq<Cell>, a: int, b: int, n: int)
    requires 0 <= a && 0 <= b && 0 <= n && a + n <= |x0| && b + n <= |x0|
    ensures VecSwapped(x0, x0, a, b, n, 0)
  {
  }

  lemma VecSwapDone(x0: seq<Cell>, x: seq<Cell>, a: int, b: int, n: int)
    requires VecSwapped(x0, x, a, b, n, n)
    ensures |x| == |x0| && multiset(x) == multiset(x0)
    ensures forall k :: 0 <= k < |x0| && !(a <= k < a + n) && !(b <= k < b + n) ==> x[k] == x0[k]
    ensures a + n <= b || b + n <= a ==> forall k :: a <= k < a + n ==> x[k] == x0[k - a + b]
    ensures a + n <= b || b + n <= a ==> forall k :: b <= k < b + n ==> x[k] == x0[k - b + a]
  {
  }

  /** The state of `vecswap` after i swaps. */
  predicate VecSwapped(x0: seq<Cell>, x: seq<Cell>, a: int, b: int, n: int, i: int)
  {
    && 0 <= a && 0 <= b && 0 <= i <= n && a + n <= |x0| && b + n <= |x0|
    && |x| == |x0| && multiset(x) == multiset(x0)
    && (forall k :: 0 <= k < |x0| && !(a <= k < a + i) && !(b <= k < b + i) ==> x[k] == x0[k])
    && (a + n <= b || b + n <= a ==> forall k :: a <= k < a + i ==> x[k] == x0[k - a + b])
    && (a + n <= b || b + n <= a ==> forall k :: b <= k < b + i ==> x[k] == x0[k - b + a])
  }

  /** One swap of `vecswap` extends both exchanged blocks by one cell. */
  lemma VecSwapStep(x0: seq<Cell>, x: seq<Cell>, a: int, b: int, n: int, i: int)
    requires 0 <= a && 0 <= b && 0 <= i < n && a + n <= |x0| && b + n <= |x0|
    requires VecSwapped(x0, x, a, b, n, i)
    ensures VecSwapped(x0, Swap(x, a + i, b + i), a, b, n, i + 1)
  {
    var y := Swap(x, a + i, b + i);
    forall k | 0 <= k < |x0| && !(a <= k < a + i + 1) && !(b <= k < b + i + 1)
      ensures y[k] == x0[k]
    {
      assert y[k] == x[k];
    }
    if a + n <= b || b + n <= a {
      VecSwapBlocks(x0, x, a, b, n, i, y);
    }
  }

  /** For disjoint blocks, the swap moves the next cell of each block to
      the other. */
  lemma VecSwapBlocks(x0: seq<Cell>, x: seq<Cell>, a: int, b: int, n: int, i: int, y: seq<Cell>)
    requires 0 <= a && 0 <= b && 0 <= i < n && a + n <= |x0| && b + n <= |x0|
    requires a + n <= b || b + n <= a
    requires |x| == |x0|
    requires x[a + i] == x0[a + i] && x[b + i] == x0[b + i]
    requires forall k :: a <= k < a + i ==> x[k] == x0[k - a + b]
    requires forall k :: b <= k < b + i ==> x[k] == x0[k - b + a]
    requires y == Swap(x, a + i, b + i)
    ensures forall k :: a <= k < a + i + 1 ==> y[k] == x0[k - a + b]
    ensures forall k :: b <= k < b + i + 1 ==> y[k] == x0[k - b + a]
  {
    forall k | a <= k < a + i + 1
      ensures y[k] == x0[k - a + b]
    {
      if k < a + i {
        assert y[k] == x[k];
      }
    }
    forall k | b <= k < b + i + 1
      ensures y[k] == x0[k - b + a]
    {
      if k < b + i {
        assert y[k] == x[k];
      }
    }
  }

  // ---------------------------------------------------------- the pivot

  /** Reference definition of the median of three values. */
  function Median(p: int, q: int, r: int): int
  {
    var lo := if p < q then p else q;
    var hi := if p < q then q else p;
    if r < lo then lo else if r > hi then hi else r
  }

  /** `med3(x, a, b, c)`: the index, among a, b and c, of the median of the
      three values. It always compares in ascending order. */
  function Med3(x: seq<Cell>, a: int, b: int, c: int): (m: int)
    requires 0 <= a < |x| && 0 <= b < |x| && 0 <= c < |x|
    ensures m == a || m == b || m == c
    ensures x[m].0 == Median(x[a].0, x[b].0, x[c].0)
  {
    var ab := Compare(x[a].0, x[b].0, true);
    var ac := Compare(x[a].0, x[c].0, true);
    var bc := Compare(x[b].0, x[c].0, true);
    if ab < 0 then (if bc < 0 then b else if ac < 0 then c else a)
    else (if bc > 0 then b else if ac > 0 then c else a)
  }

  /** The partition element's position in `quickSort1`/`quickSort2`: the
      middle cell for length 7, the median of the first, middle and last
      cells up to length 40, and a pseudomedian of nine beyond. */
  function PivotIndex(x: seq<Cell>, off: int, len: int): (m: int)
    requires 0 <= off && Small <= len && off + len <= |x|
    ensures off <= m < off + len
  {
    var m := off + len / 2;
    if len > Small then
      var l := off;
      var n := off + len - 1;
      if len > Medium then
        var s := len / 8;
        Med3(x, Med3(x, l, l + s, l + 2 * s), Med3(x, m - s, m, m + s), Med3(x, n - 2 * s, n - s, n))
      else
        Med3(x, l, m, n)
    else
      m
  }

  // ---------------------------------------------------- insertion sort

  /** The insertion sort `quickSort1`/`quickSort2` run below length 7: each
      cell is swapped backwards while its predecessor comes after it. */
  method InsertionSort(x0: seq<Cell>, off: int, len: int, asc: bool) returns (x: seq<Cell>)
    requires 0 <= off && 0 <= len && off + len <= |x0|
    ensures Unchanged(x, x0, off, off + len) && multiset(x) == multiset(x0)
    ensures SortedBy(x, off, off + len, asc)
  {
    x := x0;
    for i := off to len + off
      invariant Unchanged(x, x0, off, off + len) && multiset(x) == multiset(x0)
      invariant SortedBy(x, off, i, asc)
    {
      x := InsertBackwards(x, off, i, asc);
    }
  }

  /** One pass of the inner loop: cells off..i-1 are sorted, and cell i is
      swapped down to its place. */
  method InsertBackwards(x0: seq<Cell>, off: int, i: int, asc: bool) returns (x: seq<Cell>)
    requires 0 <= off <= i < |x0| && SortedBy(x0, off, i, asc)
    ensures Unchanged(x, x0, off, i + 1) && multiset(x) == multiset(x0)
    ensures SortedBy(x, off, i + 1, asc)
  {
    x := x0;
    var j := i;
    while j > off && Compare(x[j - 1].0, x[j].0, asc) > 0
      invariant Sinking(x0, x, off, i, j, asc)
      decreases j
    {
      SinkStep(x0, x, off, i, j, asc);
      x := Swap(x, j, j - 1);
      j := j - 1;
    }
    SinkDone(x0, x, off, i, j, asc);
  }

  /** The state of the inner loop: cell i has sunk to j; the cells on either
      side of it are sorted, and those below come before those above. */
  predicate Sinking(x0: seq<Cell>, x: seq<Cell>, off: int, i: int, j: int, asc: bool)
  {
    && 0 <= off <= j <= i < |x0|
    && Unchanged(x, x0, off, i + 1) && multiset(x) == multiset(x0)
    && SortedBy(x, off, j, asc) && SortedBy(x, j, i + 1, asc)
    && forall p, q :: off <= p < j < q <= i ==> Key(x[p].0, asc) <= Key(x[q].0, asc)
  }

  /** Swapping the sinking cell with a predecessor that comes after it. */
  lemma SinkStep(x0: seq<Cell>, x: seq<Cell>, off: int, i: int, j: int, asc: bool)
    requires Sinking(x0, x, off, i, j, asc) && j > off
    requires Key(x[j - 1].0, asc) > Key(x[j].0, asc)
    ensures Sinking(x0, Swap(x, j, j - 1), off, i, j - 1, asc)
  {
    var y := Swap(x, j, j - 1);
    SinkUpper(x, off, i, j, asc, y);
    SinkCross(x, off, i, j, asc, y);
    SinkFrame(x0, x, off, i, j, asc, y);
  }

  /** The swap stays inside off..i and below it nothing moves. */
  lemma SinkFrame(x0: seq<Cell>, x: seq<Cell>, off: int, i: int, j: int, asc: bool, y: seq<Cell>)
    requires 0 <= off < j <= i < |x0|
    requires Unchanged(x, x0, off, i + 1) && multiset(x) == multiset(x0)
    requires SortedBy(x, off, j, asc)
    requires y == Swap(x, j, j - 1)
    ensures Unchanged(y, x0, off, i + 1) && multiset(y) == multiset(x0)
    ensures SortedBy(y, off, j - 1, asc)
  {
    assert forall k :: off <= k < j - 1 ==> y[k] == x[k];
  }

  /** After the swap, cells j-1..i are sorted. */
  lemma SinkUpper(x: seq<Cell>, off: int, i: int, j: int, asc: bool, y: seq<Cell>)
    requires 0 <= off < j <= i < |x|
    requires SortedBy(x, j, i + 1, asc)
    requires forall p, q :: off <= p < j < q <= i ==> Key(x[p].0, asc) <= Key(x[q].0, asc)
    requires Key(x[j - 1].0, asc) > Key(x[j].0, asc)
    requires y == Swap(x, j, j - 1)
    ensures SortedBy(y, j - 1, i + 1, asc)
  {
    forall p, q | j - 1 <= p < q <= i
      ensures Key(y[p].0, asc) <= Key(y[q].0, asc)
    {
      if p == j - 1 && q > j {
        assert y[p] == x[j] && y[q] == x[q];
      } else if p == j - 1 {
        assert y[p] == x[j] && y[q] == x[j - 1];
      } else if p == j {
        assert y[p] == x[j - 1] && y[q] == x[q];
        assert Key(x[j - 1].0, asc) <= Key(x[q].0, asc);
      } else {
        assert y[p] == x[p] && y[q] == x[q];
      }
    }
  }

  /** After the swap, cells below j-1 come before those above it. */
  lemma SinkCross(x: seq<Cell>, off: int, i: int, j: int, asc: bool, y: seq<Cell>)
    requires 0 <= off < j <= i < |x|
    requires SortedBy(x, off, j, asc)
    requires forall p, q :: off <= p < j < q <= i ==> Key(x[p].0, asc) <= Key(x[q].0, asc)
    requires y == Swap(x, j, j - 1)
    ensures forall p, q :: off <= p < j - 1 < q <= i ==> Key(y[p].0, asc) <= Key(y[q].0, asc)
  {
    forall p, q | off <= p < j - 1 < q <= i
      ensures Key(y[p].0, asc) <= Key(y[q].0, asc)
    {
      assert y[p] == x[p];
      if q == j {
        assert y[q] == x[j - 1];
      } else {
        assert y[q] == x[q];
      }
    }
  }

  /** When the loop stops the cells off..i are sorted. */
  lemma SinkDone(x0: seq<Cell>, x: seq<Cell>, off: int, i: int, j: int, asc: bool)
    requires Sinking(x0, x, off, i, j, asc)
    requires j == off || Key(x[j - 1].0, asc) <= Key(x[j].0, asc)
    ensures Unchanged(x, x0, off, i + 1) && multiset(x) == multiset(x0)
    ensures SortedBy(x, off, i + 1, asc)
  {
    forall p, q | off <= p < q <= i
      ensures Key(x[p].0, asc) <= Key(x[q].0, asc)
    {
      if p < j && q == j {
        assert Key(x[p].0, asc) <= Key(x[j - 1].0, asc);
      }
    }
  }

  // ---------------------------------------------------------- partition

  /** The partitioning loop: afterwards the range reads
      (tied)(before)(after)(tied) around the partition value v, with the
      regions delimited by off, a, b = c + 1, d + 1 and off + len. */
  method Partition(x0: seq<Cell>, off: int, len: int, v: int, asc: bool)
      returns (x: seq<Cell>, a: int, b: int, c: int, d: int)
    requires 0 <= off && 1 <= len && off + len <= |x0|
    ensures Unchanged(x, x0, off, off + len) && multiset(x) == multiset(x0)
    ensures off <= a <= b == c + 1 <= d + 1 <= off + len
    ensures AllEqual(x, off, a, asc, v) && AllBelow(x, a, b, asc, v)
    ensures AllAbove(x, c + 1, d + 1, asc, v) && AllEqual(x, d + 1, off + len, asc, v)
  {
    x := x0;
    a, b, c, d := off, off, off + len - 1, off + len - 1;
    while true
      invariant off <= a <= b <= c + 1 <= d + 1 <= off + len
      invariant Unchanged(x, x0, off, off + len) && multiset(x) == multiset(x0)
      invariant AllEqual(x, off, a, asc, v) && AllBelow(x, a, b, asc, v)
      invariant AllAbove(x, c + 1, d + 1, asc, v) && AllEqual(x, d + 1, off + len, asc, v)
      decreases c - b + 2
    {
      x, a, b := ScanUp(x, x0, off, len, v, asc, a, b, c, d);
      x, c, d := ScanDown(x, x0, off, len, v, asc, a, b, c, d);
      if b > c {
        break;
      }
      x, b, c := CrossSwap(x, x0, off, len, v, asc, a, b, c, d);
    }
  }

  /** The swap that ends a round of the partitioning loop: x[b] comes after
      v and x[c] before it, so exchanging them grows both outer regions. */
  method CrossSwap(x0: seq<Cell>, orig: seq<Cell>, off: int, len: int, v: int, asc: bool,
                   a: int, b0: int, c0: int, d: int)
      returns (x: seq<Cell>, b: int, c: int)
    requires 0 <= off <= a <= b0 <= c0 <= d <= off + len - 1 && off + len <= |x0|
    requires Unchanged(x0, orig, off, off + len) && multiset(x0) == multiset(orig)
    requires AllEqual(x0, off, a, asc, v) && AllBelow(x0, a, b0, asc, v)
    requires AllAbove(x0, c0 + 1, d + 1, asc, v) && AllEqual(x0, d + 1, off + len, asc, v)
    requires Key(x0[b0].0, asc) > Key(v, asc) && Key(x0[c0].0, asc) < Key(v, asc)
    ensures b == b0 + 1 && c == c0 - 1 && b <= c + 1
    ensures Unchanged(x, orig, off, off + len) && multiset(x) == multiset(orig)
    ensures AllEqual(x, off, a, asc, v) && AllBelow(x, a, b, asc, v)
    ensures AllAbove(x, c + 1, d + 1, asc, v) && AllEqual(x, d + 1, off + len, asc, v)
  {
    x := Swap(x0, b0, c0);
    b, c := b0 + 1, c0 - 1;
  }

  /** The first inner loop: b moves up over cells that do not come after v;
      tied cells are swapped to the low end at a. */
  method ScanUp(x0: seq<Cell>, orig: seq<Cell>, off: int, len: int, v: int, asc: bool,
                a0: int, b0: int, c: int, d: int)
      returns (x: seq<Cell>, a: int, b: int)
    requires off <= a0 <= b0 <= c + 1 <= d + 1 <= off + len <= |x0| && 0 <= off
    requires Unchanged(x0, orig, off, off + len) && multiset(x0) == multiset(orig)
    requires AllEqual(x0, off, a0, asc, v) && AllBelow(x0, a0, b0, asc, v)
    requires AllAbove(x0, c + 1, d + 1, asc, v) && AllEqual(x0, d + 1, off + len, asc, v)
    ensures off <= a <= b <= c + 1 && b0 <= b
    ensures Unchanged(x, orig, off, off + len) && multiset(x) == multiset(orig)
    ensures AllEqual(x, off, a, asc, v) && AllBelow(x, a, b, asc, v)
    ensures AllAbove(x, c + 1, d + 1, asc, v) && AllEqual(x, d + 1, off + len, asc, v)
    ensures b <= c ==> Key(x[b].0, asc) > Key(v, asc)
  {
    x, a, b := x0, a0, b0;
    while b <= c && Compare(x[b].0, v, asc) <= 0
      invariant Regions(x, orig, off, len, v, asc, a, b, c, d) && b0 <= b
      decreases c - b
    {
      if Compare(x[b].0, v, asc) == 0 {
        TieMovesLow(x, orig, off, len, v, asc, a, b, c, d, Swap(x, a, b));
        x := Swap(x, a, b);
        a := a + 1;
      } else {
        BelowGrows(x, orig, off, len, v, asc, a, b, c, d);
      }
      b := b + 1;
    }
  }

  /** The invariant of the partitioning loops: (tied)(before)(unseen)(after)(tied)
      inside off..off+len-1, a permutation of orig that leaves the rest alone. */
  predicate Regions(x: seq<Cell>, orig: seq<Cell>, off: int, len: int, v: int, asc: bool,
                    a: int, b: int, c: int, d: int)
  {
    && 0 <= off <= a <= b <= c + 1 <= d + 1 <= off + len <= |x|
    && Unchanged(x, orig, off, off + len) && multiset(x) == multiset(orig)
    && AllEqual(x, off, a, asc, v) && AllBelow(x, a, b, asc, v)
    && AllAbove(x, c + 1, d + 1, asc, v) && AllEqual(x, d + 1, off + len, asc, v)
  }

  /** A tied x[b] swapped to a extends the low tied block and shifts the
      block before v up by one. */
  lemma TieMovesLow(x: seq<Cell>, orig: seq<Cell>, off: int, len: int, v: int, asc: bool,
                    a: int, b: int, c: int, d: int, y: seq<Cell>)
    requires Regions(x, orig, off, len, v, asc, a, b, c, d) && b <= c
    requires Key(x[b].0, asc) == Key(v, asc) && y == Swap(x, a, b)
    ensures Regions(y, orig, off, len, v, asc, a + 1, b + 1, c, d)
  {
    forall j | a + 1 <= j < b + 1
      ensures Key(y[j].0, asc) < Key(v, asc)
    {
      if j == b && a < b {
        assert y[j] == x[a];
      }
    }
  }

  /** An x[b] before v joins the block before v. */
  lemma BelowGrows(x: seq<Cell>, orig: seq<Cell>, off: int, len: int, v: int, asc: bool,
                   a: int, b: int, c: int, d: int)
    requires Regions(x, orig, off, len, v, asc, a, b, c, d) && b <= c
    requires Key(x[b].0, asc) < Key(v, asc)
    ensures Regions(x, orig, off, len, v, asc, a, b + 1, c, d)
  {
  }

  /** The second inner loop: c moves down over cells that do not come
      before v; tied cells are swapped to the high end at d. */
  method ScanDown(x0: seq<Cell>, orig: seq<Cell>, off: int, len: int, v: int, asc: bool,
                  a: int, b: int, c0: int, d0: int)
      returns (x: seq<Cell>, c: int, d: int)
    requires off <= a <= b <= c0 + 1 <= d0 + 1 <= off + len <= |x0| && 0 <= off
    requires Unchanged(x0, orig, off, off + len) && multiset(x0) == multiset(orig)
    requires AllEqual(x0, off, a, asc, v) && AllBelow(x0, a, b, asc, v)
    requires AllAbove(x0, c0 + 1, d0 + 1, asc, v) && AllEqual(x0, d0 + 1, off + len, asc, v)
    requires b <= c0 ==> Key(x0[b].0, asc) > Key(v, asc)
    ensures b <= c + 1 <= d + 1 <= off + len && c <= c0
    ensures Unchanged(x, orig, off, off + len) && multiset(x) == multiset(orig)
    ensures AllEqual(x, off, a, asc, v) && AllBelow(x, a, b, asc, v)
    ensures AllAbove(x, c + 1, d + 1, asc, v) && AllEqual(x, d + 1, off + len, asc, v)
    ensures b <= c ==> Key(x[b].0, asc) > Key(v, asc) && Key(x[c].0, asc) < Key(v, asc)
  {
    x, c, d := x0, c0, d0;
    while c >= b && Compare(x[c].0, v, asc) >= 0
      invariant Regions(x, orig, off, len, v, asc, a, b, c, d) && c <= c0
      invariant b <= c ==> Key(x[b].0, asc) > Key(v, asc)
      decreases c
    {
      if Compare(x[c].0, v, asc) == 0 {
        TieMovesHigh(x, orig, off, len, v, asc, a, b, c, d, Swap(x, c, d));
        x := Swap(x, c, d);
        d := d - 1;
      } else {
        AboveGrows(x, orig, off, len, v, asc, a, b, c, d);
      }
      c := c - 1;
    }
  }

  /** A tied x[c] swapped to d extends the high tied block and shifts the
      block after v down by one; x[b], if still unseen, stays put. */
  lemma TieMovesHigh(x: seq<Cell>, orig: seq<Cell>, off: int, len: int, v: int, asc: bool,
                     a: int, b: int, c: int, d: int, y: seq<Cell>)
    requires Regions(x, orig, off, len, v, asc, a, b, c, d) && b <= c
    requires Key(x[c].0, asc) == Key(v, asc) && y == Swap(x, c, d)
    requires b <= c - 1 ==> Key(x[b].0, asc) > Key(v, asc)
    ensures Regions(y, orig, off, len, v, asc, a, b, c - 1, d - 1)
    ensures b <= c - 1 ==> Key(y[b].0, asc) > Key(v, asc)
  {
    forall j | c <= j < d
      ensures Key(y[j].0, asc) > Key(v, asc)
    {
      if j == c && c < d {
        assert y[j] == x[d];
      }
    }
  }

  /** An x[c] after v joins the block after v. */
  lemma AboveGrows(x: seq<Cell>, orig: seq<Cell>, off: int, len: int, v: int, asc: bool,
                   a: int, b: int, c: int, d: int)
    requires Regions(x, orig, off, len, v, asc, a, b, c, d) && b <= c
    requires Key(x[c].0, asc) > Key(v, asc)
    ensures Regions(x, orig, off, len, v, asc, a, b, c - 1, d)
  {
  }

  /** The two `vecswap` calls after partitioning: the tied blocks move to
      the middle, giving (before)(tied)(after) with lt = b - a cells before
      and gt = d - c cells after. */
  method SwapBack(x0: seq<Cell>, off: int, len: int, v: int, asc: bool, a: int, b: int, c: int, d: int)
      returns (x: seq<Cell>, lt: int, gt: int)
    requires 0 <= off <= a <= b == c + 1 <= d + 1 <= off + len <= |x0|
    requires AllEqual(x0, off, a, asc, v) && AllBelow(x0, a, b, asc, v)
    requires AllAbove(x0, c + 1, d + 1, asc, v) && AllEqual(x0, d + 1, off + len, asc, v)
    ensures lt == b - a && gt == d - c
    ensures Unchanged(x, x0, off, off + len) && multiset(x) == multiset(x0)
    ensures AllBelow(x, off, off + lt, asc, v) && AllEqual(x, off + lt, off + len - gt, asc, v)
    ensures AllAbove(x, off + len - gt, off + len, asc, v)
  {
    var x1 := SwapLow(x0, off, v, asc, a, b);
    x := SwapHigh(x1, v, asc, b, d, off + len);
    lt, gt := b - a, d - c;
  }

  /** The first `vecswap`: the tied cells off..a-1 trade places with the
      last cells of the block a..b-1 that comes before v. */
  method SwapLow(x0: seq<Cell>, off: int, v: int, asc: bool, a: int, b: int) returns (x1: seq<Cell>)
    requires 0 <= off <= a <= b <= |x0|
    requires AllEqual(x0, off, a, asc, v) && AllBelow(x0, a, b, asc, v)
    ensures Unchanged(x1, x0, off, b) && multiset(x1) == multiset(x0)
    ensures AllBelow(x1, off, off + (b - a), asc, v) && AllEqual(x1, off + (b - a), b, asc, v)
  {
    var s := Min(a - off, b - a);
    x1 := VecSwap(x0, off, b - s, s);
    LowBlocksSwapped(x0, x1, off, a, b, s, asc, v);
  }

  /** The second `vecswap`: the tied cells d+1..n-1 trade places with the
      first cells of the block b..d that comes after v. */
  method SwapHigh(x1: seq<Cell>, v: int, asc: bool, b: int, d: int, n: int) returns (x: seq<Cell>)
    requires 0 <= b <= d + 1 <= n <= |x1|
    requires AllAbove(x1, b, d + 1, asc, v) && AllEqual(x1, d + 1, n, asc, v)
    ensures Unchanged(x, x1, b, n) && multiset(x) == multiset(x1)
    ensures AllEqual(x, b, n - (d + 1 - b), asc, v) && AllAbove(x, n - (d + 1 - b), n, asc, v)
  {
    var s := Min(d + 1 - b, n - d - 1);
    x := VecSwap(x1, b, n - s, s);
    HighBlocksSwapped(x1, x, b, d, n, s, asc, v);
  }

  /** `Math.min`. */
  function Min(p: int, q: int): (r: int)
    ensures r <= p && r <= q && (r == p || r == q)
  {
    if p < q then p else q
  }

  lemma LowBlocksSwapped(x0: seq<Cell>, x1: seq<Cell>, off: int, a: int, b: int, s: int, asc: bool, v: int)
    requires 0 <= off <= a <= b <= |x0| == |x1|
    requires s == Min(a - off, b - a)
    requires AllEqual(x0, off, a, asc, v) && AllBelow(x0, a, b, asc, v)
    requires forall k :: 0 <= k < |x0| && !(off <= k < off + s) && !(b - s <= k < b) ==> x1[k] == x0[k]
    requires forall k :: off <= k < off + s ==> x1[k] == x0[k - off + (b - s)]
    requires forall k :: b - s <= k < b ==> x1[k] == x0[k - (b - s) + off]
    ensures AllBelow(x1, off, off + (b - a), asc, v) && AllEqual(x1, off + (b - a), b, asc, v)
  {
    forall j | off <= j < off + (b - a)
      ensures Key(x1[j].0, asc) < Key(v, asc)
    {
      if j < off + s {
        assert x1[j] == x0[j - off + (b - s)];
      }
    }
    forall j | off + (b - a) <= j < b
      ensures Key(x1[j].0, asc) == Key(v, asc)
    {
      if j >= b - s {
        assert x1[j] == x0[j - (b - s) + off];
      }
    }
  }

  lemma HighBlocksSwapped(x1: seq<Cell>, x: seq<Cell>, b: int, d: int, n: int, s: int, asc: bool, v: int)
    requires 0 <= b <= d + 1 <= n <= |x1| == |x|
    requires s == Min(d + 1 - b, n - d - 1)
    requires AllAbove(x1, b, d + 1, asc, v) && AllEqual(x1, d + 1, n, asc, v)
    requires forall k :: 0 <= k < |x1| && !(b <= k < b + s) && !(n - s <= k < n) ==> x[k] == x1[k]
    requires forall k :: b <= k < b + s ==> x[k] == x1[k - b + (n - s)]
    requires forall k :: n - s <= k < n ==> x[k] == x1[k - (n - s) + b]
    ensures AllEqual(x, b, n - (d + 1 - b), asc, v) && AllAbove(x, n - (d + 1 - b), n, asc, v)
    ensures forall k :: 0 <= k < |x1| && !(b <= k < n) ==> x[k] == x1[k]
  {
    forall j | b <= j < n - (d + 1 - b)
      ensures Key(x[j].0, asc) == Key(v, asc)
    {
      if j < b + s {
        assert x[j] == x1[j - b + (n - s)];
      }
    }
    forall j | n - (d + 1 - b) <= j < n
      ensures Key(x[j].0, asc) > Key(v, asc)
    {
      if j >= n - s {
        assert x[j] == x1[j - (n - s) + b];
      }
    }
  }

  // ---------------------------------------------------------- quicksort

  /** `quickSort1(x, indices, off, len, isAscending)` and
      `quickSort2(x, y, off, len, isAscending)`: sorts cells off..off+len-1
      by their first component, permuting whole cells and leaving every
      other cell alone. */
  method QuickSort(x0: seq<Cell>, off: int, len: int, asc: bool) returns (x: seq<Cell>)
    requires 0 <= off && 0 <= len && off + len <= |x0|
    ensures Unchanged(x, x0, off, off + len) && multiset(x) == multiset(x0)
    ensures SortedBy(x, off, off + len, asc)
    decreases len
  {
    if len < Small {
      x := InsertionSort(x0, off, len, asc);
      return;
    }
    var m := PivotIndex(x0, off, len);
    var v := x0[m].0;
    var x1, a, b, c, d := Partition(x0, off, len, v, asc);
    PivotIsTied(x0, x1, off, len, m, asc, a, b, c, d);
    var x2, lt, gt := SwapBack(x1, off, len, v, asc, a, b, c, d);
    var n := off + len;
    var x3 := x2;
    if lt > 1 {
      x3 := QuickSort(x2, off, lt, asc);
    }
    x := x3;
    if gt > 1 {
      x := QuickSort(x3, n - gt, gt, asc);
    }
    Assemble(x2, x3, x, off, len, lt, gt, asc, v);
  }

  /** After both recursive calls the range reads (before, sorted)(tied)
      (after, sorted), which is sorted. */
  lemma Assemble(x2: seq<Cell>, x3: seq<Cell>, x: seq<Cell>, off: int, len: int, lt: int, gt: int, asc: bool, v: int)
    requires 0 <= off && 0 <= lt && 0 <= gt && lt + gt <= len && off + len <= |x2|
    requires AllBelow(x2, off, off + lt, asc, v) && AllEqual(x2, off + lt, off + len - gt, asc, v)
    requires AllAbove(x2, off + len - gt, off + len, asc, v)
    requires Unchanged(x3, x2, off, off + lt) && multiset(x3) == multiset(x2) && SortedBy(x3, off, off + lt, asc)
    requires Unchanged(x, x3, off + len - gt, off + len) && multiset(x) == multiset(x3)
    requires SortedBy(x, off + len - gt, off + len, asc)
    ensures Unchanged(x, x2, off, off + len) && multiset(x) == multiset(x2)
    ensures SortedBy(x, off, off + len, asc)
  {
    var n := off + len;
    KeepsRegion(x2, x3, off, off + lt, asc, v, true);
    KeepsRegion(x3, x, n - gt, n, asc, v, false);
    assert AllBelow(x, off, off + lt, asc, v) by {
      assert forall k :: off <= k < off + lt ==> x[k] == x3[k];
    }
    assert AllEqual(x, off + lt, n - gt, asc, v) by {
      assert forall k :: off + lt <= k < n - gt ==> x[k] == x3[k] == x2[k];
    }
    assert SortedBy(x, off, off + lt, asc) by {
      assert forall k :: off <= k < off + lt ==> x[k] == x3[k];
    }
    Concatenated(x, off, off + lt, n - gt, n, asc, v);
  }

  /** The partition value's own cell is in a tied region, so at least one
      cell ends up between the two sub-ranges and both are shorter than
      the range. */
  lemma PivotIsTied(x0: seq<Cell>, x: seq<Cell>, off: int, len: int, m: int, asc: bool, a: int, b: int, c: int, d: int)
    requires 0 <= off <= m < off + len <= |x0|
    requires Unchanged(x, x0, off, off + len) && multiset(x) == multiset(x0)
    requires off <= a <= b == c + 1 <= d + 1 <= off + len
    requires AllBelow(x, a, b, asc, x0[m].0) && AllAbove(x, c + 1, d + 1, asc, x0[m].0)
    ensures b - a < len && d - c < len
  {
    PermutedInside(x0, x, off, off + len);
    assert x0[m] in multiset(x0[off..off + len]) by {
      assert x0[off..off + len][m - off] == x0[m];
    }
    assert x0[m] in x[off..off + len];
    var k :| 0 <= k < len && x[off..off + len][k] == x0[m];
    assert x[off + k] == x0[m];
  }

  /** Sorting a sub-range permutes its cells, so a region property of the
      whole sub-range survives; `below` picks which one. */
  lemma KeepsRegion(s: seq<Cell>, t: seq<Cell>, lo: int, hi: int, asc: bool, v: int, below: bool)
    requires 0 <= lo <= hi <= |s|
    requires Unchanged(t, s, lo, hi) && multiset(t) == multiset(s)
    requires below ==> AllBelow(s, lo, hi, asc, v)
    requires !below ==> AllAbove(s, lo, hi, asc, v)
    ensures below ==> AllBelow(t, lo, hi, asc, v)
    ensures !below ==> AllAbove(t, lo, hi, asc, v)
  {
    PermutedInside(s, t, lo, hi);
    forall j | lo <= j < hi
      ensures below ==> Key(t[j].0, asc) < Key(v, asc)
      ensures !below ==> Key(t[j].0, asc) > Key(v, asc)
    {
      assert t[lo..hi][j - lo] == t[j];
      assert t[j] in multiset(s[lo..hi]);
      var i :| 0 <= i < hi - lo && s[lo..hi][i] == t[j];
      assert s[lo + i] == t[j];
    }
  }

  /** Cells that are unchanged outside lo..hi-1 in a permutation of the
      whole sequence are a permutation inside it. */
  lemma PermutedInside(s: seq<Cell>, t: seq<Cell>, lo: int, hi: int)
    requires 0 <= lo <= hi <= |s|
    requires Unchanged(t, s, lo, hi) && multiset(t) == multiset(s)
    ensures multiset(t[lo..hi]) == multiset(s[lo..hi])
  {
    ThreeParts(s, lo, hi);
    ThreeParts(t, lo, hi);
    assert t[..lo] == s[..lo];
    assert t[hi..] == s[hi..];
    var a, m, n, c := multiset(s[..lo]), multiset(t[lo..hi]), multiset(s[lo..hi]), multiset(s[hi..]);
    assert a + m + c == a + n + c;
    forall y
      ensures m[y] == n[y]
    {
      assert (a + m + c)[y] == (a + n + c)[y];
    }
  }

  lemma ThreeParts(s: seq<Cell>, lo: int, hi: int)
    requires 0 <= lo <= hi <= |s|
    ensures multiset(s) == multiset(s[..lo]) + multiset(s[lo..hi]) + multiset(s[hi..])
  {
    assert s == s[..lo] + s[lo..hi] + s[hi..];
  }

  /** (before, sorted)(tied)(after, sorted) is sorted. */
  lemma Concatenated(x: seq<Cell>, lo: int, p: int, q: int, hi: int, asc: bool, v: int)
    requires 0 <= lo <= p <= q <= hi <= |x|
    requires AllBelow(x, lo, p, asc, v) && SortedBy(x, lo, p, asc)
    requires AllEqual(x, p, q, asc, v)
    requires AllAbove(x, q, hi, asc, v) && SortedBy(x, q, hi, asc)
    ensures SortedBy(x, lo, hi, asc)
  {
  }

  // ------------------------------------------------------------ entries

  /** `rangeCheck(arrayLen, fromIndex, toIndex)`. */
  function RangeCheck(arrayLen: int, fromIndex: int, toIndex: int): (r: Outcome)
    ensures r == Pass <==> 0 <= fromIndex <= toIndex <= arrayLen
    ensures fromIndex > toIndex ==> r == Fail(IllegalArgument)
    ensures fromIndex <= toIndex && r.Fail? ==> r == Fail(ArrayIndexOutOfBounds)
  {
    if fromIndex > toIndex then Fail(IllegalArgument)
    else if fromIndex < 0 then Fail(ArrayIndexOutOfBounds)
    else if toIndex > arrayLen then Fail(ArrayIndexOutOfBounds)
    else Pass
  }

  /** Pairs up two equally long arrays. */
  function Zip(x: seq<int>, y: seq<int>): (r: seq<Cell>)
    requires |x| == |y|
    ensures |r| == |x| && forall k :: 0 <= k < |x| ==> r[k] == (x[k], y[k])
  {
    seq(|x|, k requires 0 <= k < |x| => (x[k], y[k]))
  }

  function First(c: Cell): int { c.0 }
  function Second(c: Cell): int { c.1 }

  function Firsts(s: seq<Cell>): (r: seq<int>)
    ensures |r| == |s| && forall k :: 0 <= k < |s| ==> r[k] == s[k].0
  {
    MapSeq(s, First)
  }

  function Seconds(s: seq<Cell>): (r: seq<int>)
    ensures |r| == |s| && forall k :: 0 <= k < |s| ==> r[k] == s[k].1
  {
    MapSeq(s, Second)
  }

  /** Permuting cells permutes each of their components. */
  lemma ComponentsPermuted(s: seq<Cell>, t: seq<Cell>)
    requires multiset(s) == multiset(t)
    ensures multiset(Firsts(s)) == multiset(Firsts(t))
    ensures multiset(Seconds(s)) == multiset(Seconds(t))
  {
    MapPermutation(s, t, First);
    MapPermutation(s, t, Second);
  }

  /** `indices(a, fromIndex, toIndex, isAscending)`: the index array
      0..a.length-1 with the part from..to-1 reordered so that it lists
      positions of `a` in the requested order; `a` itself is not sorted. */
  method Indices(a: seq<int>, fromIndex: int, toIndex: int, isAscending: bool) returns (r: Result<seq<int>>)
    ensures RangeCheck(|a|, fromIndex, toIndex).Fail? ==> r == Err(RangeCheck(|a|, fromIndex, toIndex).error)
    ensures RangeCheck(|a|, fromIndex, toIndex) == Pass ==> r.Ok?
    ensures r.Ok? ==> |r.value| == |a| && multiset(r.value) == multiset(Range(0, |a|))
    ensures r.Ok? ==> forall k :: 0 <= k < |a| ==> 0 <= r.value[k] < |a|
    ensures r.Ok? ==> forall k :: 0 <= k < |a| && !(fromIndex <= k < toIndex) ==> r.value[k] == k
    ensures r.Ok? ==> forall i, j :: fromIndex <= i < j < toIndex ==>
      Key(a[r.value[i]], isAscending) <= Key(a[r.value[j]], isAscending)
  {
    var check := RangeCheck(|a|, fromIndex, toIndex);
    if check.Fail? {
      return Err(check.error);
    }
    var lenToSort := toIndex - fromIndex;
    var linspace := Mat.Linspace(0, |a| - 1);
    assert linspace.Ok?;
    var indicesToSort := linspace.value;
    var x0 := Zip(a, indicesToSort);
    var x := QuickSort(x0, fromIndex, lenToSort, isAscending);
    ComponentsPermuted(x, x0);
    assert Seconds(x0) == indicesToSort;
    CellsStayPaired(a, x0, x);
    r := Ok(Seconds(x));
  }

  /** Every cell of a permutation of (a[i], i) still pairs a value with its
      own position. */
  lemma CellsStayPaired(a: seq<int>, x0: seq<Cell>, x: seq<Cell>)
    requires |x0| == |a| && forall k :: 0 <= k < |a| ==> x0[k] == (a[k], k)
    requires multiset(x) == multiset(x0)
    ensures forall k :: 0 <= k < |x| ==> 0 <= x[k].1 < |a| && x[k].0 == a[x[k].1]
  {
    forall k | 0 <= k < |x|
      ensures 0 <= x[k].1 < |a| && x[k].0 == a[x[k].1]
    {
      assert x[k] in multiset(x0);
      var i :| 0 <= i < |x0| && x0[i] == x[k];
    }
  }

  /** `indices(a, isAscending)`: the whole array; it never throws, and for
      ascending order it lists the values of `a` in sorted order. */
  method IndicesOf(a: seq<int>, isAscending: bool) returns (idx: seq<int>)
    ensures |idx| == |a| && multiset(idx) == multiset(Range(0, |a|))
    ensures forall k :: 0 <= k < |a| ==> 0 <= idx[k] < |a|
    ensures forall i, j :: 0 <= i < j < |a| ==> Key(a[idx[i]], isAscending) <= Key(a[idx[j]], isAscending)
    ensures isAscending ==> Mat.Gathered(a, idx) == Mat.Sorted(a)
  {
    var r := Indices(a, 0, |a|, isAscending);
    idx := r.value;
    if isAscending {
      GatheredIsSorted(a, idx);
    }
  }

  /** Reading `a` through a sorting permutation of its positions gives the
      sorted copy of `a`. */
  lemma GatheredIsSorted(a: seq<int>, idx: seq<int>)
    requires |idx| == |a| && multiset(idx) == multiset(Range(0, |a|))
    requires forall k :: 0 <= k < |a| ==> 0 <= idx[k] < |a|
    requires forall i, j :: 0 <= i < j < |a| ==> a[idx[i]] <= a[idx[j]]
    ensures Mat.Gathered(a, idx) == Mat.Sorted(a)
  {
    var g := Mat.Gathered(a, idx);
    var cells := Zip(g, idx);
    var orig := Zip(a, Range(0, |a|));
    assert multiset(cells) == multiset(orig) by {
      PermutationOfPositions(a, idx);
    }
    ComponentsPermuted(cells, orig);
    assert Firsts(cells) == g;
    assert Firsts(orig) == a;
    Mat.SortedSpec(a);
    Mat.AscendingPermutationUnique(g, Mat.Sorted(a));
  }

  /** Pairing each gathered value with its position is a permutation of
      pairing `a` with 0..|a|-1. */
  lemma PermutationOfPositions(a: seq<int>, idx: seq<int>)
    requires |idx| == |a| && multiset(idx) == multiset(Range(0, |a|))
    requires forall k :: 0 <= k < |a| ==> 0 <= idx[k] < |a|
    ensures multiset(Zip(Mat.Gathered(a, idx), idx)) == multiset(Zip(a, Range(0, |a|)))
  {
    var g := Mat.Gathered(a, idx);
    MapPermutation(idx, Range(0, |a|), LabelOf(a));
    assert Zip(a, Range(0, |a|)) == MapSeq(Range(0, |a|), LabelOf(a));
    assert Zip(g, idx) == MapSeq(idx, LabelOf(a));
  }

  /** Pairs a position with the value of `a` there. */
  function LabelOf(a: seq<int>): int -> Cell
  {
    k => (if 0 <= k < |a| then a[k] else 0, k)
  }

  /** `twoArrays(x, y, fromIndex, toIndex, isAscending)`: sorts x[from..to)
      and applies the same reordering to y[from..to). The quicksort touches
      only that range, so the model sorts the paired range and puts it
      back. */
  method TwoArrays(x: seq<int>, y: seq<int>, fromIndex: int, toIndex: int, isAscending: bool)
      returns (r: Result<(seq<int>, seq<int>)>)
    requires 0 <= fromIndex <= toIndex <= |x| ==> toIndex <= |y|
    ensures RangeCheck(|x|, fromIndex, toIndex).Fail? ==> r == Err(RangeCheck(|x|, fromIndex, toIndex).error)
    ensures RangeCheck(|x|, fromIndex, toIndex) == Pass ==> r.Ok?
    ensures r.Ok? ==> |r.value.0| == |x| && |r.value.1| == |y|
    ensures r.Ok? ==> r.value.0[..fromIndex] == x[..fromIndex] && r.value.0[toIndex..] == x[toIndex..]
    ensures r.Ok? ==> r.value.1[..fromIndex] == y[..fromIndex] && r.value.1[toIndex..] == y[toIndex..]
    ensures r.Ok? ==> forall i, j :: fromIndex <= i < j < toIndex ==>
      Key(r.value.0[i], isAscending) <= Key(r.value.0[j], isAscending)
    ensures r.Ok? ==> multiset(Zip(r.value.0[fromIndex..toIndex], r.value.1[fromIndex..toIndex]))
                      == multiset(Zip(x[fromIndex..toIndex], y[fromIndex..toIndex]))
  {
    var check := RangeCheck(|x|, fromIndex, toIndex);
    if check.Fail? {
      return Err(check.error);
    }
    var lenToSort := toIndex - fromIndex;
    var cells0 := Zip(x[fromIndex..toIndex], y[fromIndex..toIndex]);
    var cells := QuickSort(cells0, 0, lenToSort, isAscending);
    assert cells[0..lenToSort] == cells && cells0[0..lenToSort] == cells0;
    var x' := x[..fromIndex] + Firsts(cells) + x[toIndex..];
    var y' := y[..fromIndex] + Seconds(cells) + y[toIndex..];
    assert x'[..fromIndex] == x[..fromIndex] && x'[toIndex..] == x[toIndex..];
    assert y'[..fromIndex] == y[..fromIndex] && y'[toIndex..] == y[toIndex..];
    assert x'[fromIndex..toIndex] == Firsts(cells) && y'[fromIndex..toIndex] == Seconds(cells);
    assert Zip(Firsts(cells), Seconds(cells)) == cells;
    r := Ok((x', y'));
  }
}

=== FILE: unique.dfy ===
/** papaya's `Unique` class (Unique.java): the distinct values of an
    unsorted array, how often each occurs and, on request, where.

    The class works on `float` data and compares values only for equality
    and order; values are modelled as integers. */
module Unique {
  import opened Seqs
  import Mat
  import Find
  import Descriptive

  /** The public fields `values`, `frequencies` and `idx`; `idx` stays
      `null` unless indices were requested. */
  datatype Unique = Unique(values: seq<int>, frequencies: seq<int>, idx: Descriptive.Option<seq<seq<int>>>)

  /** `ps` lists, in ascending order, exactly the positions of v in data. */
  ghost predicate ListsPositions(data: seq<int>, v: int, ps: seq<int>)
  {
    && Increasing(ps)
    && |ps| == Count(data, EqualTo(v))
    && forall k :: k in ps <==> 0 <= k < |data| && data[k] == v
  }

  /** What the constructor's documentation promises about its fields. */
  ghost predicate Describes(data: seq<int>, u: Unique, storeIndices: bool)
  {
    && Increasing(u.values)
    && (forall x :: x in u.values <==> x in data)
    && |u.frequencies| == |u.values|
    && (forall i :: 0 <= i < |u.values| ==> u.frequencies[i] == Count(data, EqualTo(u.values[i])))
    && Sum(u.frequencies) == |data|
    && (u.idx.Some? <==> storeIndices)
    && (u.idx.Some? ==>
          |u.idx.value| == |u.values|
          && forall i :: 0 <= i < |u.values| ==> ListsPositions(data, u.values[i], u.idx.value[i]))
  }

  /** `Unique(float[] data, boolean storeIndices)`: sort a copy, take its
      runs, then look up the positions of every value in the original. */
  method NewUnique(data: seq<int>, storeIndices: bool) returns (u: Unique)
    ensures Describes(data, u, storeIndices)
  {
    var sortedData := Mat.CopyThenSort(data);
    var values, frequencies := Descriptive.Frequencies(sortedData, Descriptive.Some([]));
    var counts := frequencies.value;
    SortedRuns(data, sortedData);
    if !storeIndices {
      return Unique(values, counts, Descriptive.None);
    }
    var idx := IndexLists(data, values, counts);
    u := Unique(values, counts, Descriptive.Some(idx));
  }

  /** The runs of a sorted copy are the distinct values of the original,
      ascending, with their numbers of occurrences. */
  lemma SortedRuns(data: seq<int>, sortedData: seq<int>)
    requires Ascending(sortedData) && multiset(sortedData) == multiset(data)
    ensures Increasing(Descriptive.RunLength(sortedData).values)
    ensures forall x :: x in Descriptive.RunLength(sortedData).values <==> x in data
    ensures forall i :: 0 <= i < |Descriptive.RunLength(sortedData).values| ==>
      Descriptive.RunLength(sortedData).counts[i] == Count(data, EqualTo(Descriptive.RunLength(sortedData).values[i]))
    ensures Sum(Descriptive.RunLength(sortedData).counts) == |data|
  {
    var r := Descriptive.RunLength(sortedData);
    Descriptive.RunLengthCounts(sortedData);
    forall i | 0 <= i < |r.values|
      ensures r.counts[i] == Count(data, EqualTo(r.values[i]))
    {
      CountPermutation(sortedData, data, EqualTo(r.values[i]));
    }
    assert |multiset(sortedData)| == |multiset(data)|;
    forall x
      ensures x in sortedData <==> x in data
    {
      assert x in sortedData <==> x in multiset(sortedData);
      assert x in data <==> x in multiset(data);
    }
  }

  /** The loop filling `idx`, one list per distinct value. */
  method IndexLists(data: seq<int>, values: seq<int>, counts: seq<int>) returns (idx: seq<seq<int>>)
    requires |counts| == |values|
    requires forall i :: 0 <= i < |values| ==> values[i] in data && counts[i] == Count(data, EqualTo(values[i]))
    ensures |idx| == |values|
    ensures forall i :: 0 <= i < |values| ==> ListsPositions(data, values[i], idx[i])
  {
    idx := [];
    for i := 0 to |values|
      invariant |idx| == i
      invariant forall j :: 0 <= j < i ==> ListsPositions(data, values[j], idx[j])
    {
      var found := PositionsOf(data, values[i], counts[i]);
      idx := idx + [found];
    }
  }

  /** One iteration of the constructor's loop: a value seen once is found
      by `indexOf`, any other by `indicesWith`. */
  method PositionsOf(data: seq<int>, v: int, frequency: int) returns (found: seq<int>)
    requires v in data && frequency == Count(data, EqualTo(v))
    ensures ListsPositions(data, v, found)
  {
    Find.IndicesWithMatchesRepeats(data, v);
    if frequency == 1 {
      var first := Find.IndexOf(data, v);
      found := [first];
      forall k | 0 <= k < |data| && data[k] == v
        ensures k == first
      {
        if k > first {
          CountAtLeastTwo(data, first, k, EqualTo(v));
        }
      }
    } else {
      found := Find.IndicesWith(data, v);
    }
  }

  /** The worked example of the documentation: (8,5,6,7,8,5,5) has values
      (5,6,7,8), frequencies (3,1,1,2) and positions {1,5,6}, {2}, {3},
      {0,4}. Any fields that meet the promise are these. */
  lemma DocumentedExample(u: Unique)
    requires Describes([8, 5, 6, 7, 8, 5, 5], u, true)
    ensures u.values == [5, 6, 7, 8]
    ensures u.frequencies == [3, 1, 1, 2]
    ensures u.idx == Descriptive.Some([[1, 5, 6], [2], [3], [0, 4]])
  {
    var data := [8, 5, 6, 7, 8, 5, 5];
    IncreasingUnique(u.values, [5, 6, 7, 8]);
    var idx := u.idx.value;
    var expected := [[1, 5, 6], [2], [3], [0, 4]];
    forall i | 0 <= i < 4
      ensures idx[i] == expected[i]
    {
      IncreasingUnique(idx[i], expected[i]);
    }
    assert idx == expected;
  }

  /** Every position is listed under exactly one value, so the lists have
      as many entries in total as the data. */
  lemma PositionsPartitionData(data: seq<int>, u: Unique, p: int)
    requires Describes(data, u, true) && 0 <= p < |data|
    ensures exists i :: 0 <= i < |u.values| && p in u.idx.value[i]
    ensures forall i :: 0 <= i < |u.values| && p in u.idx.value[i] ==> u.values[i] == data[p]
  {
    assert data[p] in u.values;
    var i :| 0 <= i < |u.values| && u.values[i] == data[p];
    assert ListsPositions(data, u.values[i], u.idx.value[i]);
  }
}
